=== FILE: README.md ===
# Workspace chat backend — a Dafny model of its request core

This project models the request-handling core of an Express + MongoDB +
Redis backend for team chat. The backend has:

- users who register, log in and hold rotating refresh sessions;
- workspaces that users own or belong to as `owner`, `admin` or `member`;
- e-mail invites into a workspace;
- channels inside a workspace, and messages inside a channel;
- a socket gateway that pushes new messages to the subscribers of a channel.

Every handler is a pure step function. It takes the request's inputs and the
state of the two stores:

- `Docs.Db` holds the Mongo collections;
- `Kv.Keyspace` is the Redis keyspace, with per-key expiry.

It returns the reply, given as status and message, together with the new state.

## How the model is built

The middleware chain `requireJWT` → `loadWorkspaceMembership` →
`authorizeWorkspaceRole` is modelled as functions that return
`Step<T> = Halt(reply) | Next(value)`. Each route composes them in the same
order as the source does (`RouteGuard.Guard`).

Anything the code relies on but does not compute itself is a parameter:

- **Token parsing and checking.** `jsonwebtoken`'s signature check is a
  `Codec`, a function from token text to claims. The expiry check is
  `now < exp`.
- **Validators.** `ObjectId.isValid` is `validId`. It also stands for the
  ObjectId cast a Mongo query applies to an id, which throws on a malformed
  id. Zod's e-mail check is `isEmail`. `bcrypt.compare` is `matches`.
- **Fresh values.** Generated ids, jtis, invite tokens and slug suffixes are
  inputs.
- **Store failure.**
  - A Mongo failure is a `dbFails` flag. It makes the handler's first database
    call throw. The result is the handler's 500 reply with the state
    unchanged. A failure of a later call, after a write has been made, is not
    modelled (see Left out).
  - A Redis failure is an `Outage`: the k-th store call of a request and every
    later call fail.
- **Signing secrets.** `JWT_ACCESS_SECRET` and `JWT_REFRESH_SECRET` are
  assumed to differ. A token's secret is read off the shape of its payload
  (`Tokens.Jwt.Secret`), so no token verifies under both secrets.
- **Handlers that send nothing.** The model assumes Express 4, which does
  not catch a rejected promise from an async handler, so nothing is sent.
  The Express version is not visible in the modelled files. A handler
  whose promise rejects without sending a response returns `None` for its
  reply. Register and login, when Redis fails while the session is stored,
  are modelled this way.

The main properties proved are:

- **Role checks and guards.** The role order is a total order with the owner
  on top. Every state-changing route is reachable only through its role gate.
- **Redis keys.** Key families never collide. Each key constructor is
  injective.
- **Rate limiter.** It admits exactly `max` requests in a window, and it
  fails open.
- **Refresh sessions.**
  - A rotated refresh token cannot be replayed.
  - `logout-all` ends every session of a user.
  - A freshly issued refresh token can be rotated.
  - A revoked access token stays revoked.
- **Last owner.**
  - Changing a role never leaves a workspace without an owner.
  - Removing a member never leaves a workspace without an owner.
  - The creator of a workspace is its only owner.
- **Invites.** Sending an invite is idempotent. Accepting one works once only.
  Accepting one never creates an owner.
- **Channels.** Names stay unique within a workspace. Deleting a channel
  removes all of its messages.
- **Messages.** The corrected listing is newest first and returns at most 100
  messages. The listing as written is unbounded (see Findings). Every message
  stays in its channel's workspace.
- **Slugs.** A slug base keeps every ASCII letter and digit of the
  lower-cased name, in order, with single dashes between runs. Computing it
  is idempotent.
- **Indexes.** Registration keeps user e-mails unique. Sending and accepting
  invites keep the invite indexes. Creating a workspace keeps slugs unique.
- **Socket rooms.** A socket only ever joins the rooms of channels its user
  may follow.

## Model

| member | source | states |
|---|---|---|
| Rbac.RoleAtLeast | src/utils/rbac.ts:4-13 | a missing role never qualifies, an owner always does, every role meets itself, and any role meets `member` |
| Rbac.Rank | src/utils/rbac.ts:4-8 | the ranks lie in 1..3, with rank 1 exactly for `member` and rank 3 exactly for `owner` |
| Rbac.ParseRole | src/utils/rbac.ts:4-8 | a parsed role prints back as the text it was parsed from |
| Rbac.ParseRoleName | src/utils/rbac.ts:4-8 | parsing a role's name gives the role back (round trip) |
| Rbac.RoleAtLeastTransitive | src/utils/rbac.ts:10-13 | the role order is transitive |
| Rbac.RoleAtLeastTotal | src/utils/rbac.ts:10-13 | any two roles are comparable, and mutual domination means equality |
| Rbac.StrictSteps | src/utils/rbac.ts:4-8 | member < admin < owner strictly: a member does not meet admin, and an admin does not meet owner |
| Common.Or | src/middleware/workspaceMembership.ts:12 | JavaScript `a \|\| b` on optional strings: the first truthy operand, and the result is truthy iff either operand is |
| Strings.ToLower | src/routes/auth.ts:29 | lower-casing keeps the length and maps every character through the ASCII lower-case map |
| Strings.ToLowerIdempotent | src/routes/auth.ts:29 | lower-casing twice is lower-casing once |
| Strings.TrimIdempotent | src/routes/invites.ts:29 | trimming twice is trimming once |
| Strings.NormalizeEmail | src/routes/invites.ts:29 | a normalized e-mail is the trimmed e-mail lower-cased character by character, so it has no upper-case letter and no surrounding white space |
| Strings.Trim | src/routes/invites.ts:29 | `trim()` returns an infix of its input with only white space cut from each end, and the result neither starts nor ends with white space |
| Strings.NormalizeEmailIdempotent | src/routes/invites.ts:112-113 | normalizing an already normalized e-mail changes nothing, so the accept check compares like with like |
| Tokens.Verify | src/utils/jwt.ts:59-65 | a token is accepted iff it is non-empty, decodes, was signed with the expected secret and has not expired |
| Tokens.SignAccess | src/utils/jwt.ts:45-49 | an access token carries the user's id, e-mail and name and the given jti |
| Tokens.SignRefresh | src/utils/jwt.ts:51-54 | a refresh token is signed with the refresh secret and carries exactly the given user id and jti |
| Tokens.SignedAccessVerifies | src/utils/jwt.ts:45-61 | a signed access token verifies under the access secret exactly until its expiry, and, with the two secrets distinct (see Left out), never under the refresh secret |
| Tokens.SignedRefreshVerifies | src/utils/jwt.ts:51-65 | a signed refresh token verifies back to itself until expiry, and, with the two secrets distinct (see Left out), never as an access token |
| RedisKeys.RtSession | src/redis/keys.ts:4 | `rt:<user>:<jti>` starts with the user's session prefix |
| RedisKeys.AtBlock | src/redis/keys.ts:6 | `at:block:<jti>` is the prefix followed by the jti |
| RedisKeys.RlBucket | src/redis/keys.ts:8 | `rl:<bucket>` is the prefix followed by the bucket |
| RedisKeys.Otp | src/redis/keys.ts:10 | `otp:<purpose>:<subject>` starts with the otp prefix |
| RedisKeys.FamiliesDisjoint | src/redis/keys.ts:4-10 | no key belongs to two key families |
| RedisKeys.ConstructorsDisjoint | src/redis/keys.ts:4-10 | keys built by different constructors never coincide |
| RedisKeys.AtBlockInjective | src/redis/keys.ts:6 | different jtis give different denylist keys |
| RedisKeys.RlBucketInjective | src/redis/keys.ts:8 | different buckets give different rate-limit keys |
| RedisKeys.RtSessionInjective | src/redis/keys.ts:4 | for colon-free user ids, the session key determines both the user and the jti |
| RedisKeys.RtPrefixOwnedByUser | src/redis/keys.ts:4 | for colon-free user ids, only that user's session keys match the `rt:<user>:` pattern used by logout-all |
| Kv.Get | src/auth/refreshStore.ts:16 | GET answers the stored value exactly while the entry is alive |
| Kv.SetEx | src/auth/refreshStore.ts:10 | SET EX stores the value until now + ttl and leaves every other key alone; a non-positive ttl is an error |
| Kv.Del | src/auth/refreshStore.ts:23 | DEL makes the key absent at every time and leaves every other key alone |
| Kv.DelPrefix | src/auth/refreshStore.ts:28-29 | deleting the keys matched by a prefix pattern removes exactly those keys |
| Kv.Incr | src/middleware/rateLimit.ts:24 | INCR starts a missing counter at 1 and otherwise adds one; other keys are untouched |
| Kv.Ttl | src/middleware/rateLimit.ts:25 | TTL is -2 for a missing key, -1 for a key without expiry, otherwise the positive number of seconds left |
| Kv.Expire | src/middleware/rateLimit.ts:31 | EXPIRE sets a live key's deadline to now + seconds, deletes it for a non-positive value, and ignores a missing key |
| RefreshStore.StoreRefreshSession | src/auth/refreshStore.ts:6-11 | the session exists from now for exactly `ttlDays` days and nothing else changes |
| RefreshStore.Days | src/auth/refreshStore.ts:4 | `days(d)` is d × 86400 seconds; it is positive exactly when d is, and always a whole number of days |
| RefreshStore.DeleteRefreshSession | src/auth/refreshStore.ts:20-24 | the session is gone at every time and every other key is kept |
| RefreshStore.HasRefreshSession | src/auth/refreshStore.ts:13-18 | a session is found only through a live `rt:<user>:<jti>` entry, and a live entry counts iff its value is not the empty string (the `!!v` test) |
| RefreshStore.DeleteAllRefreshSessions | src/auth/refreshStore.ts:26-30 | every session of the user is gone and keys outside the user's prefix are kept |
| RefreshStore.DeleteAllKeepsOtherUsers | src/auth/refreshStore.ts:26-30 | logging out all sessions of one user keeps every other user's sessions |
| RefreshStore.SessionOpsKeepOtherFamilies | src/auth/refreshStore.ts:20-30 | session deletion never touches denylist, rate-limit or otp keys |
| RefreshStore.DefaultSessionLifetime | src/auth/refreshStore.ts:4-10 | with `REFRESH_TTL_DAYS` unset, a stored session is alive for exactly 30 days from now and gone afterwards |
| RefreshStore.StoreTwice | src/auth/refreshStore.ts:6-11 | storing the same session twice at one instant is observably storing it once |
| Docs.UserById | src/routes/auth.ts:115 | the lookup finds a user with that id, or there is none |
| Docs.UserByEmail | src/routes/auth.ts:29 | the lookup finds a user with that e-mail, or there is none |
| Docs.WorkspaceById | src/routes/members.ts:12-15 | the lookup finds a workspace with that id, or there is none |
| Docs.ChannelById | src/realtime/socket.ts:63 | the lookup finds a channel with that id, or there is none |
| Docs.OwnersAfterRemove | src/routes/members.ts:17-19 | removing a membership removes at most that user from the workspace's owners |
| Docs.OwnersAfterUpdate | src/routes/members.ts:17-19 | a role update adds, removes or keeps exactly that user among the owners |
| RequireJwt.BearerToken | src/middleware/requireJWT.ts:9-10 | a token is extracted iff the header starts with `Bearer `, and the header is that prefix plus the token |
| RequireJwt.BearerRoundTrip | src/middleware/requireJWT.ts:9-10 | prefixing a token with `Bearer ` and extracting it gives the token back |
| RequireJwt.RequireJWT | src/middleware/requireJWT.ts:7-36 | missing token → 401 "Missing token"; a token that does not verify → 401 "Invalid or expired token"; for a verified token with a truthy jti, a failed denylist lookup → exactly 503 "Auth service unavailable", else a denylisted jti → exactly 401 "Token revoked"; in every other case the request proceeds with the identity from the verified token |
| RequireJwt.EmptyBearerIsMissing | src/middleware/requireJWT.ts:9-13 | `Bearer ` with nothing after it counts as a missing token |
| RequireJwt.RevokedNeverAdmitted | src/middleware/requireJWT.ts:18-28 | a token whose jti is denylisted, or whose lookup fails, is never admitted |
| RequireJwt.RefreshTokenRejected | src/middleware/requireJWT.ts:15 | with the two secrets distinct (see Left out), a refresh token is never accepted as an access token |
| RequireJwt.IssuedTokenAuthenticates | src/middleware/requireJWT.ts:15-32 | an issued, unexpired, unrevoked access token authenticates its own identity |
| WorkspaceMembership.ResolveWorkspaceId | src/middleware/workspaceMembership.ts:12 | the workspace id comes from params, then body, then query: the first truthy source |
| WorkspaceMembership.LoadWorkspaceMembership | src/middleware/workspaceMembership.ts:10-29 | no id → 400; no user → 401; 500 exactly when the lookup throws, including for a malformed workspace id; no membership → 403; otherwise the membership's workspace, user and role |
| WorkspaceMembership.MemberAdmitted | src/middleware/workspaceMembership.ts:16-23 | a member of the resolved workspace is always admitted with their stored role |
| AuthorizeRole.AuthorizeWorkspaceRole | src/middleware/authorizeWorkspaceRole.ts:6-15 | passes iff a membership context is present and its role meets the requirement; otherwise a 403 with the source's message |
| AuthorizeRole.GateMonotonic | src/middleware/authorizeWorkspaceRole.ts:6-15 | whoever passes a stronger gate passes every weaker one |
| AuthorizeRole.GateByRole | src/middleware/authorizeWorkspaceRole.ts:6-15 | owners pass every gate, and members pass exactly the member gate |
| RouteGuard.Guard | src/routes/members.ts:156-160 | the chain lets a request through iff its token authenticates a user who holds, in a well-formed workspace named by the request, a stored membership whose role meets the requirement (and the lookup does not throw); the caller it passes on is that user with that stored membership |
| RouteGuard.OwnerGateWitnessesOwner | src/routes/members.ts:156-160 | passing the owner gate means the stored membership is an owner's |
| RateLimit.Configure | src/middleware/rateLimit.ts:12-15 | window and max come from the options, then the environment, then 60 s and 100; headers unless disabled |
| RateLimit.BucketId | src/middleware/rateLimit.ts:20 | the bucket is the custom bucket, else the truthy IP, else `ip:unknown` |
| RateLimit.RateLimitStep | src/middleware/rateLimit.ts:17-51 | a request is refused with 429 iff its count exceeds max; a store failure fails open; only the bucket's key changes; a new window gets its expiry |
| RateLimit.FirstRequestOpensWindow | src/middleware/rateLimit.ts:23-33 | the first request of a window counts 1 and sets the window's expiry |
| RateLimit.RequestInsideWindow | src/middleware/rateLimit.ts:23-43 | inside a live window the count grows by one and the deadline is kept |
| RateLimit.Replay | src/middleware/rateLimit.ts:17-51 | replaying requests gives one result each, and every refusal is a 429 |
| RateLimit.WindowAdmitsExactlyMax | src/middleware/rateLimit.ts:23-45 | within one window the i-th request passes iff i ≤ max |
| RateLimit.SixthRequestRejected | src/middleware/rateLimit.ts:12-45 | with max 5, five requests in a window pass and the sixth is refused |
| RateLimit.WindowResets | src/middleware/rateLimit.ts:23-33 | once the window's deadline passes, the next request counts 1 again |
| AuthRoutes.IssueSession | src/routes/auth.ts:43-53 | issuing signs an access token for the user, sets a refresh cookie, and stores a refresh session alive for the configured days |
| AuthRoutes.Register | src/routes/auth.ts:21-59 | invalid input → 400; a taken lower-cased e-mail → 409; otherwise a new user with the lower-cased e-mail is stored, and the reply is 201 with a fresh session exactly when the session write succeeds |
| AuthRoutes.Login | src/routes/auth.ts:67-93 | invalid input → 400; unknown e-mail or wrong password → 401 "Invalid credentials"; with the right password, 200 with a new session exactly when the session write succeeds; users are never changed |
| AuthRoutes.VerifiedRefresh | src/routes/auth.ts:98-101 | the presented refresh token (cookie first, then body) is verified as an unexpired refresh token |
| AuthRoutes.PresentedRefresh | src/routes/auth.ts:98 | a non-empty refresh cookie wins over the body's `refreshToken`; a token is presented iff either is non-empty |
| AuthRoutes.Refresh | src/routes/auth.ts:96-146 | missing → 401; invalid → 401; no session → 401; a failed deletion → 401 with nothing changed; a malformed user id → 401 and a missing user → 404, both after the old session is deleted; success deletes the old session and stores the new one |
| AuthRoutes.Logout | src/routes/auth.ts:150-164 | always 204 and clears the cookie; deletes the presented session when the token verifies |
| AuthRoutes.LogoutAll | src/routes/auth.ts:167-180 | a missing token → 401; otherwise 204, deleting every session of the token's user when it verifies |
| AuthRoutes.DenyTtl | src/routes/auth.ts:195 | `max(exp - now, 0)`: while the token is unexpired the denylist lifetime reaches exactly to its expiry, and it is 0 once the token has expired |
| AuthRoutes.RevokeAccess | src/routes/auth.ts:185-203 | no bearer → 400; invalid → 401; for a verified token: no jti/exp → 400, otherwise 503 exactly when the store fails and 204 when it answers; on 204 the jti is denylisted until the token expires |
| AuthRoutes.RefreshSucceeds | src/routes/auth.ts:101-141 | a verified refresh token with a live session and an existing user is rotated with 200 |
| AuthRoutes.RevokedAccessStaysRevoked | src/routes/auth.ts:185-199 | after a successful revoke, requireJWT refuses the token at every later time |
| AuthRoutes.VerifiedTokenHasPositiveDenyTtl | src/routes/auth.ts:195-197 | a token that still verifies gets a positive denylist lifetime, so the SET EX cannot fail on it |
| AuthRoutes.RegisterKeepsUsersUnique | src/models/user.model.ts:15 | registration with a fresh id keeps user ids and e-mails unique |
| AuthRoutes.RegisterThenLogin | src/routes/auth.ts:21-93 | after registering, logging in with the same e-mail and password answers 200 with an access token for the new account |
| AuthRoutes.LoginDoesNotRevealAccounts | src/routes/auth.ts:72-76 | an unknown e-mail and a wrong password give the same reply and change nothing |
| SessionProtocol.ReplayRejected | src/routes/auth.ts:105-112 | after a rotation, presenting the old refresh token again is refused with 401 and changes nothing |
| SessionProtocol.LogoutAllEndsEverySession | src/routes/auth.ts:167-172 | after logout-all, every refresh token of that user is refused |
| SessionProtocol.LoginThenRefresh | src/routes/auth.ts:81-83 | the refresh token issued at login can be rotated while it and its session are alive |
| Members.Paginate | src/routes/members.ts:49-50 | page ≥ 1 and limit clamped to [1, 100] with default 20; skip = (page − 1) · limit |
| Members.TotalPages | src/routes/members.ts:121 | totalPages is at least 1 and is the least page count whose pages cover every row |
| Members.PageSlice | src/routes/members.ts:96-97 | a page is the rows from skip on, at most limit of them |
| Members.EveryRowOnOnePage | src/routes/members.ts:96-97 | every row appears on exactly one page, page ⌊i / limit⌋ + 1 |
| Members.RoleFilter | src/routes/members.ts:52-55 | the role filter is set exactly for `member`, `admin` or `owner` |
| Members.SortBy | src/routes/members.ts:56-58 | selects the sort field: `createdAt` exactly when the query asks for it, otherwise `name`; the listing's order itself is a parameter (see Left out) |
| Members.ListMembers | src/routes/members.ts:35-144 | invalid id → 400; a failed database call → 500; missing workspace → 404; otherwise 200 with at most `limit` rows, each a membership of that workspace with the filtered role; `total` is the number of such memberships and `totalPages` pages cover them |
| Members.ListedCount | src/routes/members.ts:113-120 | counting the filtered collection gives the number of distinct listed memberships |
| Members.EveryListedMemberShown | src/routes/members.ts:96-121 | every listed membership appears on some page within `totalPages` |
| Members.ChangeRole | src/routes/members.ts:156-219 | malformed ids → 400; then, in source order, a failed first lookup → 500, no workspace → 404, a bad body → 400, no target membership → 404, demoting the last owner → 409 (iff), demoting yourself as the last owner → 409 (iff); otherwise 200 with exactly the target's role changed; nothing changes on any other reply |
| Members.ChangeRoleKeepsAnOwner | src/routes/members.ts:185-191 | a workspace with an owner still has one after any role change |
| Members.RemoveMember | src/routes/members.ts:227-279 | malformed ids → 400; then, in source order, a failed first lookup → 500, no workspace → 404, no target membership → 404, an admin removing a non-member → 403 (iff), removing the last owner → 409 "Cannot remove the last owner" (iff); otherwise 204 with exactly the target's membership removed; the "remove yourself" 409 is unreachable; nothing changes on any other reply |
| Members.RemoveKeepsAnOwner | src/routes/members.ts:256-262 | a workspace with an owner still has one after any removal |
| Members.ChangeRoleRoute | src/routes/members.ts:156-203 | a role change happens only behind the owner gate; the "demote yourself" 409 is unreachable |
| Members.OwnerChangesRole | src/routes/members.ts:156-214 | an authenticated owner changing an existing member's role, in a change that leaves an owner behind, is answered 200 with exactly that role changed |
| Members.RemoveMemberRoute | src/routes/members.ts:227-274 | a removal happens only behind the admin gate, and never removes an admin or owner at an admin's request |
| Invites.InviteRole | src/routes/invites.ts:14-17 | the invite role defaults to member, accepts exactly `member` or `admin`, and is never owner |
| Invites.SendInvite | src/routes/invites.ts:19-72 | bad body → 400; a failed first lookup → 500; an existing member → 409; a pending invite → 200 with its role updated; a token or (workspace, e-mail) clash → 409; otherwise 201 with one new invite; each outcome happens exactly in its case, and only invites change |
| Invites.SendKeepsInvitesIndexed | src/models/invite.model.ts:26-41 | sending keeps invite ids, tokens and (workspace, e-mail) pairs unique |
| Invites.SendKeepsNoOwnerInvites | src/routes/invites.ts:14-17 | no invite ever carries the owner role |
| Invites.SendIsIdempotent | src/routes/invites.ts:40-48 | sending the same invite again answers 200 and changes nothing |
| Invites.AcceptedInviteBlocksReinvite | src/models/invite.model.ts:41 | once an invite has been accepted, re-inviting the same e-mail to that workspace is refused with 409 |
| Invites.AcceptInvite | src/routes/invites.ts:92-168 | empty token → 400; a failed first lookup → 500; unknown → 404; accepted → 409; another e-mail → 403; no workspace → 404; already a member → 409; otherwise 201, adding the membership with the invite's role, marking the invite accepted and deleting exactly the other pending invites for the same workspace and normalized e-mail |
| Invites.AcceptKeepsInvitesIndexed | src/models/invite.model.ts:26-41 | accepting keeps invite ids, tokens and (workspace, e-mail) pairs unique |
| Invites.AcceptKeepsOwners | src/routes/invites.ts:133-145 | accepting an invite never changes the owners of any workspace |
| Invites.AcceptIsSingleUse | src/routes/invites.ts:102-108 | an invite token works once: a second accept answers 409 |
| Invites.SendInviteRoute | src/routes/invites.ts:19-28 | an invite is created only by an admin or owner of the workspace, and records that caller as the inviter |
| Invites.AcceptInviteRoute | src/routes/invites.ts:92-145 | an accept changes state only for a verified caller whose e-mail matches the invite |
| Channels.ListChannels | src/routes/channels.ts:11-21 | the listing holds exactly the channels of the workspace |
| Channels.CreateChannel | src/routes/channels.ts:23-46 | an invalid name → 400; a taken name → 409; a free valid name → 201 with the channel appended |
| Channels.RenameChannel | src/routes/channels.ts:49-75 | invalid body → 400; a malformed id sends nothing; a name taken by another channel → 409; unknown channel → 404; a free name on a channel of the workspace → 200 with only the name changed |
| Channels.DeleteChannel | src/routes/channels.ts:78-92 | unknown channel → 404; a channel of the workspace → 200 with the channel and its messages removed |
| Channels.CreateKeepsIndexes | src/models/channel.model.ts:21 | channel creation keeps (workspace, name) and channel ids unique |
| Channels.RenameKeepsIndexes | src/models/channel.model.ts:21 | renaming keeps (workspace, name) and channel ids unique |
| Channels.RenameToOwnName | src/routes/channels.ts:61-73 | renaming a channel to its current name succeeds and changes nothing |
| Channels.DeleteKeepsInvariants | src/routes/channels.ts:86-90 | deletion keeps the indexes and leaves no message without its channel |
| Channels.CreateKeepsAnchored | src/routes/channels.ts:38-42 | creating a channel leaves no message without its channel |
| Channels.RenameKeepsAnchored | src/routes/channels.ts:65-69 | renaming a channel leaves no message without its channel |
| Channels.DeleteIsComplete | src/routes/channels.ts:86-90 | after a deletion neither the channel nor any of its messages remain |
| Channels.ListChannelsRoute | src/routes/channels.ts:11-21 | the listing answers exactly when the member gate passes, and holds only the workspace's channels |
| Channels.CreateChannelRoute | src/routes/channels.ts:25-46 | a channel is created only when the caller's stored role in the workspace is admin or owner |
| Channels.RenameChannelRoute | src/routes/channels.ts:51-75 | a channel is renamed only when the caller's stored role in the workspace is admin or owner |
| Channels.DeleteChannelRoute | src/routes/channels.ts:78-92 | a channel is deleted only when the caller's stored role in the workspace is admin or owner |
| Messages.InjectWorkspaceFromChannel | src/routes/messages.ts:12-18 | a malformed channel id sends nothing; an unknown one → 404; otherwise the channel's workspace id |
| Messages.SortNewestFirst | src/routes/messages.ts:27 | the sort is a permutation of its input and is newest first |
| Messages.Timeline | src/routes/messages.ts:25-27 | the timeline holds exactly the channel's top-level messages before the cursor, newest first |
| Messages.CursorLimit | src/routes/messages.ts:27 | Mongo's limit: 0 means everything, n ≠ 0 means the first \|n\| rows |
| Messages.LimitAsWritten | src/routes/messages.ts:22 | the limit is at most 100 and defaults to 20, with no lower bound |
| Messages.Limit | src/routes/members.ts:50 | the corrected limit is clamped to [1, 100] and defaults to 20, as the member listing does |
| Messages.ListMessagesAsWritten | src/routes/messages.ts:20-30 | as written, the rows are a sub-multiset of the matching messages, newest first; a limit of 0 returns exactly the matching messages, and a negative one returns \|limit\| of them |
| Messages.ListMessages | src/routes/messages.ts:20-30 | the listing returns min(limit, matches) of the matching messages (a sub-multiset of them), never more than 100, newest first, and every omitted message is no newer than every returned one |
| Messages.UnboundedListingAsWritten | src/routes/messages.ts:22 | with 101 messages, limit 0 and limit −101 return 101 rows as written; the corrected listing returns 1 |
| Messages.LimitZeroReturnsEverything | src/routes/messages.ts:22 | a concrete channel of 101 messages is listed in full for `?limit=0` |
| Messages.CreateMessage | src/routes/messages.ts:37-51 | empty body → 400; a truthy malformed parent id sends nothing; with a non-empty body the reply is 201 exactly when the parent is falsy or well-formed, and one new message is stored in the channel's workspace |
| Messages.MessageGuard | src/routes/messages.ts:12-20 | a request passes iff its token authenticates a user, the channel id is well formed and names a channel, and the user is a member of that channel's workspace; the caller passed on is the user the token authenticates |
| Messages.ListMessagesRoute | src/routes/messages.ts:20-30 | messages are listed only to members of the channel's workspace |
| Messages.CreateMessageRoute | src/routes/messages.ts:37-51 | a message is stored only when the channel exists; it goes into that channel and its workspace, its author is a member of that workspace, and nothing else changes |
| Messages.CreateKeepsChannelWorkspace | src/routes/messages.ts:12-18 | every stored message stays in its channel's workspace |
| Workspaces.Collapse | src/routes/workspaces.ts:18-20 | runs of non-slug characters become a single dash, and slug characters are kept |
| Workspaces.CollapseDashSeparated | src/routes/workspaces.ts:18-20 | after collapsing there are never two dashes in a row |
| Workspaces.StripDashes | src/routes/workspaces.ts:21 | stripping the leading and trailing dash of a dash-separated string gives a slug-shaped string |
| Workspaces.SlugBase | src/routes/workspaces.ts:18-21 | the slug base holds only [a-z0-9] runs joined by single dashes |
| Workspaces.CollapseKeepsSlugChars | src/routes/workspaces.ts:19-20 | collapsing keeps every [a-z0-9] character, in order |
| Workspaces.StripDashesKeepsSlugChars | src/routes/workspaces.ts:21 | stripping the end dashes removes no letter or digit |
| Workspaces.SlugBaseKeepsSlugChars | src/routes/workspaces.ts:18-21 | the slug base's letters and digits are exactly those of the lower-cased name, in order, and it is slug-shaped |
| Workspaces.SlugShapedIsLower | src/routes/workspaces.ts:19 | a slug has no upper-case letter |
| Workspaces.SlugBaseIdempotent | src/routes/workspaces.ts:18-21 | slugifying a slug base gives it back |
| Workspaces.NoAlphanumericsEmptyBase | src/routes/workspaces.ts:18-22 | a name with no ASCII letter or digit gives an empty base, so the slug is `-<suffix>` |
| Workspaces.Slug | src/routes/workspaces.ts:18-22 | the slug is the base, a dash, then the random suffix |
| Workspaces.CreateWorkspace | src/routes/workspaces.ts:14-36 | bad name → 400; a taken slug → 409; with a free slug, 201 with the workspace and an owner membership for the caller, or 409 with the workspace stored when that membership already exists |
| Workspaces.CreatorIsSoleOwner | src/routes/workspaces.ts:23-24 | the new workspace has exactly one owner, its creator |
| Workspaces.CreateKeepsSlugsUnique | src/models/workspace.model.ts:14 | workspace slugs stay unique |
| Workspaces.MembershipsOf | src/routes/workspaces.ts:41 | the caller's memberships, keyed by workspace, with their roles |
| Workspaces.ListWorkspaces | src/routes/workspaces.ts:38-46 | the listing holds exactly the workspaces the caller belongs to, with the caller's role in each |
| Workspaces.CreatedWorkspaceIsListed | src/routes/workspaces.ts:14-46 | after creating a workspace, the creator's listing shows it with the owner role |
| Workspaces.CreateWorkspaceRoute | src/routes/workspaces.ts:14-26 | a workspace is created only for a verified caller, who becomes its owner |
| Workspaces.ListWorkspacesRoute | src/routes/workspaces.ts:38-44 | a verified caller sees only the workspaces they belong to |
| Realtime.UserRoom | src/realtime/socket.ts:11 | `user:<id>` is the prefix followed by the id |
| Realtime.ChannelRoom | src/realtime/socket.ts:12 | `channel:<id>` is the prefix followed by the id |
| Realtime.WorkspaceRoom | src/realtime/socket.ts:13 | `workspace:<id>` is the prefix followed by the id |
| Realtime.RoomFamiliesDisjoint | src/realtime/socket.ts:10-14 | rooms of different families never share a name |
| Realtime.RoomsInjective | src/realtime/socket.ts:10-14 | within one family, the room name determines the id |
| Realtime.HandshakeToken | src/realtime/socket.ts:43-47 | the handshake token is `auth.token` when it is truthy, else the rest of a `Bearer ` header, else nothing |
| Realtime.AdmitSocket | src/realtime/socket.ts:41-55 | a socket is admitted iff it presents a token that verifies as an access token, and then carries that token's identity |
| Realtime.Connect | src/realtime/socket.ts:57-59 | a new connection is in its user room and nowhere else |
| Realtime.Subscribe | src/realtime/socket.ts:61-69 | a socket joins a channel room iff the channel exists and its user is a member of the channel's workspace |
| Realtime.Unsubscribe | src/realtime/socket.ts:71-75 | unsubscribing leaves that channel's room; a falsy id does nothing |
| Realtime.HandlersKeepRoomsAuthorized | src/realtime/socket.ts:61-75 | subscribe and unsubscribe keep every room of a socket authorized |
| Realtime.Publish | src/realtime/socket.ts:100-111 | an event goes to the message's channel room, and nowhere before initialisation |
| Realtime.ReceiversMayFollow | src/realtime/socket.ts:100-111 | provided the socket's rooms are authorized against the current database (`RoomsAuthorized`), a socket that receives a published message is a member of the workspace of that message's channel (see Left out for removals) |
| Realtime.HandshakeIgnoresDenylist | src/realtime/socket.ts:49-50 | the socket handshake admits an access token whose jti is denylisted, which requireJWT refuses |

## Left out

- Token signing and verifying: the JWT signature, the `ms` duration parser
  and the clock are parameters (`Codec`, TTLs in seconds, `now`). The refresh
  JWT's lifetime (`JWT_REFRESH_EXPIRES`, 7 days by default) and the session's
  lifetime (`REFRESH_TTL_DAYS`, 30 by default) are separate parameters,
  because the source keeps them separate.
- bcrypt hashing and comparison, `crypto.randomBytes`, invite tokens and slug
  suffixes: these are parameters (`hash`, `matches`, `Fresh`,
  `InviteGen`, `WorkspaceGen`).
- Zod's e-mail check and `ObjectId.isValid`: these are oracle parameters
  (`isEmail`, `validId`).
- `parseInt` and `NaN` in query strings: query numbers arrive as optional
  integers. An unparsable `page` or `limit` is not modelled.
- An Invalid Date built from `before`: the cursor arrives as an optional
  integer timestamp.
- Members.ListMembers: the case-insensitive `$regex` search over name and
  e-mail is not modelled. The listing is a filter by role and an order given
  as a parameter. That order lists every membership once, but what it sorts
  by (name or creation time) is not modelled. A search string that is not a
  valid regular expression throws; that is covered only by the `dbFails`
  500.
- Messages.SortNewestFirst: the order of messages with equal `createdAt` is
  not modelled. Mongo's tie order is unspecified.
- Strings.ToLower: lower-cases ASCII only. Unicode case mapping is not
  modelled, and the slug is modelled as ASCII only for the same reason.
- Concurrency: two requests racing between a check and a write are not
  modelled. This covers the Mongo duplicate-key 11000 path of accept ("Already
  a member or duplicate") and the gap between the rate limiter's
  `MULTI INCR TTL` and its `EXPIRE`.
- Kv.Incr: `INCR` on a non-counter value is an error in the model. The
  limiter never stores text under an `rl:` key.
- Mongo failures in the channel and message handlers: these handlers have no
  `try`, so under Express 4 a failed query rejects the promise and nothing is
  sent. The model gives no reply (`None`) only where the failure comes from a
  malformed id (`validId`); a database outage is not a parameter there.
- Mongo failures in the workspace handlers: `src/routes/workspaces.ts:34` and
  `:45` pass the error to `next(err)`, that is to Express's default error
  handler, which is not part of the model. Those handlers take no failure
  flag.
- Mongo failures in the auth handlers. Register's `findOne` and `create` and
  login's `findOne` have no `try`, so the promise rejects and nothing is sent.
  In refresh, a failing `User.findById` is caught and answered 401 "Invalid
  refresh token" after the old session has been deleted
  (`src/routes/auth.ts:115`, `:142-145`). The model covers that path only for
  a malformed user id; a database outage there is not a parameter.
- Failures after a write: `dbFails` makes only a handler's first database
  call throw. If a later call throws after a write, the source answers 500
  with the write kept. An example is accept, where the membership is created
  and then `save` or `deleteMany` throws. The model does not promise anything
  for these partial writes.
- Zod length limits count UTF-16 code units, and JavaScript's `trim` strips
  Unicode white space. The model counts characters and trims ASCII white
  space. This affects channel names (1 to 64), workspace names (1 to 80),
  user names (1 to 100) and passwords (6 to 128). Strings outside the Basic
  Multilingual Plane, and Unicode white space, are not modelled.
- Tokens.SignedAccessVerifies: "never under the refresh secret" assumes the
  two secrets differ. `src/utils/jwt.ts:9-10` reads them from two
  environment variables and never compares them. With equal secrets,
  `verifyAccessToken` and `verifyRefreshToken` accept each other's tokens.
- Tokens.SignedRefreshVerifies: "never as an access token" rests on the same
  assumption that the two secrets differ.
- RequireJwt.RefreshTokenRejected: holds only when the two secrets differ.
  With equal secrets, requireJWT admits a refresh token and attaches a user
  whose `email` and `name` are undefined. Equal secrets are not modelled.
- AuthRoutes.RevokeAccess: `jwt.verify` and `Date.now()`
  (`src/routes/auth.ts:190`, `:195`) read the clock separately. The model
  reads one `now`, so a token that verifies always gets a denylist lifetime
  of at least 1. In the source a token verified in its last second can get
  `AuthRoutes.DenyTtl` = 0. `SET … EX 0` is then an error and the reply is
  503 "Redis unavailable". That path is not modelled.
- Kv.DelPrefix: `KEYS rt:<user>:*` is a glob. A user id containing `*`, `?`
  or `[` would match other keys. The model treats the pattern as a plain
  prefix; user ids are ObjectIds and never contain these characters.
- Cookie attributes, response headers other than the rate-limit ones, and
  JSON bodies: a reply is its status and message. The rate-limit headers are
  modelled as numbers.
- socket.io internals: the Redis adapter, connection-state recovery, CORS,
  and `closeRealtime`. A socket is its user and its set of rooms.
- The mailer, the app bootstrap, logging and configuration loading.
- Realtime.ReceiversMayFollow: holds only while every socket's rooms are
  authorized against the current database. Removing a member or deleting a
  channel never evicts sockets from `channel:<id>` rooms, so a removed
  member's socket keeps receiving that channel's messages until it
  unsubscribes or disconnects. The model does not promise
  `RoomsAuthorized` across those writes.
- Message editing and deletion: the message routes have no such endpoints;
  only the socket publishers for those events are modelled.
- Messages.ListMessages: the routes use this corrected version, which clamps
  the limit to [1, 100]. The source's own behaviour is
  `Messages.ListMessagesAsWritten` (see Findings).

## Findings

| source | as written | input that shows it | evidently intended | confidence | as-written member | corrected member |
|---|---|---|---|---|---|---|
| src/routes/messages.ts:22 | `limit = Math.min(parseInt(limit), 100)` with no lower bound, and Mongo treats `limit(0)` as "no limit" and `limit(-n)` as `n` | `GET /channels/:id/messages?limit=0` (or `?limit=-101`) on a channel with 101 top-level messages returns all 101 | at most 100 rows, with the limit clamped to [1, 100] as `src/routes/members.ts:50` does | not executed | Messages.ListMessagesAsWritten (shown by Messages.UnboundedListingAsWritten and Messages.LimitZeroReturnsEverything) | Messages.ListMessages |

=== FILE: auth_routes.dfy ===
/** The authentication routes (src/routes/auth.ts): register, login, refresh
    (rotation of the refresh session), logout, logout-all and revoke-access.
    Each handler is one atomic step over the user collection and the keyspace. */
module AuthRoutes {
  import opened Common
  import opened Strings
  import opened Tokens
  import opened Kv
  import opened RedisKeys
  import opened RefreshStore
  import opened Docs
  import opened RequireJwt
  import opened Collections

  /** What a handler does to the refresh-token cookie. */
  datatype CookieAction = KeepCookie | SetRefreshCookie(token: Jwt) | ClearRefreshCookie

  /** A handler's outcome: the reply (`None` when the handler's promise
      rejects and no response is sent), the cookie action, the access token
      in the body, and the new state. */
  datatype AuthResult = AuthResult(reply: Option<Reply>, cookie: CookieAction, access: Option<Jwt>, db: Db, ks: Keyspace)

  /** Deployment settings and the environment of one request: the codec, the
      clock, token lifetimes in seconds, REFRESH_TTL_DAYS, and which store
      call fails first. */
  datatype AuthEnv = AuthEnv(codec: Codec, now: int, accessTtl: nat, refreshTtl: nat, sessionDays: int, outage: Outage)

  /** The values a handler draws from its generators: a new user's ObjectId,
      the access token's jti and the refresh session's jti. */
  datatype Fresh = Fresh(userId: string, accessJti: string, refreshJti: string)

  datatype RegisterInput = RegisterInput(email: string, name: string, password: string)

  datatype LoginInput = LoginInput(email: string, password: string)

  const InvalidInput := Reply(400, "Invalid input")
  const InvalidCredentials := Reply(401, "Invalid credentials")
  const MissingRefreshToken := Reply(401, "Missing refresh token")
  const InvalidRefreshToken := Reply(401, "Invalid refresh token")
  const RefreshSessionInvalid := Reply(401, "Refresh session invalid")
  const NoContent := Reply(204, "")

  /** The register body schema; `isEmail` is the email format check. */
  predicate ValidRegister(input: RegisterInput, isEmail: string -> bool) {
    isEmail(input.email) && 1 <= |input.name| <= 100 && 6 <= |input.password| <= 128
  }

  /** The login body schema. */
  predicate ValidLogin(input: LoginInput, isEmail: string -> bool) {
    isEmail(input.email) && |input.password| >= 6
  }

  /** The outcome of a handler that answers without changing anything. */
  function Answer(reply: Reply, db: Db, ks: Keyspace): AuthResult {
    AuthResult(Some(reply), KeepCookie, None, db, ks)
  }

  /** Issues the token pair for a user and stores the refresh session; the
      session write is store call `call`. A failed write rejects the
      handler's promise, and no response is sent. */
  function IssueSession(user: User, gen: Fresh, meta: Option<SessionMeta>, status: int, call: nat,
                        db: Db, ks: Keyspace, env: AuthEnv): (r: AuthResult)
    ensures r.db == db
    ensures r.reply.None? <==> env.outage.Fails(call) || env.sessionDays <= 0
    ensures r.reply.None? ==> r.ks == ks
    ensures r.reply.Some? ==>
      && r.reply.value == Reply(status, "accessToken")
      && r.cookie == SetRefreshCookie(SignRefresh(user.id, gen.refreshJti, env.now, env.refreshTtl))
      && r.access == Some(SignAccess(Identity(user.id, user.email, user.name), gen.accessJti, env.now, env.accessTtl))
      && (forall t :: env.now <= t < env.now + Days(env.sessionDays) ==> HasRefreshSession(r.ks, t, user.id, gen.refreshJti))
      && forall k, t :: k != RtSession(user.id, gen.refreshJti) ==> Get(r.ks, t, k) == Get(ks, t, k)
  {
    var access := SignAccess(Identity(user.id, user.email, user.name), gen.accessJti, env.now, env.accessTtl);
    var refresh := SignRefresh(user.id, gen.refreshJti, env.now, env.refreshTtl);
    if env.outage.Fails(call) then AuthResult(None, KeepCookie, None, db, ks)
    else
      match StoreRefreshSession(ks, env.now, env.sessionDays, user.id, gen.refreshJti, meta)
      case None => AuthResult(None, KeepCookie, None, db, ks)
      case Some(ks') => AuthResult(Some(Reply(status, "accessToken")), SetRefreshCookie(refresh), Some(access), db, ks')
  }

  /** POST /register. `hash` is the bcrypt hash of the password. The user is
      created before the session is stored, so it persists even when the
      session write fails. */
  function Register(input: RegisterInput, isEmail: string -> bool, hash: string, gen: Fresh,
                    meta: Option<SessionMeta>, db: Db, ks: Keyspace, env: AuthEnv): (r: AuthResult)
    ensures !ValidRegister(input, isEmail) ==> r == Answer(InvalidInput, db, ks)
    ensures ValidRegister(input, isEmail) && UserByEmail(db, ToLower(input.email)).Some? ==>
      r == Answer(Reply(409, "Email already in use"), db, ks)
    ensures ValidRegister(input, isEmail) && UserByEmail(db, ToLower(input.email)).None? ==>
      && r.db == db.(users := db.users + [User(gen.userId, ToLower(input.email), input.name, hash)])
      && (r.reply.Some? ==> r.reply.value.status == 201 && HasRefreshSession(r.ks, env.now, gen.userId, gen.refreshJti))
    ensures r.reply.Some? && r.reply.value.status == 201 ==>
      && r.cookie == SetRefreshCookie(SignRefresh(gen.userId, gen.refreshJti, env.now, env.refreshTtl))
      && r.access.Some? && r.access.value.AccessJwt? && IdentityOf(r.access.value) == Identity(gen.userId, ToLower(input.email), input.name)
      && forall k, t :: k != RtSession(gen.userId, gen.refreshJti) ==> Get(r.ks, t, k) == Get(ks, t, k)
    ensures ValidRegister(input, isEmail) && UserByEmail(db, ToLower(input.email)).None? ==>
      (r.reply == Some(Reply(201, "accessToken")) <==> !env.outage.Fails(0) && env.sessionDays > 0)
  {
    if !ValidRegister(input, isEmail) then Answer(InvalidInput, db, ks)
    else if UserByEmail(db, ToLower(input.email)).Some? then Answer(Reply(409, "Email already in use"), db, ks)
    else
      var user := User(gen.userId, ToLower(input.email), input.name, hash);
      var db' := db.(users := db.users + [user]);
      IssueSession(user, gen, meta, 201, 0, db', ks, env)
  }

  /** POST /login. `matches(password, hash)` is the bcrypt comparison. */
  function Login(input: LoginInput, isEmail: string -> bool, matches: (string, string) -> bool, gen: Fresh,
                 meta: Option<SessionMeta>, db: Db, ks: Keyspace, env: AuthEnv): (r: AuthResult)
    ensures !ValidLogin(input, isEmail) ==> r == Answer(InvalidInput, db, ks)
    ensures ValidLogin(input, isEmail) && UserByEmail(db, ToLower(input.email)).None? ==>
      r == Answer(InvalidCredentials, db, ks)
    ensures ValidLogin(input, isEmail) && UserByEmail(db, ToLower(input.email)).Some?
            && !matches(input.password, UserByEmail(db, ToLower(input.email)).value.passwordHash) ==>
      r == Answer(InvalidCredentials, db, ks)
    ensures r.db == db
    ensures r.reply.Some? && r.reply.value.status == 200 ==>
      var u := UserByEmail(db, ToLower(input.email)).value;
      && matches(input.password, u.passwordHash)
      && r.access.Some? && r.access.value.AccessJwt? && IdentityOf(r.access.value) == Identity(u.id, u.email, u.name)
      && r.cookie == SetRefreshCookie(SignRefresh(u.id, gen.refreshJti, env.now, env.refreshTtl))
      && (forall t :: env.now <= t < env.now + Days(env.sessionDays) ==> HasRefreshSession(r.ks, t, u.id, gen.refreshJti))
      && forall k, t :: k != RtSession(u.id, gen.refreshJti) ==> Get(r.ks, t, k) == Get(ks, t, k)
    ensures ValidLogin(input, isEmail) && UserByEmail(db, ToLower(input.email)).Some?
            && matches(input.password, UserByEmail(db, ToLower(input.email)).value.passwordHash) ==>
      (r.reply == Some(Reply(200, "accessToken")) <==> !env.outage.Fails(0) && env.sessionDays > 0)
  {
    if !ValidLogin(input, isEmail) then Answer(InvalidInput, db, ks)
    else
      match UserByEmail(db, ToLower(input.email))
      case None => Answer(InvalidCredentials, db, ks)
      case Some(u) =>
        if !matches(input.password, u.passwordHash) then Answer(InvalidCredentials, db, ks)
        else IssueSession(u, gen, meta, 200, 0, db, ks, env)
  }

  /** `req.cookies.rt || req.body.refreshToken`: a non-empty cookie wins over
      the body. */
  function PresentedRefresh(cookie: Option<string>, body: Option<string>): (t: Option<string>)
    ensures Truthy(cookie) ==> t == cookie
    ensures !Truthy(cookie) ==> t == body
    ensures Truthy(t) <==> Truthy(cookie) || Truthy(body)
  {
    Or(cookie, body)
  }

  /** The refresh token a request presents, verified under the refresh secret. */
  function VerifiedRefresh(cookie: Option<string>, body: Option<string>, codec: Codec, now: int): (j: Option<Jwt>)
    ensures j.Some? ==> j.value.RefreshJwt? && Unexpired(j.value, now)
    ensures j.Some? ==> Truthy(PresentedRefresh(cookie, body)) && codec(PresentedRefresh(cookie, body).value) == j
  {
    var token := PresentedRefresh(cookie, body);
    if Truthy(token) then Verify(codec, RefreshSecret, token.value, now) else None
  }

  /** The session a verified refresh token names: `String(payload.id)` and
      `String(payload.jti)`. */
  function SessionJti(j: Jwt): string {
    JsString(j.jti)
  }

  /** POST /refresh. Store calls: 0 the session lookup, 1 its deletion, 2 the
      new session's write; any failure is answered 401 "Invalid refresh token".
      `validId` says whether the user id is a well-formed ObjectId (a
      malformed one makes the user lookup throw). */
  function Refresh(cookie: Option<string>, body: Option<string>, validId: string -> bool, gen: Fresh,
                   meta: Option<SessionMeta>, db: Db, ks: Keyspace, env: AuthEnv): (r: AuthResult)
    ensures r.db == db
    ensures !Truthy(PresentedRefresh(cookie, body)) ==> r == Answer(MissingRefreshToken, db, ks)
    ensures Truthy(PresentedRefresh(cookie, body)) && VerifiedRefresh(cookie, body, env.codec, env.now).None? ==>
      r == Answer(InvalidRefreshToken, db, ks)
    ensures var j := VerifiedRefresh(cookie, body, env.codec, env.now);
      j.Some? && !env.outage.Fails(0) && !HasRefreshSession(ks, env.now, j.value.id, SessionJti(j.value)) ==>
        r == Answer(RefreshSessionInvalid, db, ks)
    ensures r.reply == Some(Reply(404, "User not found")) ==>
      var j := VerifiedRefresh(cookie, body, env.codec, env.now).value;
      && UserById(db, j.id).None?
      && r.ks == DeleteRefreshSession(ks, j.id, SessionJti(j))
    ensures r.reply.Some? && r.reply.value.status == 200 ==>
      var j := VerifiedRefresh(cookie, body, env.codec, env.now);
      && j.Some?
      && HasRefreshSession(ks, env.now, j.value.id, SessionJti(j.value))
      && (gen.refreshJti != SessionJti(j.value) ==>
            forall t :: !HasRefreshSession(r.ks, t, j.value.id, SessionJti(j.value)))
      && HasRefreshSession(r.ks, env.now, j.value.id, gen.refreshJti)
      && r.cookie == SetRefreshCookie(SignRefresh(j.value.id, gen.refreshJti, env.now, env.refreshTtl))
      && UserById(db, j.value.id).Some?
      && r.access.Some? && r.access.value.AccessJwt? && IdentityOf(r.access.value) == Identity(j.value.id, UserById(db, j.value.id).value.email,
                                                                 UserById(db, j.value.id).value.name)
      && forall k, t :: k != RtSession(j.value.id, SessionJti(j.value)) && k != RtSession(j.value.id, gen.refreshJti)
                        ==> Get(r.ks, t, k) == Get(ks, t, k)
    ensures r.reply.Some? && r.reply.value.status != 200 && r.reply.value.status != 404 ==> r.reply.value.status == 401
    ensures var j := VerifiedRefresh(cookie, body, env.codec, env.now);
      j.Some? && !env.outage.Fails(0) && HasRefreshSession(ks, env.now, j.value.id, SessionJti(j.value)) ==>
        var ks1 := DeleteRefreshSession(ks, j.value.id, SessionJti(j.value));
        && (env.outage.Fails(1) ==> r == Answer(InvalidRefreshToken, db, ks))
        && (!env.outage.Fails(1) && !validId(j.value.id) ==> r == Answer(InvalidRefreshToken, db, ks1))
        && (!env.outage.Fails(1) && validId(j.value.id) && UserById(db, j.value.id).None? ==>
              r == Answer(Reply(404, "User not found"), db, ks1))
  {
    var token := PresentedRefresh(cookie, body);
    if !Truthy(token) then Answer(MissingRefreshToken, db, ks)
    else
      match Verify(env.codec, RefreshSecret, token.value, env.now)
      case None => Answer(InvalidRefreshToken, db, ks)
      case Some(j) =>
        var userId := j.id;
        var oldJti := SessionJti(j);
        if env.outage.Fails(0) then Answer(InvalidRefreshToken, db, ks)
        else if !HasRefreshSession(ks, env.now, userId, oldJti) then Answer(RefreshSessionInvalid, db, ks)
        else if env.outage.Fails(1) then Answer(InvalidRefreshToken, db, ks)
        else
          var ks1 := DeleteRefreshSession(ks, userId, oldJti);
          if !validId(userId) then Answer(InvalidRefreshToken, db, ks1)
          else
            match UserById(db, userId)
            case None => Answer(Reply(404, "User not found"), db, ks1)
            case Some(u) =>
              var access := SignAccess(Identity(u.id, u.email, u.name), gen.accessJti, env.now, env.accessTtl);
              var refresh := SignRefresh(userId, gen.refreshJti, env.now, env.refreshTtl);
              if env.outage.Fails(2) then Answer(InvalidRefreshToken, db, ks1)
              else
                match StoreRefreshSession(ks1, env.now, env.sessionDays, userId, gen.refreshJti, meta)
                case None => Answer(InvalidRefreshToken, db, ks1)
                case Some(ks2) => AuthResult(Some(Reply(200, "accessToken")), SetRefreshCookie(refresh), Some(access), db, ks2)
  }

  /** POST /logout: always 204 with the cookie cleared; the session is deleted
      when the presented token verifies and the store answers (call 0). */
  function Logout(cookie: Option<string>, body: Option<string>, db: Db, ks: Keyspace, env: AuthEnv): (r: AuthResult)
    ensures r.reply == Some(NoContent) && r.cookie == ClearRefreshCookie && r.db == db && r.access.None?
    ensures var j := VerifiedRefresh(cookie, body, env.codec, env.now);
      j.Some? && !env.outage.Fails(0) ==>
        && (forall t :: !HasRefreshSession(r.ks, t, j.value.id, SessionJti(j.value)))
        && forall k, t :: k != RtSession(j.value.id, SessionJti(j.value)) ==> Get(r.ks, t, k) == Get(ks, t, k)
    ensures VerifiedRefresh(cookie, body, env.codec, env.now).None? || env.outage.Fails(0) ==> r.ks == ks
  {
    var ks' :=
      match VerifiedRefresh(cookie, body, env.codec, env.now)
      case None => ks
      case Some(j) => if env.outage.Fails(0) then ks else DeleteRefreshSession(ks, j.id, SessionJti(j));
    AuthResult(Some(NoContent), ClearRefreshCookie, None, db, ks')
  }

  /** POST /logout-all: 401 without a token (the cookie is kept); otherwise 204
      with the cookie cleared, and every session of the token's user deleted
      when it verifies. Store calls: 0 the KEYS scan, 1 the DEL; if either
      fails nothing is deleted. */
  function LogoutAll(cookie: Option<string>, body: Option<string>, db: Db, ks: Keyspace, env: AuthEnv): (r: AuthResult)
    ensures !Truthy(PresentedRefresh(cookie, body)) ==> r == Answer(MissingRefreshToken, db, ks)
    ensures Truthy(PresentedRefresh(cookie, body)) ==>
      r.reply == Some(NoContent) && r.cookie == ClearRefreshCookie && r.db == db && r.access.None?
    ensures var j := VerifiedRefresh(cookie, body, env.codec, env.now);
      j.Some? && !env.outage.Fails(1) ==>
        && (forall jti, t :: !HasRefreshSession(r.ks, t, j.value.id, jti))
        && forall k, t :: !StartsWith(k, RtUserPrefix(j.value.id)) ==> Get(r.ks, t, k) == Get(ks, t, k)
    ensures VerifiedRefresh(cookie, body, env.codec, env.now).None? || env.outage.Fails(1) ==> r.ks == ks
  {
    if !Truthy(PresentedRefresh(cookie, body)) then Answer(MissingRefreshToken, db, ks)
    else
      var ks' :=
        match VerifiedRefresh(cookie, body, env.codec, env.now)
        case None => ks
        case Some(j) => if env.outage.Fails(1) then ks else DeleteAllRefreshSessions(ks, j.id);
      AuthResult(Some(NoContent), ClearRefreshCookie, None, db, ks')
  }

  /** The seconds an access token has left: `max(exp - now, 0)`. */
  function DenyTtl(exp: int, now: int): (s: int)
    ensures s >= 0
    ensures now < exp ==> s >= 1 && now + s == exp
    ensures exp <= now ==> s == 0
  {
    Max(exp - now, 0)
  }

  /** A JavaScript number is truthy unless it is missing or zero. */
  predicate TruthyInt(n: Option<int>) {
    n.Some? && n.value != 0
  }

  /** POST /revoke-access: puts the jti of the presented access token on the
      denylist until the token's own expiry. Its one store call is the SET
      (call 0); a failed SET is answered 503. */
  function RevokeAccess(authorization: Option<string>, db: Db, ks: Keyspace, env: AuthEnv): (r: AuthResult)
    ensures r.db == db && r.cookie == KeepCookie && r.access.None? && r.reply.Some?
    ensures BearerToken(authorization.GetOr("")).None? ==> r == Answer(Reply(400, "Missing bearer"), db, ks)
    ensures BearerToken(authorization.GetOr("")).Some? &&
            Verify(env.codec, AccessSecret, BearerToken(authorization.GetOr("")).value, env.now).None? ==>
      r == Answer(Reply(401, "Invalid token"), db, ks)
    ensures r.reply.value.status != 204 ==> r.ks == ks
    ensures r.reply.value.status == 503 ==> env.outage.Fails(0)
    ensures BearerToken(authorization.GetOr("")).Some? &&
            Verify(env.codec, AccessSecret, BearerToken(authorization.GetOr("")).value, env.now).Some? ==>
      var j := Verify(env.codec, AccessSecret, BearerToken(authorization.GetOr("")).value, env.now).value;
      r.reply.value == if !Truthy(j.jti) || !TruthyInt(j.exp) then Reply(400, "Token missing jti/exp")
                       else if env.outage.Fails(0) then Reply(503, "Redis unavailable")
                       else NoContent
    ensures r.reply.value.status == 204 ==>
      var j := Verify(env.codec, AccessSecret, BearerToken(authorization.GetOr("")).value, env.now).value;
      && Truthy(j.jti) && TruthyInt(j.exp)
      && (forall t :: env.now <= t < j.exp.value ==> Revoked(r.ks, t, j.jti.value))
      && forall k, t :: k != AtBlock(j.jti.value) ==> Get(r.ks, t, k) == Get(ks, t, k)
  {
    match BearerToken(authorization.GetOr(""))
    case None => Answer(Reply(400, "Missing bearer"), db, ks)
    case Some(token) =>
      match Verify(env.codec, AccessSecret, token, env.now)
      case None => Answer(Reply(401, "Invalid token"), db, ks)
      case Some(j) =>
        if !Truthy(j.jti) || !TruthyInt(j.exp) then Answer(Reply(400, "Token missing jti/exp"), db, ks)
        else if env.outage.Fails(0) then Answer(Reply(503, "Redis unavailable"), db, ks)
        else
          match SetEx(ks, env.now, AtBlock(j.jti.value), Text("1"), DenyTtl(j.exp.value, env.now))
          case None => Answer(Reply(503, "Redis unavailable"), db, ks)
          case Some(ks') => AuthResult(Some(NoContent), KeepCookie, None, db, ks')
  }

  /** Rotation goes through whenever it can: a verified refresh token whose
      session is present, for an existing user, with the store answering and
      a positive session lifetime, is answered 200. */
  lemma RefreshSucceeds(cookie: Option<string>, body: Option<string>, validId: string -> bool, gen: Fresh,
                        meta: Option<SessionMeta>, db: Db, ks: Keyspace, env: AuthEnv)
    requires VerifiedRefresh(cookie, body, env.codec, env.now).Some?
    requires var j := VerifiedRefresh(cookie, body, env.codec, env.now).value;
             HasRefreshSession(ks, env.now, j.id, SessionJti(j)) && validId(j.id) && UserById(db, j.id).Some?
    requires env.outage == NoOutage && env.sessionDays > 0
    ensures Refresh(cookie, body, validId, gen, meta, db, ks, env).reply == Some(Reply(200, "accessToken"))
  {
  }

  /** Registration keeps the user indexes when the new id is fresh: the
      email is stored lower-cased and only when no user has it yet. */
  lemma RegisterKeepsUsersUnique(input: RegisterInput, isEmail: string -> bool, hash: string, gen: Fresh,
                                 meta: Option<SessionMeta>, db: Db, ks: Keyspace, env: AuthEnv)
    requires Unique(db.users, UserEmailOf) && Unique(db.users, UserIdOf)
    requires UserById(db, gen.userId).None?
    ensures var db1 := Register(input, isEmail, hash, gen, meta, db, ks, env).db;
            Unique(db1.users, UserEmailOf) && Unique(db1.users, UserIdOf)
  {
    var db1 := Register(input, isEmail, hash, gen, meta, db, ks, env).db;
    if db1 != db {
      var u := User(gen.userId, ToLower(input.email), input.name, hash);
      AppendKeepsUnique(db.users, UserEmailOf, u);
      AppendKeepsUnique(db.users, UserIdOf, u);
    }
  }

  /** A user who has just registered can log in with the same email and
      password: the login finds the new account, not another one, and issues
      an access token for it. */
  lemma RegisterThenLogin(input: RegisterInput, isEmail: string -> bool, hash: string, matches: (string, string) -> bool,
                          gen: Fresh, gen2: Fresh, meta: Option<SessionMeta>, meta2: Option<SessionMeta>,
                          db: Db, ks: Keyspace, env: AuthEnv, env2: AuthEnv)
    requires Register(input, isEmail, hash, gen, meta, db, ks, env).reply == Some(Reply(201, "accessToken"))
    requires matches(input.password, hash)
    requires !env2.outage.Fails(0) && env2.sessionDays > 0
    ensures var r := Register(input, isEmail, hash, gen, meta, db, ks, env);
            var l := Login(LoginInput(input.email, input.password), isEmail, matches, gen2, meta2, r.db, r.ks, env2);
            && l.reply == Some(Reply(200, "accessToken"))
            && l.access.Some? && IdentityOf(l.access.value) == Identity(gen.userId, ToLower(input.email), input.name)
  {
    var r := Register(input, isEmail, hash, gen, meta, db, ks, env);
    var u := User(gen.userId, ToLower(input.email), input.name, hash);
    var p := (x: User) => x.email == ToLower(input.email);
    FindFirstAfterAppend(db.users, p, u);
    assert UserByEmail(r.db, ToLower(input.email)) == Some(u);
  }

  /** Once revoke-access has succeeded, the same Authorization header is never
      admitted by requireJWT again: before the token's expiry its jti is on
      the denylist, and afterwards it no longer verifies. */
  lemma RevokedAccessStaysRevoked(authorization: Option<string>, db: Db, ks: Keyspace, env: AuthEnv, later: int, outage: Outage)
    requires RevokeAccess(authorization, db, ks, env).reply == Some(NoContent)
    requires env.now <= later
    ensures RequireJWT(authorization, env.codec, RevokeAccess(authorization, db, ks, env).ks, later, outage).Halt?
  {
    var token := BearerToken(authorization.GetOr("")).value;
    var j := Verify(env.codec, AccessSecret, token, env.now).value;
    assert PresentedToken(authorization) == Some(token);
    if later < j.exp.value {
      assert Revoked(RevokeAccess(authorization, db, ks, env).ks, later, j.jti.value);
    } else {
      assert Verify(env.codec, AccessSecret, token, later).None?;
    }
  }

  /** Any access token that passes verification is denylisted for at least
      one second, so a successful SET is always accepted by the store. */
  lemma VerifiedTokenHasPositiveDenyTtl(j: Jwt, now: int)
    requires Unexpired(j, now) && TruthyInt(j.exp)
    ensures DenyTtl(j.exp.value, now) >= 1
  {
  }

  /** An unknown email and a wrong password produce the very same outcome, so
      a login attempt does not reveal whether an account exists. */
  lemma LoginDoesNotRevealAccounts(input: LoginInput, isEmail: string -> bool, matches: (string, string) -> bool,
                                   gen: Fresh, meta: Option<SessionMeta>, db1: Db, db2: Db, ks: Keyspace, env: AuthEnv)
    requires ValidLogin(input, isEmail)
    requires UserByEmail(db1, ToLower(input.email)).None?
    requires UserByEmail(db2, ToLower(input.email)).Some?
    requires !matches(input.password, UserByEmail(db2, ToLower(input.email)).value.passwordHash)
    ensures Login(input, isEmail, matches, gen, meta, db1, ks, env).reply
         == Login(input, isEmail, matches, gen, meta, db2, ks, env).reply
         == Some(InvalidCredentials)
    ensures Login(input, isEmail, matches, gen, meta, db1, ks, env).ks == ks
    ensures Login(input, isEmail, matches, gen, meta, db2, ks, env).ks == ks
  {
  }
}

=== FILE: authorize_role.dfy ===
/** The role gate (src/middleware/authorizeWorkspaceRole.ts). */
module AuthorizeRole {
  import opened Common
  import opened Rbac
  import opened WorkspaceMembership

  /** `authorizeWorkspaceRole(required)`: reads `req.membership` and either
      answers 403 or passes the context on untouched. */
  function AuthorizeWorkspaceRole(required: Role, membership: Option<MembershipContext>): (r: Step<MembershipContext>)
    ensures r.Next? <==> membership.Some? && RoleAtLeast(Some(membership.value.role), required)
    ensures r.Next? ==> r.value == membership.value
    ensures membership.None? ==> r == Halt(Reply(403, "No membership context"))
    ensures membership.Some? && r.Halt? ==> r == Halt(Reply(403, "Requires " + RoleName(required) + " role"))
  {
    if membership.None? then Halt(Reply(403, "No membership context"))
    else if !RoleAtLeast(Some(membership.value.role), required) then
      Halt(Reply(403, "Requires " + RoleName(required) + " role"))
    else Next(membership.value)
  }

  /** A caller admitted by a gate is admitted by every gate that asks for a
      role of no higher rank. */
  lemma GateMonotonic(weaker: Role, stronger: Role, membership: Option<MembershipContext>)
    requires Rank(weaker) <= Rank(stronger)
    requires AuthorizeWorkspaceRole(stronger, membership).Next?
    ensures AuthorizeWorkspaceRole(weaker, membership) == AuthorizeWorkspaceRole(stronger, membership)
  {
  }

  /** An owner passes every gate; a member passes only the member gate. */
  lemma GateByRole(ctx: MembershipContext, required: Role)
    ensures ctx.role == Owner ==> AuthorizeWorkspaceRole(required, Some(ctx)) == Next(ctx)
    ensures ctx.role == Member ==> (AuthorizeWorkspaceRole(required, Some(ctx)).Next? <==> required == Member)
  {
  }
}

=== FILE: channels.dfy ===
/** Channel administration (src/routes/channels.ts): listing, creation,
    renaming and deletion with its message cascade. Channel names are unique
    within a workspace (the (workspaceId, name) index of the channel schema),
    and every message refers to an existing channel. */
module Channels {
  import opened Common
  import opened Rbac
  import opened Tokens
  import opened Kv
  import opened Docs
  import opened Collections
  import opened WorkspaceMembership
  import opened RouteGuard

  const MaxChannelName := 64

  /** The body schema: a name of 1 to 64 characters. */
  predicate ValidChannelName(name: string) {
    1 <= |name| <= MaxChannelName
  }

  function ChannelKey(c: Channel): (string, string) { (c.workspaceId, c.name) }

  function ChannelIdOf(c: Channel): string { c.id }

  /** The channel collection's indexes: ids are unique, and so is each
      (workspace, name) pair. */
  ghost predicate ChannelsIndexed(db: Db) {
    Unique(db.channels, ChannelIdOf) && Unique(db.channels, ChannelKey)
  }

  /** Some channel has this id. */
  ghost predicate HasChannel(channels: seq<Channel>, id: string) {
    exists j :: 0 <= j < |channels| && channels[j].id == id
  }

  /** Every message belongs to a channel that exists. */
  ghost predicate MessagesAnchored(db: Db) {
    forall i :: 0 <= i < |db.messages| ==> HasChannel(db.channels, db.messages[i].channelId)
  }

  /** Some channel of workspace `ws` other than `except` is called `name`. */
  predicate NameTaken(channels: seq<Channel>, ws: string, name: string, except: Option<string>) {
    exists j :: 0 <= j < |channels| && ChannelKey(channels[j]) == (ws, name) && Some(channels[j].id) != except
  }

  /** The channel `id` exists and belongs to workspace `ws`. */
  predicate ChannelIn(channels: seq<Channel>, id: string, ws: string) {
    exists j :: 0 <= j < |channels| && channels[j].id == id && channels[j].workspaceId == ws
  }

  /** GET /:workspaceId/channels: the channels of the workspace, in
      collection order. */
  function ListChannels(ws: string, db: Db): (r: seq<Channel>)
    ensures forall c :: c in r <==> c in db.channels && c.workspaceId == ws
  {
    Filter(db.channels, (c: Channel) => c.workspaceId == ws)
  }

  /** POST /:workspaceId/channels. `id` is the new channel's ObjectId. */
  function CreateChannel(ws: string, name: Option<string>, creator: Identity, id: string, db: Db): (r: (Reply, Db))
    ensures name.None? || !ValidChannelName(name.value) ==> r == (Reply(400, "Invalid body"), db)
    ensures name.Some? && ValidChannelName(name.value) ==>
      ((exists j :: 0 <= j < |db.channels| && ChannelKey(db.channels[j]) == (ws, name.value))
         <==> r == (Reply(409, "Channel name already exists"), db))
    ensures r.0.status == 201 ==>
      r.1 == db.(channels := db.channels + [Channel(id, ws, name.value, creator.id)])
    ensures r.1 == db || r.0.status == 201
    ensures name.Some? && ValidChannelName(name.value) && !NameTaken(db.channels, ws, name.value, None) ==>
      r == (Reply(201, "channel"), db.(channels := db.channels + [Channel(id, ws, name.value, creator.id)]))
  {
    if name.None? || !ValidChannelName(name.value) then (Reply(400, "Invalid body"), db)
    else if FindFirst(db.channels, (c: Channel) => c.workspaceId == ws && c.name == name.value).Some? then
      (Reply(409, "Channel name already exists"), db)
    else (Reply(201, "channel"), db.(channels := db.channels + [Channel(id, ws, name.value, creator.id)]))
  }

  /** PATCH /:workspaceId/channels/:channelId. The duplicate check skips the
      channel itself and runs before the channel is looked up; a malformed
      channel id makes that check throw (`None`: the handler's promise
      rejects and no response is sent). */
  function RenameChannel(ws: string, channelId: string, name: Option<string>, validId: string -> bool, db: Db): (r: (Option<Reply>, Db))
    ensures name.None? || !ValidChannelName(name.value) ==> r == (Some(Reply(400, "Invalid body")), db)
    ensures r.0 != Some(Reply(200, "channel")) ==> r.1 == db
    ensures r.0 == Some(Reply(200, "channel")) ==>
      && name.Some? && ValidChannelName(name.value) && validId(channelId)
      && (forall j :: 0 <= j < |db.channels| && db.channels[j].id != channelId ==> ChannelKey(db.channels[j]) != (ws, name.value))
      && exists i :: 0 <= i < |db.channels| && db.channels[i].id == channelId && db.channels[i].workspaceId == ws
           && r.1 == db.(channels := db.channels[i := db.channels[i].(name := name.value)])
    ensures name.Some? && ValidChannelName(name.value) && validId(channelId) ==>
      (r.0 == Some(Reply(404, "Channel not found")) <==>
         && (forall j :: 0 <= j < |db.channels| && db.channels[j].id != channelId ==> ChannelKey(db.channels[j]) != (ws, name.value))
         && (forall j :: 0 <= j < |db.channels| ==> db.channels[j].id != channelId || db.channels[j].workspaceId != ws))
    ensures name.Some? && ValidChannelName(name.value) && !validId(channelId) ==> r == (None, db)
    ensures name.Some? && ValidChannelName(name.value) && validId(channelId) && NameTaken(db.channels, ws, name.value, Some(channelId)) ==>
      r == (Some(Reply(409, "Channel name already exists")), db)
    ensures name.Some? && ValidChannelName(name.value) && validId(channelId) && !NameTaken(db.channels, ws, name.value, Some(channelId))
            && ChannelIn(db.channels, channelId, ws) ==>
      r.0 == Some(Reply(200, "channel"))
  {
    if name.None? || !ValidChannelName(name.value) then (Some(Reply(400, "Invalid body")), db)
    else if !validId(channelId) then (None, db)
    else if FindFirst(db.channels, (c: Channel) => c.workspaceId == ws && c.name == name.value && c.id != channelId).Some? then
      (Some(Reply(409, "Channel name already exists")), db)
    else
      match FindFirst(db.channels, (c: Channel) => c.id == channelId && c.workspaceId == ws)
      case None => (Some(Reply(404, "Channel not found")), db)
      case Some(i) => (Some(Reply(200, "channel")), db.(channels := db.channels[i := db.channels[i].(name := name.value)]))
  }

  /** DELETE /:workspaceId/channels/:channelId: the channel is removed only
      from its own workspace, then every message of that channel id goes. */
  function DeleteChannel(ws: string, channelId: string, validId: string -> bool, db: Db): (r: (Option<Reply>, Db))
    ensures !validId(channelId) ==> r == (None, db)
    ensures validId(channelId) ==>
      (r.0 == Some(Reply(404, "Channel not found")) <==>
         forall j :: 0 <= j < |db.channels| ==> db.channels[j].id != channelId || db.channels[j].workspaceId != ws)
    ensures r.0 != Some(Reply(200, "ok")) ==> r.1 == db
    ensures r.0 == Some(Reply(200, "ok")) ==>
      && r.1.users == db.users && r.1.workspaces == db.workspaces && r.1.memberships == db.memberships && r.1.invites == db.invites
      && (exists i :: 0 <= i < |db.channels| && db.channels[i].id == channelId && db.channels[i].workspaceId == ws
                      && r.1.channels == RemoveAt(db.channels, i))
      && (forall k :: 0 <= k < |r.1.messages| ==> r.1.messages[k].channelId != channelId)
      && (forall k :: 0 <= k < |db.messages| && db.messages[k].channelId != channelId ==> db.messages[k] in r.1.messages)
      && (forall k :: 0 <= k < |r.1.messages| ==> r.1.messages[k] in db.messages)
    ensures validId(channelId) && ChannelIn(db.channels, channelId, ws) ==> r.0 == Some(Reply(200, "ok"))
  {
    if !validId(channelId) then (None, db)
    else
      match FindFirst(db.channels, (c: Channel) => c.id == channelId && c.workspaceId == ws)
      case None => (Some(Reply(404, "Channel not found")), db)
      case Some(i) =>
        (Some(Reply(200, "ok")),
         db.(channels := RemoveAt(db.channels, i),
             messages := RemoveWhere(db.messages, (m: Message) => m.channelId == channelId)))
  }

  /** Creating a channel with a fresh id keeps both channel indexes. */
  lemma CreateKeepsIndexes(ws: string, name: Option<string>, creator: Identity, id: string, db: Db)
    requires ChannelsIndexed(db) && KeyFree(db.channels, ChannelIdOf, id)
    ensures ChannelsIndexed(CreateChannel(ws, name, creator, id, db).1)
  {
    var r := CreateChannel(ws, name, creator, id, db);
    if r.0.status == 201 {
      var c := Channel(id, ws, name.value, creator.id);
      AppendKeepsUnique(db.channels, ChannelIdOf, c);
      AppendKeepsUnique(db.channels, ChannelKey, c);
    }
  }

  /** Renaming keeps both channel indexes: the duplicate check together with
      unique ids leaves no other channel holding the new name. */
  lemma RenameKeepsIndexes(ws: string, channelId: string, name: Option<string>, validId: string -> bool, db: Db)
    requires ChannelsIndexed(db)
    ensures ChannelsIndexed(RenameChannel(ws, channelId, name, validId, db).1)
  {
    var r := RenameChannel(ws, channelId, name, validId, db);
    if r.0 == Some(Reply(200, "channel")) {
      var i :| 0 <= i < |db.channels| && db.channels[i].id == channelId && db.channels[i].workspaceId == ws
               && r.1 == db.(channels := db.channels[i := db.channels[i].(name := name.value)]);
      var x := db.channels[i].(name := name.value);
      ReplaceKeepsUnique(db.channels, ChannelIdOf, i, x);
      if ChannelKey(x) != ChannelKey(db.channels[i]) {
        forall j | 0 <= j < |db.channels|
          ensures ChannelKey(db.channels[j]) != ChannelKey(x)
        {
          if j != i {
            assert ChannelIdOf(db.channels[j]) != ChannelIdOf(db.channels[i]) by {
              if j < i { assert j < i; } else { assert i < j; }
            }
          }
        }
      }
      ReplaceKeepsUnique(db.channels, ChannelKey, i, x);
    }
  }

  /** Renaming a channel to the name it already has succeeds. */
  lemma RenameToOwnName(ws: string, i: nat, validId: string -> bool, db: Db)
    requires ChannelsIndexed(db)
    requires i < |db.channels| && db.channels[i].workspaceId == ws
    requires ValidChannelName(db.channels[i].name) && validId(db.channels[i].id)
    ensures RenameChannel(ws, db.channels[i].id, Some(db.channels[i].name), validId, db) == (Some(Reply(200, "channel")), db)
  {
    var c := db.channels[i];
    forall j | 0 <= j < |db.channels| && db.channels[j].id != c.id
      ensures ChannelKey(db.channels[j]) != (ws, c.name)
    {
      assert j != i;
      if j < i { assert ChannelKey(db.channels[j]) != ChannelKey(db.channels[i]); }
      else { assert ChannelKey(db.channels[i]) != ChannelKey(db.channels[j]); }
    }
    var k := FindFirst(db.channels, (ch: Channel) => ch.id == c.id && ch.workspaceId == ws).value;
    assert db.channels[k].id == c.id;
    assert k == i;
    assert db.channels[i := db.channels[i].(name := c.name)] == db.channels;
  }

  /** Deleting keeps the indexes and leaves every remaining message anchored. */
  lemma DeleteKeepsInvariants(ws: string, channelId: string, validId: string -> bool, db: Db)
    requires ChannelsIndexed(db) && MessagesAnchored(db)
    ensures var db1 := DeleteChannel(ws, channelId, validId, db).1;
            ChannelsIndexed(db1) && MessagesAnchored(db1)
  {
    var r := DeleteChannel(ws, channelId, validId, db);
    if r.0 == Some(Reply(200, "ok")) {
      var i :| 0 <= i < |db.channels| && db.channels[i].id == channelId && db.channels[i].workspaceId == ws
               && r.1.channels == RemoveAt(db.channels, i);
      RemoveAtKeepsUnique(db.channels, ChannelIdOf, i);
      RemoveAtKeepsUnique(db.channels, ChannelKey, i);
      forall k | 0 <= k < |r.1.messages|
        ensures HasChannel(r.1.channels, r.1.messages[k].channelId)
      {
        var m := r.1.messages[k];
        var a :| 0 <= a < |db.messages| && db.messages[a] == m;
        var j :| 0 <= j < |db.channels| && db.channels[j].id == m.channelId;
        assert j != i;
        var j' := if j < i then j else j - 1;
        assert r.1.channels[j'] == db.channels[j];
      }
    }
  }

  /** Creating a channel never orphans a message. */
  lemma CreateKeepsAnchored(ws: string, name: Option<string>, creator: Identity, id: string, db: Db)
    requires MessagesAnchored(db)
    ensures MessagesAnchored(CreateChannel(ws, name, creator, id, db).1)
  {
    var r := CreateChannel(ws, name, creator, id, db);
    if r.0.status == 201 {
      var c := r.1;
      assert c.messages == db.messages;
      forall k | 0 <= k < |c.messages|
        ensures HasChannel(c.channels, c.messages[k].channelId)
      {
        var j :| 0 <= j < |db.channels| && db.channels[j].id == db.messages[k].channelId;
        assert c.channels[j] == db.channels[j];
      }
    } else {
      assert r.1 == db;
    }
  }

  /** Renaming keeps ids, so it never orphans a message. */
  lemma RenameKeepsAnchored(ws: string, channelId: string, name: Option<string>, validId: string -> bool, db: Db)
    requires MessagesAnchored(db)
    ensures MessagesAnchored(RenameChannel(ws, channelId, name, validId, db).1)
  {
    var n := RenameChannel(ws, channelId, name, validId, db);
    if n.0 == Some(Reply(200, "channel")) {
      var i :| 0 <= i < |db.channels| && db.channels[i].id == channelId && db.channels[i].workspaceId == ws
               && n.1 == db.(channels := db.channels[i := db.channels[i].(name := name.value)]);
      forall k | 0 <= k < |n.1.messages|
        ensures HasChannel(n.1.channels, n.1.messages[k].channelId)
      {
        var j :| 0 <= j < |db.channels| && db.channels[j].id == db.messages[k].channelId;
        assert n.1.channels[j].id == db.channels[j].id;
      }
    } else {
      assert n.1 == db;
    }
  }

  /** After a successful delete the channel is gone: with unique ids no
      channel of that id remains, and neither does any of its messages. */
  lemma DeleteIsComplete(ws: string, channelId: string, validId: string -> bool, db: Db)
    requires Unique(db.channels, ChannelIdOf)
    requires DeleteChannel(ws, channelId, validId, db).0 == Some(Reply(200, "ok"))
    ensures var db1 := DeleteChannel(ws, channelId, validId, db).1;
            && (forall j :: 0 <= j < |db1.channels| ==> db1.channels[j].id != channelId)
            && (forall k :: 0 <= k < |db1.messages| ==> db1.messages[k].channelId != channelId)
  {
    var db1 := DeleteChannel(ws, channelId, validId, db).1;
    var i :| 0 <= i < |db.channels| && db.channels[i].id == channelId && db.channels[i].workspaceId == ws
             && db1.channels == RemoveAt(db.channels, i);
    forall j | 0 <= j < |db1.channels|
      ensures db1.channels[j].id != channelId
    {
      var j' := if j < i then j else j + 1;
      assert db1.channels[j] == db.channels[j'] && j' != i;
      if j' < i { assert ChannelIdOf(db.channels[j']) != ChannelIdOf(db.channels[i]); }
      else { assert ChannelIdOf(db.channels[i]) != ChannelIdOf(db.channels[j']); }
    }
  }

  /** The request fields the channel routes read. */
  datatype ChannelRequest = ChannelRequest(authorization: Option<string>, ws: string)

  function ChannelGuard(req: ChannelRequest): GuardRequest {
    GuardRequest(req.authorization, WorkspaceSources(Some(req.ws), None, None))
  }

  /** The list route admits members, so any member of the workspace may list. */
  function ListChannelsRoute(req: ChannelRequest, env: Env, ks: Keyspace, db: Db): (r: Step<seq<Channel>>)
    ensures r.Next? <==> Guard(Member, ChannelGuard(req), env, ks, db).Next?
    ensures r.Next? ==> forall c :: c in r.value ==> c.workspaceId == req.ws
  {
    match Guard(Member, ChannelGuard(req), env, ks, db)
    case Halt(reply) => Halt(reply)
    case Next(_) => Next(ListChannels(req.ws, db))
  }

  /** Creating, renaming and deleting channels sit behind the admin gate: a
      change to the collections means the caller is an admin or owner of the
      route's workspace. */
  function CreateChannelRoute(req: ChannelRequest, name: Option<string>, id: string, env: Env, ks: Keyspace, db: Db): (r: (Reply, Db))
    ensures r.1 != db ==>
      var c := Guard(Admin, ChannelGuard(req), env, ks, db);
      c.Next? && RoleAtLeast(Some(db.memberships[MemberKey(req.ws, c.value.user.id)]), Admin)
  {
    match Guard(Admin, ChannelGuard(req), env, ks, db)
    case Halt(reply) => (reply, db)
    case Next(c) => CreateChannel(req.ws, name, c.user, id, db)
  }

  function RenameChannelRoute(req: ChannelRequest, channelId: string, name: Option<string>,
                              env: Env, ks: Keyspace, db: Db): (r: (Option<Reply>, Db))
    ensures r.1 != db ==>
      var c := Guard(Admin, ChannelGuard(req), env, ks, db);
      c.Next? && RoleAtLeast(Some(db.memberships[MemberKey(req.ws, c.value.user.id)]), Admin)
  {
    match Guard(Admin, ChannelGuard(req), env, ks, db)
    case Halt(reply) => (Some(reply), db)
    case Next(_) => RenameChannel(req.ws, channelId, name, env.validId, db)
  }

  function DeleteChannelRoute(req: ChannelRequest, channelId: string,
                              env: Env, ks: Keyspace, db: Db): (r: (Option<Reply>, Db))
    ensures r.1 != db ==>
      var c := Guard(Admin, ChannelGuard(req), env, ks, db);
      c.Next? && RoleAtLeast(Some(db.memberships[MemberKey(req.ws, c.value.user.id)]), Admin)
  {
    match Guard(Admin, ChannelGuard(req), env, ks, db)
    case Halt(reply) => (Some(reply), db)
    case Next(_) => DeleteChannel(req.ws, channelId, env.validId, db)
  }
}

=== FILE: collections.dfy ===
/** Document-collection queries over sequences: `findOne` returns the first
    match in collection order, `find` keeps the matches in order, and a unique
    index is a key that no two documents share. */
module Collections {
  import opened Common

  /** `findOne(filter)`: the position of the first document satisfying `p`. */
  function FindFirst<T>(s: seq<T>, p: T -> bool): (r: Option<nat>)
    ensures r.Some? ==> r.value < |s| && p(s[r.value])
    ensures r.Some? ==> forall i :: 0 <= i < r.value ==> !p(s[i])
    ensures r.None? <==> forall i :: 0 <= i < |s| ==> !p(s[i])
  {
    if |s| == 0 then None
    else if p(s[0]) then Some(0)
    else match FindFirst(s[1..], p)
      case None => None
      case Some(i) => Some(i + 1)
  }

  /** `find(filter)`: the matching documents, in collection order. */
  function Filter<T>(s: seq<T>, p: T -> bool): (r: seq<T>)
    ensures |r| <= |s|
    ensures forall i :: 0 <= i < |r| ==> r[i] in s && p(r[i])
    ensures forall i :: 0 <= i < |s| && p(s[i]) ==> s[i] in r
    ensures (forall i :: 0 <= i < |s| ==> p(s[i])) ==> r == s
  {
    if |s| == 0 then []
    else if p(s[0]) then [s[0]] + Filter(s[1..], p)
    else Filter(s[1..], p)
  }

  /** Filtering distributes over concatenation. */
  lemma {:induction false} FilterAppend<T>(a: seq<T>, b: seq<T>, p: T -> bool)
    ensures Filter(a + b, p) == Filter(a, p) + Filter(b, p)
    decreases |a|
  {
    if |a| == 0 {
      assert a + b == b;
    } else {
      assert (a + b)[0] == a[0];
      assert (a + b)[1..] == a[1..] + b;
      FilterAppend(a[1..], b, p);
    }
  }

  /** No element occurs twice. */
  ghost predicate Distinct<T>(s: seq<T>) {
    forall i, j :: 0 <= i < j < |s| ==> s[i] != s[j]
  }

  /** On a sequence without repeats, the matches are counted by the set of
      matching elements. */
  lemma {:induction false} FilterCountsDistinct<T>(s: seq<T>, p: T -> bool, matching: set<T>)
    requires Distinct(s)
    requires forall x :: x in matching <==> x in s && p(x)
    ensures |Filter(s, p)| == |matching|
    decreases |s|
  {
    if |s| == 0 {
      assert matching == {};
    } else {
      var t := s[1..];
      assert Distinct(t) by {
        forall i, j | 0 <= i < j < |t| ensures t[i] != t[j] {
          assert t[i] == s[i + 1] && t[j] == s[j + 1];
        }
      }
      assert s[0] !in t by {
        forall k | 0 <= k < |t| ensures t[k] != s[0] {
          assert t[k] == s[k + 1];
        }
      }
      assert s == [s[0]] + t;
      var rest := matching - {s[0]};
      forall x ensures x in rest <==> x in t && p(x) {
        assert x in s <==> x == s[0] || x in t;
      }
      FilterCountsDistinct(t, p, rest);
    }
  }

  /** `deleteMany(filter)` keeps exactly the documents that do not match. */
  function RemoveWhere<T>(s: seq<T>, p: T -> bool): (r: seq<T>)
    ensures forall i :: 0 <= i < |r| ==> r[i] in s && !p(r[i])
    ensures forall i :: 0 <= i < |s| && !p(s[i]) ==> s[i] in r
  {
    Filter(s, x => !p(x))
  }

  /** A unique index on `key`: no two documents share a key. */
  ghost predicate Unique<T, K>(s: seq<T>, key: T -> K) {
    forall i, j :: 0 <= i < j < |s| ==> key(s[i]) != key(s[j])
  }

  /** No document has key `k`. */
  ghost predicate KeyFree<T, K>(s: seq<T>, key: T -> K, k: K) {
    forall i :: 0 <= i < |s| ==> key(s[i]) != k
  }

  /** Inserting a document whose key is free keeps the index unique. */
  lemma AppendKeepsUnique<T, K>(s: seq<T>, key: T -> K, x: T)
    requires Unique(s, key) && KeyFree(s, key, key(x))
    ensures Unique(s + [x], key)
  {
  }

  /** Removing documents keeps the index unique. */
  lemma {:induction false} FilterKeepsUnique<T, K>(s: seq<T>, key: T -> K, p: T -> bool)
    requires Unique(s, key)
    ensures Unique(Filter(s, p), key)
  {
    if |s| > 0 {
      FilterKeepsUnique(s[1..], key, p);
      if p(s[0]) {
        var r := Filter(s, p);
        forall i, j | 0 <= i < j < |r|
          ensures key(r[i]) != key(r[j])
        {
          if i == 0 {
            assert r[j] in Filter(s[1..], p);
            assert r[j] in s[1..];
            var m :| 0 <= m < |s[1..]| && s[1..][m] == r[j];
            assert s[m + 1] == r[j];
          }
        }
      }
    }
  }

  /** Overwriting the first match with another match keeps it first. */
  lemma FindFirstAfterUpdate<T>(s: seq<T>, p: T -> bool, i: nat, x: T)
    requires FindFirst(s, p) == Some(i) && p(x)
    ensures FindFirst(s[i := x], p) == Some(i)
  {
    var t := s[i := x];
    var r := FindFirst(t, p);
    assert p(t[i]);
    assert forall k :: 0 <= k < i ==> t[k] == s[k] && !p(t[k]);
    assert r.Some?;
    assert r.value >= i;
    assert r.value <= i;
  }

  /** Appending a match to a collection without one makes it the first. */
  lemma FindFirstAfterAppend<T>(s: seq<T>, p: T -> bool, x: T)
    requires FindFirst(s, p).None? && p(x)
    ensures FindFirst(s + [x], p) == Some(|s|)
  {
    var t := s + [x];
    var r := FindFirst(t, p);
    assert p(t[|s|]);
    assert forall k :: 0 <= k < |s| ==> t[k] == s[k] && !p(t[k]);
    assert r.Some?;
    assert r.value >= |s|;
  }

  /** `deleteMany` keeps the index unique. */
  lemma RemoveWhereKeepsUnique<T, K>(s: seq<T>, key: T -> K, p: T -> bool)
    requires Unique(s, key)
    ensures Unique(RemoveWhere(s, p), key)
  {
    FilterKeepsUnique(s, key, x => !p(x));
  }

  /** Replacing one document by one with the same key, or a free key, keeps the
      index unique. */
  lemma ReplaceKeepsUnique<T, K>(s: seq<T>, key: T -> K, i: nat, x: T)
    requires i < |s| && Unique(s, key)
    requires key(x) == key(s[i]) || KeyFree(s, key, key(x))
    ensures Unique(s[i := x], key)
  {
  }

  /** `findOneAndDelete`: the document at position `i` is gone and the others
      keep their order. */
  function RemoveAt<T>(s: seq<T>, i: nat): (r: seq<T>)
    requires i < |s|
    ensures |r| == |s| - 1
    ensures forall k :: 0 <= k < i ==> r[k] == s[k]
    ensures forall k :: i <= k < |r| ==> r[k] == s[k + 1]
  {
    s[..i] + s[i + 1..]
  }

  /** Deleting one document keeps the index unique. */
  lemma RemoveAtKeepsUnique<T, K>(s: seq<T>, key: T -> K, i: nat)
    requires i < |s| && Unique(s, key)
    ensures Unique(RemoveAt(s, i), key)
  {
    var r := RemoveAt(s, i);
    forall a, b | 0 <= a < b < |r|
      ensures key(r[a]) != key(r[b])
    {
      var a' := if a < i then a else a + 1;
      var b' := if b < i then b else b + 1;
      assert r[a] == s[a'] && r[b] == s[b'] && a' < b';
    }
  }
}

=== FILE: common.dfy ===
/** Shared vocabulary: optional values, HTTP replies, middleware outcomes and
    the JavaScript truthiness rules the handlers rely on. */
module Common {

  datatype Option<+T> = None | Some(value: T) {
    function GetOr(default: T): T {
      match this
      case Some(v) => v
      case None => default
    }
  }

  /** An HTTP status code with the `error.message` (or a short description of
      the success body) the handler sends. */
  datatype Reply = Reply(status: int, message: string)

  /** Outcome of an Express middleware: it either answers the request itself
      or calls `next()` with what it attached to the request. */
  datatype Step<+T> = Halt(reply: Reply) | Next(value: T)

  /** A JavaScript string value is truthy when it is present and non-empty. */
  predicate Truthy(s: Option<string>) {
    s.Some? && s.value != ""
  }

  /** `a || b` on two optional strings. */
  function Or(a: Option<string>, b: Option<string>): (r: Option<string>)
    ensures Truthy(r) <==> Truthy(a) || Truthy(b)
    ensures Truthy(a) ==> r == a
    ensures !Truthy(a) && Truthy(b) ==> r == b
  {
    if Truthy(a) then a else b
  }

  /** `String(x)` of an optional string: JavaScript renders a missing value as "undefined". */
  function JsString(s: Option<string>): string {
    s.GetOr("undefined")
  }

  function Max(a: int, b: int): int { if a >= b then a else b }

  function Min(a: int, b: int): int { if a <= b then a else b }
}

=== FILE: docs.dfy ===
/** The Mongo collections the handlers read and write (the schemas under src/models),
    reduced to the fields the handlers use. Memberships are a map keyed by
    (workspaceId, userId), which is their unique index; the other collections
    are sequences in insertion order, with their unique indexes stated as
    invariants. */
module Docs {
  import opened Common
  import opened Rbac
  import opened Collections

  datatype User = User(id: string, email: string, name: string, passwordHash: string)

  datatype Workspace = Workspace(id: string, name: string, slug: string, ownerId: string)

  datatype Channel = Channel(id: string, workspaceId: string, name: string, createdBy: string)

  datatype Message = Message(
    id: string, workspaceId: string, channelId: string, userId: string,
    parentMessageId: Option<string>, body: string, createdAt: int)

  datatype Invite = Invite(
    id: string, workspaceId: string, inviterId: string, email: string,
    role: Role, token: string, accepted: bool)

  datatype MemberKey = MemberKey(workspaceId: string, userId: string)

  datatype Db = Db(
    users: seq<User>,
    workspaces: seq<Workspace>,
    memberships: map<MemberKey, Role>,
    channels: seq<Channel>,
    messages: seq<Message>,
    invites: seq<Invite>)

  function UserIdOf(u: User): string { u.id }

  function UserEmailOf(u: User): string { u.email }

  function UserById(db: Db, id: string): (r: Option<User>)
    ensures r.Some? ==> r.value in db.users && r.value.id == id
    ensures r.None? ==> forall i :: 0 <= i < |db.users| ==> db.users[i].id != id
  {
    match FindFirst(db.users, (u: User) => u.id == id)
    case None => None
    case Some(i) => Some(db.users[i])
  }

  function UserByEmail(db: Db, email: string): (r: Option<User>)
    ensures r.Some? ==> r.value in db.users && r.value.email == email
    ensures r.None? ==> forall i :: 0 <= i < |db.users| ==> db.users[i].email != email
  {
    match FindFirst(db.users, (u: User) => u.email == email)
    case None => None
    case Some(i) => Some(db.users[i])
  }

  function WorkspaceById(db: Db, id: string): (r: Option<Workspace>)
    ensures r.Some? ==> r.value in db.workspaces && r.value.id == id
    ensures r.None? ==> forall i :: 0 <= i < |db.workspaces| ==> db.workspaces[i].id != id
  {
    match FindFirst(db.workspaces, (w: Workspace) => w.id == id)
    case None => None
    case Some(i) => Some(db.workspaces[i])
  }

  function ChannelById(db: Db, id: string): (r: Option<Channel>)
    ensures r.Some? ==> r.value in db.channels && r.value.id == id
    ensures r.None? ==> forall i :: 0 <= i < |db.channels| ==> db.channels[i].id != id
  {
    match FindFirst(db.channels, (c: Channel) => c.id == id)
    case None => None
    case Some(i) => Some(db.channels[i])
  }

  /** The user ids holding the owner role in a workspace. */
  function OwnersOf(m: map<MemberKey, Role>, ws: string): set<string> {
    set k | k in m && k.workspaceId == ws && m[k] == Owner :: k.userId
  }

  /** `countOwners(workspaceId)`. */
  function OwnerCount(m: map<MemberKey, Role>, ws: string): nat {
    |OwnersOf(m, ws)|
  }

  /** Deleting one membership removes at most that user from the owners. */
  lemma {:induction false} OwnersAfterRemove(m: map<MemberKey, Role>, k: MemberKey, ws: string)
    requires k in m
    ensures OwnersOf(m - {k}, ws) ==
      (if k.workspaceId == ws && m[k] == Owner then OwnersOf(m, ws) - {k.userId} else OwnersOf(m, ws))
    ensures OwnerCount(m - {k}, ws) ==
      (if k.workspaceId == ws && m[k] == Owner then OwnerCount(m, ws) - 1 else OwnerCount(m, ws))
  {
    var before := OwnersOf(m, ws);
    var after := OwnersOf(m - {k}, ws);
    if k.workspaceId == ws && m[k] == Owner {
      assert k.userId in before;
      forall u | u in after ensures u in before - {k.userId} {
        var k' :| k' in m - {k} && k'.workspaceId == ws && m[k'] == Owner && k'.userId == u;
      }
      forall u | u in before - {k.userId} ensures u in after {
        var k' :| k' in m && k'.workspaceId == ws && m[k'] == Owner && k'.userId == u;
        assert k' != k;
        assert k' in m - {k};
      }
      assert after == before - {k.userId};
    } else {
      forall u | u in before ensures u in after {
        var k' :| k' in m && k'.workspaceId == ws && m[k'] == Owner && k'.userId == u;
        assert k' in m - {k};
      }
      assert after == before;
    }
  }

  /** Setting one membership's role changes the owners by at most that user. */
  lemma {:induction false} OwnersAfterUpdate(m: map<MemberKey, Role>, k: MemberKey, r: Role, ws: string)
    ensures k.workspaceId == ws && r == Owner ==> OwnersOf(m[k := r], ws) == OwnersOf(m, ws) + {k.userId}
    ensures k.workspaceId == ws && r != Owner && k in m && m[k] == Owner ==>
      OwnersOf(m[k := r], ws) == OwnersOf(m, ws) - {k.userId}
    ensures k.workspaceId != ws || (r != Owner && (k !in m || m[k] != Owner)) ==>
      OwnersOf(m[k := r], ws) == OwnersOf(m, ws)
  {
    var m' := m[k := r];
    var before := OwnersOf(m, ws);
    var after := OwnersOf(m', ws);
    forall u | u in after && u != k.userId ensures u in before {
      var k' :| k' in m' && k'.workspaceId == ws && m'[k'] == Owner && k'.userId == u;
      assert k' != k;
    }
    forall u | u in before && u != k.userId ensures u in after {
      var k' :| k' in m && k'.workspaceId == ws && m[k'] == Owner && k'.userId == u;
      assert k' != k;
      assert k' in m';
    }
    if k.workspaceId == ws && r == Owner {
      assert k.userId in after;
    }
    if k.workspaceId == ws && r != Owner {
      forall u | u in after ensures u != k.userId {
        var k' :| k' in m' && k'.workspaceId == ws && m'[k'] == Owner && k'.userId == u;
        assert k' != k;
        assert k' == MemberKey(ws, u);
      }
    }
    if k.workspaceId == ws && k in m && m[k] == Owner {
      assert k.userId in before;
    }
    if k.workspaceId == ws && (k !in m || m[k] != Owner) {
      forall u | u in before ensures u != k.userId {
        var k' :| k' in m && k'.workspaceId == ws && m[k'] == Owner && k'.userId == u;
        assert k' == MemberKey(ws, u);
      }
    }
    if k.workspaceId != ws {
      forall u | u in before ensures u in after {
        var k' :| k' in m && k'.workspaceId == ws && m[k'] == Owner && k'.userId == u;
        assert k' in m';
      }
      forall u | u in after ensures u in before {
        var k' :| k' in m' && k'.workspaceId == ws && m'[k'] == Owner && k'.userId == u;
        assert k' != k;
      }
    }
  }

  /** The unique indexes declared on the collections. */
  ghost predicate Indexed(db: Db) {
    && Unique(db.users, (u: User) => u.id)
    && Unique(db.users, (u: User) => u.email)
    && Unique(db.workspaces, (w: Workspace) => w.id)
    && Unique(db.workspaces, (w: Workspace) => w.slug)
    && Unique(db.channels, (c: Channel) => c.id)
    && Unique(db.channels, (c: Channel) => (c.workspaceId, c.name))
    && Unique(db.messages, (m: Message) => m.id)
    && Unique(db.invites, (i: Invite) => i.id)
    && Unique(db.invites, (i: Invite) => i.token)
    && Unique(db.invites, (i: Invite) => (i.workspaceId, i.email))
  }
}

=== FILE: invites.dfy ===
/** Workspace invitations (src/routes/invites.ts): sending an invite (admin
    or owner) and accepting one (any authenticated user whose email matches). */
module Invites {
  import opened Common
  import opened Strings
  import opened Rbac
  import opened Tokens
  import opened Docs
  import opened Collections
  import opened Kv
  import opened RequireJwt
  import opened WorkspaceMembership
  import opened RouteGuard

  /** The invite body's role: absent means member; only member and admin are
      accepted, anything else fails the schema. */
  function InviteRole(q: Option<string>): (r: Option<Role>)
    ensures q.None? ==> r == Some(Member)
    ensures r.Some? ==> r.value != Owner
    ensures q.Some? ==> (r.Some? <==> q.value == "member" || q.value == "admin")
    ensures q.Some? && r.Some? ==> RoleName(r.value) == q.value
  {
    match q
    case None => Some(Member)
    case Some(s) => if s == "member" then Some(Member) else if s == "admin" then Some(Admin) else None
  }

  /** A pending invite for this workspace and (normalised) email. */
  function IsPending(ws: string, email: string): Invite -> bool {
    (i: Invite) => i.workspaceId == ws && i.email == email && !i.accepted
  }

  /** The values the handler draws: the new invite's id and its random token. */
  datatype InviteGen = InviteGen(id: string, token: string)

  /** POST /:workspaceId/invites, behind the admin gate. `isEmail` is the
      email format check and `dbFails` makes the first database call throw. */
  function SendInvite(ws: string, rawEmail: string, roleQ: Option<string>, inviter: Identity,
                      isEmail: string -> bool, gen: InviteGen, dbFails: bool, db: Db): (r: (Reply, Db))
    ensures r.1.users == db.users && r.1.workspaces == db.workspaces && r.1.memberships == db.memberships
    ensures r.1.channels == db.channels && r.1.messages == db.messages
    ensures !isEmail(rawEmail) || InviteRole(roleQ).None? ==> r == (Reply(400, "Invalid body"), db)
    ensures r.0.status == 409 || r.0.status == 400 || r.0.status == 500 ==> r.1 == db
    ensures r.0 == Reply(409, "Email already a member of this workspace") ==>
      var u := UserByEmail(db, NormalizeEmail(rawEmail));
      u.Some? && MemberKey(ws, u.value.id) in db.memberships
    ensures r.0.status == 200 ==>
      var i := FindFirst(db.invites, IsPending(ws, NormalizeEmail(rawEmail)));
      && i.Some?
      && r.1.invites == db.invites[i.value := db.invites[i.value].(role := InviteRole(roleQ).value)]
    ensures r.0.status == 201 ==>
      && FindFirst(db.invites, IsPending(ws, NormalizeEmail(rawEmail))).None?
      && r.1.invites == db.invites + [Invite(gen.id, ws, inviter.id, NormalizeEmail(rawEmail), InviteRole(roleQ).value, gen.token, false)]
    ensures isEmail(rawEmail) && InviteRole(roleQ).Some? && dbFails ==> r == (Reply(500, "Failed to create invite"), db)
    ensures isEmail(rawEmail) && InviteRole(roleQ).Some? && !dbFails ==>
      var email := NormalizeEmail(rawEmail);
      var created := Invite(gen.id, ws, inviter.id, email, InviteRole(roleQ).value, gen.token, false);
      r.0 == if IsMemberByEmail(db, ws, email) then Reply(409, "Email already a member of this workspace")
             else if FindFirst(db.invites, IsPending(ws, email)).Some? then Reply(200, "invite")
             else if Clashes(db.invites, created) then Reply(409, "Invite already exists for this email")
             else Reply(201, "invite")
  {
    var role := InviteRole(roleQ);
    if !isEmail(rawEmail) || role.None? then (Reply(400, "Invalid body"), db)
    else if dbFails then (Reply(500, "Failed to create invite"), db)
    else
      var email := NormalizeEmail(rawEmail);
      var user := UserByEmail(db, email);
      if user.Some? && MemberKey(ws, user.value.id) in db.memberships then
        (Reply(409, "Email already a member of this workspace"), db)
      else
        match FindFirst(db.invites, IsPending(ws, email))
        case Some(i) =>
          (Reply(200, "invite"), db.(invites := db.invites[i := db.invites[i].(role := role.value)]))
        case None =>
          var created := Invite(gen.id, ws, inviter.id, email, role.value, gen.token, false);
          if Clashes(db.invites, created) then
            (Reply(409, "Invite already exists for this email"), db)
          else (Reply(201, "invite"), db.(invites := db.invites + [created]))
  }

  /** The user registered under `email` is already a member of `ws`. */
  predicate IsMemberByEmail(db: Db, ws: string, email: string) {
    var u := UserByEmail(db, email);
    u.Some? && MemberKey(ws, u.value.id) in db.memberships
  }

  /** Inserting `created` would violate one of the invite indexes. */
  predicate Clashes(invites: seq<Invite>, created: Invite) {
    exists j :: 0 <= j < |invites| && InviteClash(invites[j], created)
  }

  function InviteIdOf(i: Invite): string { i.id }

  function InviteTokenOf(i: Invite): string { i.token }

  function InvitePairOf(i: Invite): (string, string) { (i.workspaceId, i.email) }

  /** The invite collection's indexes: ids and tokens are unique, and so is
      each (workspace, email) pair. */
  ghost predicate InvitesIndexed(db: Db) {
    Unique(db.invites, InviteIdOf) && Unique(db.invites, InviteTokenOf) && Unique(db.invites, InvitePairOf)
  }

  /** Sending an invite with a fresh id keeps the three invite indexes: the
      update changes only a role, and the insert happens only when neither
      the token nor the pair is taken. */
  lemma SendKeepsInvitesIndexed(ws: string, rawEmail: string, roleQ: Option<string>, inviter: Identity,
                                isEmail: string -> bool, gen: InviteGen, dbFails: bool, db: Db)
    requires InvitesIndexed(db) && KeyFree(db.invites, InviteIdOf, gen.id)
    ensures InvitesIndexed(SendInvite(ws, rawEmail, roleQ, inviter, isEmail, gen, dbFails, db).1)
  {
    var r := SendInvite(ws, rawEmail, roleQ, inviter, isEmail, gen, dbFails, db);
    var email := NormalizeEmail(rawEmail);
    if r.0.status == 200 {
      var i := FindFirst(db.invites, IsPending(ws, email)).value;
      var x := db.invites[i].(role := InviteRole(roleQ).value);
      ReplaceKeepsUnique(db.invites, InviteIdOf, i, x);
      ReplaceKeepsUnique(db.invites, InviteTokenOf, i, x);
      ReplaceKeepsUnique(db.invites, InvitePairOf, i, x);
    } else if r.0.status == 201 {
      var created := Invite(gen.id, ws, inviter.id, email, InviteRole(roleQ).value, gen.token, false);
      assert !Clashes(db.invites, created);
      AppendKeepsUnique(db.invites, InviteIdOf, created);
      AppendKeepsUnique(db.invites, InviteTokenOf, created);
      AppendKeepsUnique(db.invites, InvitePairOf, created);
    }
  }

  /** The unique indexes an insert can violate: the token, and the pair
      (workspace, email), which also covers accepted invites. */
  predicate InviteClash(prior: Invite, created: Invite) {
    prior.token == created.token || (prior.workspaceId == created.workspaceId && prior.email == created.email)
  }

  /** No invite ever carries the owner role. */
  ghost predicate NoOwnerInvites(db: Db) {
    forall i :: 0 <= i < |db.invites| ==> db.invites[i].role != Owner
  }

  lemma SendKeepsNoOwnerInvites(ws: string, rawEmail: string, roleQ: Option<string>, inviter: Identity,
                                isEmail: string -> bool, gen: InviteGen, dbFails: bool, db: Db)
    requires NoOwnerInvites(db)
    ensures NoOwnerInvites(SendInvite(ws, rawEmail, roleQ, inviter, isEmail, gen, dbFails, db).1)
  {
  }

  /** Sending the same invite again changes nothing and answers 200: the
      pending invite found first is the one the first send created or updated. */
  lemma {:induction false} SendIsIdempotent(ws: string, rawEmail: string, roleQ: Option<string>, inviter: Identity,
                                            isEmail: string -> bool, gen: InviteGen, gen2: InviteGen, db: Db)
    requires SendInvite(ws, rawEmail, roleQ, inviter, isEmail, gen, false, db).0.status in {200, 201}
    ensures var db1 := SendInvite(ws, rawEmail, roleQ, inviter, isEmail, gen, false, db).1;
            SendInvite(ws, rawEmail, roleQ, inviter, isEmail, gen2, false, db1) == (Reply(200, "invite"), db1)
  {
    var email := NormalizeEmail(rawEmail);
    var p := IsPending(ws, email);
    var db1 := SendInvite(ws, rawEmail, roleQ, inviter, isEmail, gen, false, db).1;
    var role := InviteRole(roleQ).value;
    match FindFirst(db.invites, p)
    case Some(i) =>
      var x := db.invites[i].(role := role);
      FindFirstAfterUpdate(db.invites, p, i, x);
      assert db1.invites[i := x] == db1.invites;
    case None =>
      var x := Invite(gen.id, ws, inviter.id, email, role, gen.token, false);
      FindFirstAfterAppend(db.invites, p, x);
      assert db1.invites[|db.invites| := x] == db1.invites;
  }

  /** Once an invite for a workspace and email has been accepted, that email
      can never be invited to the workspace again, even after the member has
      been removed: no invite is pending, and inserting a new one violates
      the (workspace, email) index. */
  lemma AcceptedInviteBlocksReinvite(ws: string, rawEmail: string, roleQ: Option<string>, inviter: Identity,
                                     isEmail: string -> bool, gen: InviteGen, db: Db, j: nat)
    requires isEmail(rawEmail) && InviteRole(roleQ).Some?
    requires j < |db.invites| && db.invites[j].workspaceId == ws && db.invites[j].email == NormalizeEmail(rawEmail)
    requires db.invites[j].accepted
    requires forall k :: 0 <= k < |db.invites| ==> !IsPending(ws, NormalizeEmail(rawEmail))(db.invites[k])
    requires var u := UserByEmail(db, NormalizeEmail(rawEmail)); u.None? || MemberKey(ws, u.value.id) !in db.memberships
    ensures SendInvite(ws, rawEmail, roleQ, inviter, isEmail, gen, false, db) == (Reply(409, "Invite already exists for this email"), db)
  {
    var created := Invite(gen.id, ws, inviter.id, NormalizeEmail(rawEmail), InviteRole(roleQ).value, gen.token, false);
    assert InviteClash(db.invites[j], created);
  }

  /** POST /invites/accept, behind requireJWT only. */
  function AcceptInvite(token: string, user: Identity, dbFails: bool, db: Db): (r: (Reply, Db))
    ensures token == "" ==> r == (Reply(400, "Invalid body"), db)
    ensures r.1.users == db.users && r.1.workspaces == db.workspaces
    ensures r.1.channels == db.channels && r.1.messages == db.messages
    ensures r.0.status != 201 ==> r.1 == db
    ensures token != "" && !dbFails && FindFirst(db.invites, (i: Invite) => i.token == token).None? ==>
      r == (Reply(404, "Invalid token"), db)
    ensures token != "" && !dbFails && FindFirst(db.invites, (i: Invite) => i.token == token).Some? ==>
      var idx := FindFirst(db.invites, (i: Invite) => i.token == token).value;
      var inv := db.invites[idx];
      && (inv.accepted ==> r == (Reply(409, "Invite already accepted"), db))
      && (r.0.status == 201 <==>
            && !inv.accepted
            && NormalizeEmail(inv.email) == NormalizeEmail(user.email)
            && WorkspaceById(db, inv.workspaceId).Some?
            && MemberKey(inv.workspaceId, user.id) !in db.memberships)
      && (r.0.status == 201 ==>
            && r.0 == Reply(201, "membership")
            && r.1.invites == RemoveWhere(db.invites[idx := inv.(accepted := true)],
                                          IsPending(inv.workspaceId, NormalizeEmail(inv.email)))
            && r.1.memberships == db.memberships[MemberKey(inv.workspaceId, user.id) := inv.role]
            && (forall k :: 0 <= k < |r.1.invites| ==> !IsPending(inv.workspaceId, NormalizeEmail(inv.email))(r.1.invites[k]))
            && inv.(accepted := true) in r.1.invites)
      && (!inv.accepted && NormalizeEmail(inv.email) != NormalizeEmail(user.email) ==>
            r == (Reply(403, "Invite is for a different email"), db))
      && (!inv.accepted && NormalizeEmail(inv.email) == NormalizeEmail(user.email) && WorkspaceById(db, inv.workspaceId).None? ==>
            r == (Reply(404, "Workspace not found"), db))
      && (!inv.accepted && NormalizeEmail(inv.email) == NormalizeEmail(user.email) && WorkspaceById(db, inv.workspaceId).Some?
          && MemberKey(inv.workspaceId, user.id) in db.memberships ==>
            r == (Reply(409, "Already a member of this workspace"), db))
    ensures token != "" && dbFails ==> r == (Reply(500, "Failed to accept invite"), db)
  {
    if token == "" then (Reply(400, "Invalid body"), db)
    else if dbFails then (Reply(500, "Failed to accept invite"), db)
    else
      match FindFirst(db.invites, (i: Invite) => i.token == token)
      case None => (Reply(404, "Invalid token"), db)
      case Some(idx) =>
        var inv := db.invites[idx];
        if inv.accepted then (Reply(409, "Invite already accepted"), db)
        else if NormalizeEmail(inv.email) != NormalizeEmail(user.email) then (Reply(403, "Invite is for a different email"), db)
        else if WorkspaceById(db, inv.workspaceId).None? then (Reply(404, "Workspace not found"), db)
        else if MemberKey(inv.workspaceId, user.id) in db.memberships then (Reply(409, "Already a member of this workspace"), db)
        else
          var memberships := db.memberships[MemberKey(inv.workspaceId, user.id) := inv.role];
          var marked := db.invites[idx := inv.(accepted := true)];
          assert marked[idx] == inv.(accepted := true);
          var invites := RemoveWhere(marked, IsPending(inv.workspaceId, NormalizeEmail(inv.email)));
          (Reply(201, "membership"), db.(memberships := memberships, invites := invites))
  }

  /** Accepting never creates an owner, so the owners of every workspace are
      unchanged when no invite carries the owner role. */
  lemma AcceptKeepsOwners(token: string, user: Identity, dbFails: bool, db: Db, ws: string)
    requires NoOwnerInvites(db)
    ensures OwnersOf(AcceptInvite(token, user, dbFails, db).1.memberships, ws) == OwnersOf(db.memberships, ws)
  {
    var r := AcceptInvite(token, user, dbFails, db);
    if r.0.status == 201 {
      var idx := FindFirst(db.invites, (i: Invite) => i.token == token).value;
      var inv := db.invites[idx];
      OwnersAfterUpdate(db.memberships, MemberKey(inv.workspaceId, user.id), inv.role, ws);
    }
  }

  /** Accepting keeps the three invite indexes: it marks one invite and
      deletes others. */
  lemma AcceptKeepsInvitesIndexed(token: string, user: Identity, dbFails: bool, db: Db)
    requires InvitesIndexed(db)
    ensures InvitesIndexed(AcceptInvite(token, user, dbFails, db).1)
  {
    var r := AcceptInvite(token, user, dbFails, db);
    if r.0.status == 201 {
      var idx := FindFirst(db.invites, (i: Invite) => i.token == token).value;
      var inv := db.invites[idx];
      var marked := db.invites[idx := inv.(accepted := true)];
      ReplaceKeepsUnique(db.invites, InviteIdOf, idx, inv.(accepted := true));
      ReplaceKeepsUnique(db.invites, InviteTokenOf, idx, inv.(accepted := true));
      ReplaceKeepsUnique(db.invites, InvitePairOf, idx, inv.(accepted := true));
      var p := IsPending(inv.workspaceId, NormalizeEmail(inv.email));
      assert r.1.invites == RemoveWhere(marked, p);
      RemoveWhereKeepsUnique(marked, InviteIdOf, p);
      RemoveWhereKeepsUnique(marked, InviteTokenOf, p);
      RemoveWhereKeepsUnique(marked, InvitePairOf, p);
    }
  }

  /** An invite is single-use: with tokens unique, accepting the same token a
      second time answers 409 and changes nothing. */
  lemma {:induction false} AcceptIsSingleUse(token: string, user: Identity, user2: Identity, db: Db)
    requires Unique(db.invites, (i: Invite) => i.token)
    requires AcceptInvite(token, user, false, db).0.status == 201
    ensures var db1 := AcceptInvite(token, user, false, db).1;
            AcceptInvite(token, user2, false, db1) == (Reply(409, "Invite already accepted"), db1)
  {
    var idx := FindFirst(db.invites, (i: Invite) => i.token == token).value;
    var inv := db.invites[idx];
    var db1 := AcceptInvite(token, user, false, db).1;
    var marked := db.invites[idx := inv.(accepted := true)];
    assert Unique(marked, (i: Invite) => i.token) by {
      ReplaceKeepsUnique(db.invites, (i: Invite) => i.token, idx, inv.(accepted := true));
    }
    var p := IsPending(inv.workspaceId, NormalizeEmail(inv.email));
    assert db1.invites == RemoveWhere(marked, p);
    RemoveWhereKeepsUnique(marked, (i: Invite) => i.token, p);
    assert inv.(accepted := true) in db1.invites;
    var j :| 0 <= j < |db1.invites| && db1.invites[j] == inv.(accepted := true);
    var k := FindFirst(db1.invites, (i: Invite) => i.token == token);
    assert k.Some?;
    assert db1.invites[k.value].token == token;
    assert k.value == j;
  }

  /** The send route: the admin gate on the path's workspace, then the handler. */
  function SendInviteRoute(authorization: Option<string>, ws: string, rawEmail: string, roleQ: Option<string>,
                           isEmail: string -> bool, gen: InviteGen, dbFails: bool,
                           env: Env, ks: Keyspace, db: Db): (r: (Reply, Db))
    ensures r.1 != db ==>
      var c := Guard(Admin, GuardRequest(authorization, WorkspaceSources(Some(ws), None, None)), env, ks, db);
      && c.Next?
      && (c.value.membership.role == Admin || c.value.membership.role == Owner)
      && MemberKey(ws, c.value.user.id) in db.memberships
      && (|r.1.invites| > |db.invites| ==> r.1.invites[|db.invites|].inviterId == c.value.user.id)
  {
    var req := GuardRequest(authorization, WorkspaceSources(Some(ws), None, None));
    match Guard(Admin, req, env, ks, db)
    case Halt(reply) => (reply, db)
    case Next(c) => SendInvite(ws, rawEmail, roleQ, c.user, isEmail, gen, dbFails, db)
  }

  /** The accept route: only requireJWT; the invite's email must match the
      token's. */
  function AcceptInviteRoute(authorization: Option<string>, token: string, dbFails: bool,
                             env: Env, ks: Keyspace, db: Db): (r: (Reply, Db))
    ensures r.1 != db ==>
      var u := RequireJWT(authorization, env.codec, ks, env.now, env.outage);
      && u.Next?
      && exists i :: 0 <= i < |db.invites| && db.invites[i].token == token && !db.invites[i].accepted
           && NormalizeEmail(db.invites[i].email) == NormalizeEmail(u.value.email)
           && r.1.memberships == db.memberships[MemberKey(db.invites[i].workspaceId, u.value.id) := db.invites[i].role]
  {
    match RequireJWT(authorization, env.codec, ks, env.now, env.outage)
    case Halt(reply) => (reply, db)
    case Next(user) => AcceptInvite(token, user, dbFails, db)
  }
}

=== FILE: keys.dfy ===
/** Redis key naming (src/redis/keys.ts): four key families, each built from
    a fixed prefix. */
module RedisKeys {
  import opened Strings

  const RtPrefix := "rt:"
  const AtBlockPrefix := "at:block:"
  const RlPrefix := "rl:"
  const OtpPrefix := "otp:"

  /** `rtSession(userId, jti)`: one refresh session per refresh-token jti. */
  function RtSession(userId: string, jti: string): (k: string)
    ensures StartsWith(k, RtUserPrefix(userId))
    ensures |k| == |RtUserPrefix(userId)| + |jti|
  {
    ConcatStartsWith(RtUserPrefix(userId), jti);
    RtUserPrefix(userId) + jti
  }

  /** The pattern prefix `rt:<userId>:` that logout-all scans for. */
  function RtUserPrefix(userId: string): string {
    RtPrefix + userId + ":"
  }

  /** `atBlock(jti)`: the access-token denylist entry. */
  function AtBlock(jti: string): (k: string)
    ensures StartsWith(k, AtBlockPrefix) && k[|AtBlockPrefix|..] == jti
  {
    ConcatStartsWith(AtBlockPrefix, jti);
    AtBlockPrefix + jti
  }

  /** `rlBucket(bucket)`: the rate-limit counter of a bucket. */
  function RlBucket(bucket: string): (k: string)
    ensures StartsWith(k, RlPrefix) && k[|RlPrefix|..] == bucket
  {
    ConcatStartsWith(RlPrefix, bucket);
    RlPrefix + bucket
  }

  /** `otp(purpose, subject)`: one-time codes. */
  function Otp(purpose: string, subject: string): (k: string)
    ensures StartsWith(k, OtpPrefix)
  {
    ConcatStartsWith(OtpPrefix, purpose + ":" + subject);
    assert OtpPrefix + purpose + ":" + subject == OtpPrefix + (purpose + ":" + subject);
    OtpPrefix + purpose + ":" + subject
  }

  /** Families are told apart by their prefix. */
  predicate IsRtKey(k: string) { StartsWith(k, RtPrefix) }
  predicate IsAtBlockKey(k: string) { StartsWith(k, AtBlockPrefix) }
  predicate IsRlKey(k: string) { StartsWith(k, RlPrefix) }
  predicate IsOtpKey(k: string) { StartsWith(k, OtpPrefix) }

  /** No key carries two family prefixes: the four prefixes differ within
      their common length. */
  lemma FamiliesDisjoint(k: string)
    ensures !(IsRtKey(k) && IsAtBlockKey(k))
    ensures !(IsRtKey(k) && IsRlKey(k))
    ensures !(IsRtKey(k) && IsOtpKey(k))
    ensures !(IsAtBlockKey(k) && IsRlKey(k))
    ensures !(IsAtBlockKey(k) && IsOtpKey(k))
    ensures !(IsRlKey(k) && IsOtpKey(k))
  {
    if IsRtKey(k) { assert k[0] == 'r' && k[1] == 't'; }
    if IsAtBlockKey(k) { assert k[0] == 'a'; }
    if IsRlKey(k) { assert k[0] == 'r' && k[1] == 'l'; }
    if IsOtpKey(k) { assert k[0] == 'o'; }
  }

  /** Keys built by different constructors never collide. */
  lemma ConstructorsDisjoint(u: string, j: string, b: string, p: string, s: string)
    ensures RtSession(u, j) != AtBlock(b) && RtSession(u, j) != RlBucket(b) && RtSession(u, j) != Otp(p, s)
    ensures AtBlock(j) != RlBucket(b) && AtBlock(j) != Otp(p, s)
    ensures RlBucket(b) != Otp(p, s)
  {
    ConcatStartsWith(RtPrefix, u + ":");
    assert StartsWith(RtUserPrefix(u), RtPrefix);
    FamiliesDisjoint(RtSession(u, j));
    FamiliesDisjoint(AtBlock(j));
    FamiliesDisjoint(RlBucket(b));
    FamiliesDisjoint(Otp(p, s));
    assert IsRtKey(RtSession(u, j)) by {
      assert RtSession(u, j)[..3] == RtUserPrefix(u)[..3];
    }
  }

  /** Everything under a user's session prefix belongs to the `rt:` family. */
  lemma UserPrefixInRtFamily(k: string, u: string)
    ensures StartsWith(k, RtUserPrefix(u)) ==> IsRtKey(k)
    ensures IsRtKey(RtSession(u, k))
  {
    assert RtUserPrefix(u)[..3] == RtPrefix;
    assert RtSession(u, k)[..3] == RtUserPrefix(u)[..3];
    if StartsWith(k, RtUserPrefix(u)) {
      assert k[..3] == k[..|RtUserPrefix(u)|][..3];
    }
  }

  lemma AtBlockInjective(a: string, b: string)
    requires AtBlock(a) == AtBlock(b)
    ensures a == b
  {
  }

  lemma RlBucketInjective(a: string, b: string)
    requires RlBucket(a) == RlBucket(b)
    ensures a == b
  {
  }

  /** The first ':' after the family prefix ends the user id, so a session key
      determines its user and jti when user ids contain no ':'. */
  lemma {:induction false} RtSessionInjective(u1: string, j1: string, u2: string, j2: string)
    requires NoColon(u1) && NoColon(u2)
    requires RtSession(u1, j1) == RtSession(u2, j2)
    ensures u1 == u2 && j1 == j2
  {
    RtPrefixOwnedByUser(u1, u2, j2);
    assert RtUserPrefix(u1) == RtUserPrefix(u2);
    var n := |RtUserPrefix(u1)|;
    assert j1 == RtSession(u1, j1)[n..];
    assert j2 == RtSession(u2, j2)[n..];
    assert u1 == RtUserPrefix(u1)[3..n - 1];
    assert u2 == RtUserPrefix(u2)[3..n - 1];
  }

  /** The index of the first ':' at or after `i`, or `|s|` if there is none. */
  function ColonFrom(s: string, i: nat): (c: nat)
    requires i <= |s|
    ensures i <= c <= |s|
    ensures c < |s| ==> s[c] == ':'
    ensures forall m :: i <= m < c ==> s[m] != ':'
    decreases |s| - i
  {
    if i == |s| then |s| else if s[i] == ':' then i else ColonFrom(s, i + 1)
  }

  /** In any key that starts with `rt:<u>:`, the first ':' after the family
      prefix sits right after `u`, when `u` contains no ':'. */
  lemma ColonAfterUser(k: string, u: string)
    requires NoColon(u) && StartsWith(k, RtUserPrefix(u))
    ensures ColonFrom(k, 3) == 3 + |u|
  {
    var p := RtUserPrefix(u);
    assert k[..|p|] == p;
    assert forall m :: 3 <= m < 3 + |u| ==> k[m] == p[m] == u[m - 3];
    assert k[3 + |u|] == p[3 + |u|] == ':';
  }

  /** A session key of user `v` falls under the logout-all pattern of user
      `u` only if `u == v`, when neither id contains ':'. */
  lemma {:induction false} RtPrefixOwnedByUser(u: string, v: string, j: string)
    requires NoColon(u) && NoColon(v)
    requires StartsWith(RtSession(v, j), RtUserPrefix(u))
    ensures u == v
  {
    var k := RtSession(v, j);
    ColonAfterUser(k, u);
    ColonAfterUser(k, v);
    var pu := RtUserPrefix(u);
    var pv := RtUserPrefix(v);
    assert k[..|pu|] == pu && k[..|pv|] == pv;
    assert |u| == |v|;
    assert u == pu[3..3 + |u|] == k[3..3 + |u|] == pv[3..3 + |v|] == v;
  }
}

=== FILE: kv.dfy ===
/** The Redis keyspace as an immutable map with per-key absolute expiry, read
    through an integer clock in seconds. Only the commands the core issues are
    modelled: GET, SET .. EX, DEL, KEYS-then-DEL, INCR, TTL and EXPIRE. */
module Kv {
  import opened Common
  import opened Strings

  datatype Value = Text(text: string) | Counter(count: int)

  /** A stored value and the second at which it expires, if it has an expiry. */
  datatype Entry = Entry(value: Value, expiresAt: Option<int>)

  type Keyspace = map<string, Entry>

  /** Which store call of a request is the first to fail, if any. Calls are
      numbered from 0 in the order the handler issues them; once one fails,
      the handler's `catch` takes over. */
  datatype Outage = NoOutage | OutageAt(call: nat) {
    predicate Fails(call: nat) {
      OutageAt? && this.call <= call
    }
  }

  predicate Alive(e: Entry, now: int) {
    e.expiresAt.None? || now < e.expiresAt.value
  }

  /** GET: the value of a key that exists and has not expired. */
  function Get(ks: Keyspace, now: int, key: string): (v: Option<Value>)
    ensures v.Some? <==> key in ks && Alive(ks[key], now)
    ensures v.Some? ==> v.value == ks[key].value
  {
    if key in ks && Alive(ks[key], now) then Some(ks[key].value) else None
  }

  /** `!!(await redis.get(key))`: a reply is truthy unless it is missing or the
      empty string (a counter is returned as its non-empty decimal text). */
  predicate Present(ks: Keyspace, now: int, key: string) {
    match Get(ks, now, key)
    case None => false
    case Some(Text(s)) => s != ""
    case Some(Counter(_)) => true
  }

  /** `SET key value EX ttl`; Redis rejects a non-positive expire time with an
      error, modelled as no new keyspace. */
  function SetEx(ks: Keyspace, now: int, key: string, v: Value, ttl: int): (r: Option<Keyspace>)
    ensures r.Some? <==> ttl > 0
    ensures r.Some? ==> forall t :: Get(r.value, t, key) == (if t < now + ttl then Some(v) else None)
    ensures r.Some? ==> forall k, t :: k != key ==> Get(r.value, t, k) == Get(ks, t, k)
  {
    if ttl <= 0 then None else Some(ks[key := Entry(v, Some(now + ttl))])
  }

  /** DEL key. */
  function Del(ks: Keyspace, key: string): (r: Keyspace)
    ensures forall t :: Get(r, t, key).None?
    ensures forall k, t :: k != key ==> Get(r, t, k) == Get(ks, t, k)
  {
    ks - {key}
  }

  /** `KEYS <prefix>*` followed by DEL of the keys found: afterwards no key with
      the prefix is readable, and every other key reads as before. Glob
      metacharacters in the prefix are not modelled. */
  function DelPrefix(ks: Keyspace, prefix: string): (r: Keyspace)
    ensures forall k, t :: StartsWith(k, prefix) ==> Get(r, t, k).None?
    ensures forall k, t :: !StartsWith(k, prefix) ==> Get(r, t, k) == Get(ks, t, k)
  {
    map k | k in ks && !StartsWith(k, prefix) :: ks[k]
  }

  /** INCR: a missing or expired key starts again at 1 with no expiry; an
      existing counter keeps its expiry. INCR on a text value is an error. */
  function Incr(ks: Keyspace, now: int, key: string): (r: Option<(Keyspace, int)>)
    ensures Get(ks, now, key).None? ==> r.Some? && r.value.1 == 1
    ensures r.Some? ==> Get(r.value.0, now, key) == Some(Counter(r.value.1))
    ensures r.Some? && Get(ks, now, key).Some? ==> Get(ks, now, key) == Some(Counter(r.value.1 - 1))
    ensures r.None? <==> Get(ks, now, key).Some? && Get(ks, now, key).value.Text?
    ensures r.Some? ==> forall k, t :: k != key ==> Get(r.value.0, t, k) == Get(ks, t, k)
  {
    match Get(ks, now, key)
    case None => Some((ks[key := Entry(Counter(1), None)], 1))
    case Some(Text(_)) => None
    case Some(Counter(n)) => Some((ks[key := Entry(Counter(n + 1), ks[key].expiresAt)], n + 1))
  }

  /** TTL: -2 for a missing key, -1 for a key without expiry, otherwise the
      seconds left, which are at least 1. */
  function Ttl(ks: Keyspace, now: int, key: string): (s: int)
    ensures s == -2 <==> Get(ks, now, key).None?
    ensures s == -1 <==> Get(ks, now, key).Some? && ks[key].expiresAt.None?
    ensures s >= 0 ==> s >= 1 && key in ks && ks[key].expiresAt == Some(now + s)
  {
    if Get(ks, now, key).None? then -2
    else if ks[key].expiresAt.None? then -1
    else ks[key].expiresAt.value - now
  }

  /** EXPIRE key seconds: a live key keeps its value and now expires `seconds`
      from now, and a non-positive timeout deletes it; a missing key stays missing. */
  function Expire(ks: Keyspace, now: int, key: string, seconds: int): (r: Keyspace)
    ensures Get(ks, now, key).Some? && seconds > 0 ==> key in r && r[key] == Entry(ks[key].value, Some(now + seconds))
    ensures Get(ks, now, key).Some? && seconds <= 0 ==> forall t :: Get(r, t, key).None?
    ensures Get(ks, now, key).None? ==> r == ks
    ensures forall k, t :: k != key ==> Get(r, t, k) == Get(ks, t, k)
  {
    if Get(ks, now, key).None? then ks
    else if seconds <= 0 then Del(ks, key)
    else ks[key := Entry(ks[key].value, Some(now + seconds))]
  }
}

=== FILE: members.dfy ===
/** Workspace member management (src/routes/members.ts): paginated listing,
    role changes (owner only) and removal (admin or owner), with the guard
    that a workspace never loses its last owner. */
module Members {
  import opened Common
  import opened Rbac
  import opened Tokens
  import opened Kv
  import opened Docs
  import opened Collections
  import opened WorkspaceMembership
  import opened RouteGuard
  import opened RequireJwt

  /** The page window a listing reads. */
  datatype Pagination = Pagination(page: int, limit: int, skip: int)

  const DefaultPageSize := 20
  const MaxPageSize := 100

  /** `page = max(page ?? 1, 1)`, `limit = min(max(limit ?? 20, 1), 100)` and
      `skip = (page - 1) * limit`; `None` is a query parameter that is absent
      or empty. */
  function Paginate(pageQ: Option<int>, limitQ: Option<int>): (p: Pagination)
    ensures p.page >= 1 && 1 <= p.limit <= MaxPageSize
    ensures p.skip == (p.page - 1) * p.limit && p.skip >= 0
    ensures pageQ.None? ==> p.page == 1
    ensures pageQ.Some? ==> p.page == (if pageQ.value >= 1 then pageQ.value else 1)
    ensures limitQ.None? ==> p.limit == DefaultPageSize
    ensures limitQ.Some? && 1 <= limitQ.value <= MaxPageSize ==> p.limit == limitQ.value
    ensures limitQ.Some? && limitQ.value < 1 ==> p.limit == 1
    ensures limitQ.Some? && limitQ.value > MaxPageSize ==> p.limit == MaxPageSize
  {
    var page := Max(pageQ.GetOr(1), 1);
    var limit := Min(Max(limitQ.GetOr(DefaultPageSize), 1), MaxPageSize);
    Pagination(page, limit, (page - 1) * limit)
  }

  /** `Math.ceil(total / limit)` for a non-negative total and positive limit:
      the fewest pages of `limit` rows that hold `total` rows. */
  function CeilDiv(total: nat, limit: int): (n: nat)
    requires limit >= 1
    ensures total <= n * limit
    ensures n >= 1 ==> (n - 1) * limit < total
  {
    if total == 0 then 0 else 1 + CeilDiv(if total <= limit then 0 else total - limit, limit)
  }

  /** `Math.max(Math.ceil(total / limit), 1)`. */
  function TotalPages(total: nat, limit: int): (n: int)
    requires limit >= 1
    ensures n >= 1 && total <= n * limit
    ensures n > 1 ==> (n - 1) * limit < total
  {
    Max(CeilDiv(total, limit), 1)
  }

  /** The rows of one page: `$skip` then `$limit`. */
  function PageSlice<T>(rows: seq<T>, p: Pagination): (r: seq<T>)
    requires p.skip >= 0 && p.limit >= 1
    ensures |r| <= p.limit
    ensures forall i :: 0 <= i < |r| ==> p.skip + i < |rows| && r[i] == rows[p.skip + i]
    ensures |r| == Max(0, Min(|rows| - p.skip, p.limit))
  {
    if p.skip >= |rows| then [] else rows[p.skip..Min(p.skip + p.limit, |rows|)]
  }

  /** Every row is shown on exactly one page, which is within `totalPages`:
      row i is at position i mod limit of page i div limit + 1, and no other
      page shows position i. */
  lemma {:induction false} EveryRowOnOnePage<T>(rows: seq<T>, limit: int, i: nat)
    requires 1 <= limit <= MaxPageSize && i < |rows|
    ensures var page := i / limit + 1;
            var p := Pagination(page, limit, (page - 1) * limit);
            && page <= TotalPages(|rows|, limit)
            && i % limit < |PageSlice(rows, p)|
            && PageSlice(rows, p)[i % limit] == rows[i]
    ensures forall page :: page >= 1 && (page - 1) * limit <= i < page * limit ==> page == i / limit + 1
  {
    var page := i / limit + 1;
    assert (page - 1) * limit == (i / limit) * limit;
    assert (i / limit) * limit + i % limit == i;
    var n := TotalPages(|rows|, limit);
    assert (page - 1 - n) * limit == (i / limit) * limit - n * limit;
    NegativeFactor(page - 1 - n, limit);
    forall page' | page' >= 1 && (page' - 1) * limit <= i < page' * limit
      ensures page' == i / limit + 1
    {
      DivBetween(i, limit, page' - 1);
    }
  }

  /** An integer between q * d and (q + 1) * d has quotient q. */
  lemma DivBetween(i: nat, d: int, q: int)
    requires d >= 1 && q * d <= i < (q + 1) * d
    ensures i / d == q
  {
    var k := i / d;
    assert k * d + i % d == i && 0 <= i % d < d;
    assert (q - k - 1) * d == q * d - (k * d + d);
    NegativeFactor(q - k - 1, d);
    assert (k - q - 1) * d == k * d - (q + 1) * d;
    NegativeFactor(k - q - 1, d);
  }

  /** A natural number divided by a positive one has a natural quotient. */
  lemma QuotientNonNegative(i: nat, d: int)
    requires d >= 1
    ensures i / d >= 0
  {
  }

  /** A product with a positive factor is negative only when the other is. */
  lemma NegativeFactor(x: int, d: int)
    requires d >= 1 && x * d < 0
    ensures x < 0
  {
  }

  /** `role` in the query, when it names one of the three roles exactly. */
  function RoleFilter(q: Option<string>): (r: Option<Role>)
    ensures r.Some? ==> q.Some? && RoleName(r.value) == q.value
    ensures q.Some? && (q.value == "member" || q.value == "admin" || q.value == "owner") ==> r.Some?
  {
    if q.Some? then ParseRole(q.value) else None
  }

  datatype SortField = ByName | ByCreatedAt

  /** `sort` in the query: "createdAt" when given exactly, else "name". */
  function SortBy(q: Option<string>): (f: SortField)
    ensures f == ByCreatedAt <==> q == Some("createdAt")
  {
    if q == Some("createdAt") then ByCreatedAt else ByName
  }

  /** The query parameters of a listing. */
  datatype ListQuery = ListQuery(page: Option<int>, limit: Option<int>, role: Option<string>, sort: Option<string>)

  /** One page of members with the totals the route reports. */
  datatype MemberPage = MemberPage(rows: seq<MemberKey>, page: int, limit: int, total: nat, totalPages: int)

  /** A membership the listing reports: in the workspace, of the filtered role
      if any, and joined to an existing user (`$unwind` drops the others). */
  predicate Listed(db: Db, ws: string, role: Option<Role>, k: MemberKey) {
    && k in db.memberships
    && k.workspaceId == ws
    && (role.None? || db.memberships[k] == role.value)
    && UserById(db, k.userId).Some?
  }

  /** The memberships a listing with this role filter reports. */
  function ListedKeys(db: Db, ws: string, role: Option<Role>): set<MemberKey> {
    set k | k in db.memberships && Listed(db, ws, role, k)
  }

  /** `Listed` as the filter the aggregation applies. */
  function ListedBy(db: Db, ws: string, role: Option<Role>): MemberKey -> bool {
    k => Listed(db, ws, role, k)
  }

  /** Filtering the ordered collection finds each listed membership once. */
  lemma ListedCount(order: seq<MemberKey>, db: Db, ws: string, role: Option<Role>)
    requires SortedMemberships(order, db)
    ensures |Filter(order, ListedBy(db, ws, role))| == |ListedKeys(db, ws, role)|
  {
    var p := ListedBy(db, ws, role);
    var keys := ListedKeys(db, ws, role);
    forall k ensures k in keys <==> k in order && p(k) {
      if k in order {
        var i :| 0 <= i < |order| && order[i] == k;
      }
    }
    FilterCountsDistinct(order, p, keys);
  }

  /** `order` lists every membership exactly once: it is the collection in
      the requested sort order. */
  ghost predicate SortedMemberships(order: seq<MemberKey>, db: Db) {
    && Distinct(order)
    && (forall i :: 0 <= i < |order| ==> order[i] in db.memberships)
    && (forall k :: k in db.memberships ==> k in order)
  }

  /** GET /:workspaceId/members. `order` is the membership collection in the
      requested sort order (the sort itself is left to the database),
      `validId` the ObjectId format check, and `dbFails` makes the first
      database call throw. */
  function ListMembers(ws: string, q: ListQuery, validId: string -> bool, order: seq<MemberKey>, dbFails: bool, db: Db): (r: (Reply, Option<MemberPage>))
    requires SortedMemberships(order, db)
    ensures !validId(ws) ==> r == (Reply(400, "Invalid workspaceId"), None)
    ensures validId(ws) && dbFails ==> r == (Reply(500, "Failed to fetch members"), None)
    ensures validId(ws) && !dbFails && WorkspaceById(db, ws).None? ==> r == (Reply(404, "Workspace not found"), None)
    ensures r.1.Some? <==> validId(ws) && !dbFails && WorkspaceById(db, ws).Some?
    ensures r.1.Some? ==>
      var mp := r.1.value;
      && r.0.status == 200
      && |mp.rows| <= mp.limit <= MaxPageSize
      && (forall i :: 0 <= i < |mp.rows| ==> Listed(db, ws, RoleFilter(q.role), mp.rows[i]))
      && mp.total == |ListedKeys(db, ws, RoleFilter(q.role))|
      && mp.totalPages >= 1 && mp.total <= mp.totalPages * mp.limit
  {
    if !validId(ws) then (Reply(400, "Invalid workspaceId"), None)
    else if dbFails then (Reply(500, "Failed to fetch members"), None)
    else if WorkspaceById(db, ws).None? then (Reply(404, "Workspace not found"), None)
    else
      var p := Paginate(q.page, q.limit);
      var role := RoleFilter(q.role);
      var matched := Filter(order, ListedBy(db, ws, role));
      ListedCount(order, db, ws, role);
      var rows := PageSlice(matched, p);
      (Reply(200, "members"), Some(MemberPage(rows, p.page, p.limit, |matched|, TotalPages(|matched|, p.limit))))
  }

  /** A listing that succeeds shows the given page of the filtered
      collection, and its page count depends only on the limit. */
  lemma ListingPage(ws: string, q: ListQuery, validId: string -> bool, order: seq<MemberKey>, db: Db)
    requires SortedMemberships(order, db)
    requires validId(ws) && WorkspaceById(db, ws).Some?
    ensures var p := Paginate(q.page, q.limit);
            var matched := Filter(order, ListedBy(db, ws, RoleFilter(q.role)));
            var mp := ListMembers(ws, q, validId, order, false, db).1.value;
            mp.rows == PageSlice(matched, p) && mp.totalPages == TotalPages(|matched|, p.limit)
  {
  }

  /** Every listed membership is shown: some page within `totalPages`, with
      the same limit, role filter and sort, carries it. */
  lemma EveryListedMemberShown(ws: string, q: ListQuery, validId: string -> bool, order: seq<MemberKey>, db: Db, k: MemberKey)
    requires SortedMemberships(order, db)
    requires validId(ws) && WorkspaceById(db, ws).Some?
    requires k in ListedKeys(db, ws, RoleFilter(q.role))
    ensures exists page :: 1 <= page <= ListMembers(ws, q, validId, order, false, db).1.value.totalPages
              && k in ListMembers(ws, q.(page := Some(page)), validId, order, false, db).1.value.rows
  {
    var matched := Filter(order, ListedBy(db, ws, RoleFilter(q.role)));
    ListedIsMatched(order, db, ws, RoleFilter(q.role), k);
    var i :| 0 <= i < |matched| && matched[i] == k;
    var page := ShownAt(ws, q, validId, order, db, i);
  }

  /** A listed membership survives the filter. */
  lemma ListedIsMatched(order: seq<MemberKey>, db: Db, ws: string, role: Option<Role>, k: MemberKey)
    requires SortedMemberships(order, db)
    requires k in ListedKeys(db, ws, role)
    ensures k in Filter(order, ListedBy(db, ws, role))
  {
    var j :| 0 <= j < |order| && order[j] == k;
    assert ListedBy(db, ws, role)(order[j]);
  }

  /** The i-th filtered membership is on page i div limit + 1. */
  lemma ShownAt(ws: string, q: ListQuery, validId: string -> bool, order: seq<MemberKey>, db: Db, i: nat) returns (page: int)
    requires SortedMemberships(order, db)
    requires validId(ws) && WorkspaceById(db, ws).Some?
    requires i < |Filter(order, ListedBy(db, ws, RoleFilter(q.role)))|
    ensures 1 <= page <= ListMembers(ws, q, validId, order, false, db).1.value.totalPages
    ensures Filter(order, ListedBy(db, ws, RoleFilter(q.role)))[i]
            in ListMembers(ws, q.(page := Some(page)), validId, order, false, db).1.value.rows
  {
    var matched := Filter(order, ListedBy(db, ws, RoleFilter(q.role)));
    var limit := Paginate(q.page, q.limit).limit;
    var pos;
    page, pos := RowPage(matched, limit, i);
    ListingPage(ws, q, validId, order, db);
    PageRows(ws, q, validId, order, db, page);
  }

  /** The page and position at which row i is shown. */
  lemma RowPage<T>(rows: seq<T>, limit: int, i: nat) returns (page: int, pos: nat)
    requires 1 <= limit <= MaxPageSize && i < |rows|
    ensures 1 <= page <= TotalPages(|rows|, limit)
    ensures var w := PageSlice(rows, Pagination(page, limit, (page - 1) * limit));
            pos < |w| && w[pos] == rows[i]
  {
    EveryRowOnOnePage(rows, limit, i);
    QuotientNonNegative(i, limit);
    page, pos := i / limit + 1, i % limit;
  }

  /** Asking for page `page` reads the window of that page at the same limit. */
  lemma PageRows(ws: string, q: ListQuery, validId: string -> bool, order: seq<MemberKey>, db: Db, page: int)
    requires SortedMemberships(order, db)
    requires validId(ws) && WorkspaceById(db, ws).Some? && page >= 1
    ensures var limit := Paginate(q.page, q.limit).limit;
            ListMembers(ws, q.(page := Some(page)), validId, order, false, db).1.value.rows
            == PageSlice(Filter(order, ListedBy(db, ws, RoleFilter(q.role))), Pagination(page, limit, (page - 1) * limit))
  {
    ListingPage(ws, q.(page := Some(page)), validId, order, db);
  }

  /** PATCH /:workspaceId/members/:userId. `body` is the parsed role (`None`
      when the body fails the schema); `dbFails` makes the first database
      call throw. The requester is the authenticated user. */
  function ChangeRole(ws: string, targetId: string, body: Option<Role>, requester: Identity,
                      validId: string -> bool, dbFails: bool, db: Db): (r: (Reply, Db))
    ensures r.0.status != 200 ==> r.1 == db
    ensures !validId(ws) || !validId(targetId) ==> r.0 == Reply(400, "Invalid ids")
    ensures r.0.status == 200 ==>
      && body.Some?
      && MemberKey(ws, targetId) in db.memberships
      && r.1 == db.(memberships := db.memberships[MemberKey(ws, targetId) := body.value])
    ensures r.0 == Reply(409, "Cannot demote the last owner") <==>
      && validId(ws) && validId(targetId) && !dbFails && WorkspaceById(db, ws).Some? && body.Some?
      && MemberKey(ws, targetId) in db.memberships
      && db.memberships[MemberKey(ws, targetId)] == Owner && body.value != Owner
      && OwnerCount(db.memberships, ws) <= 1
    ensures validId(ws) && validId(targetId) && dbFails ==> r.0 == Reply(500, "Failed to change role")
    ensures validId(ws) && validId(targetId) && !dbFails && WorkspaceById(db, ws).None? ==>
      r.0 == Reply(404, "Workspace not found")
    ensures validId(ws) && validId(targetId) && !dbFails && WorkspaceById(db, ws).Some? && body.None? ==>
      r.0 == Reply(400, "Invalid body")
    ensures validId(ws) && validId(targetId) && !dbFails && WorkspaceById(db, ws).Some? && body.Some?
            && MemberKey(ws, targetId) !in db.memberships ==>
      r.0 == Reply(404, "Target member not found")
    ensures r.0 == Reply(409, "Cannot demote yourself as the last owner") <==>
      && validId(ws) && validId(targetId) && !dbFails && WorkspaceById(db, ws).Some? && body.Some?
      && MemberKey(ws, targetId) in db.memberships
      && db.memberships[MemberKey(ws, targetId)] != Owner
      && targetId == requester.id && body.value != Owner
      && OwnerCount(db.memberships, ws) <= 1
    ensures validId(ws) && validId(targetId) && !dbFails && WorkspaceById(db, ws).Some? && body.Some?
            && MemberKey(ws, targetId) in db.memberships
            && (|| body.value == Owner || OwnerCount(db.memberships, ws) >= 2
                || (db.memberships[MemberKey(ws, targetId)] != Owner && targetId != requester.id)) ==>
      r == (Reply(200, "membership"), db.(memberships := db.memberships[MemberKey(ws, targetId) := body.value]))
  {
    if !validId(ws) || !validId(targetId) then (Reply(400, "Invalid ids"), db)
    else if dbFails then (Reply(500, "Failed to change role"), db)
    else if WorkspaceById(db, ws).None? then (Reply(404, "Workspace not found"), db)
    else if body.None? then (Reply(400, "Invalid body"), db)
    else
      var key := MemberKey(ws, targetId);
      if key !in db.memberships then (Reply(404, "Target member not found"), db)
      else if db.memberships[key] == Owner && body.value != Owner && OwnerCount(db.memberships, ws) <= 1 then
        (Reply(409, "Cannot demote the last owner"), db)
      else if targetId == requester.id && body.value != Owner && OwnerCount(db.memberships, ws) <= 1 then
        (Reply(409, "Cannot demote yourself as the last owner"), db)
      else (Reply(200, "membership"), db.(memberships := db.memberships[key := body.value]))
  }

  /** A role change never takes a workspace from having an owner to having none. */
  lemma ChangeRoleKeepsAnOwner(ws: string, targetId: string, body: Option<Role>, requester: Identity,
                               validId: string -> bool, dbFails: bool, db: Db)
    requires OwnerCount(db.memberships, ws) >= 1
    ensures OwnerCount(ChangeRole(ws, targetId, body, requester, validId, dbFails, db).1.memberships, ws) >= 1
  {
    var r := ChangeRole(ws, targetId, body, requester, validId, dbFails, db);
    if r.0.status == 200 {
      var key := MemberKey(ws, targetId);
      OwnersAfterUpdate(db.memberships, key, body.value, ws);
      if body.value == Owner {
        assert targetId in OwnersOf(r.1.memberships, ws);
      }
    }
  }

  /** DELETE /:workspaceId/members/:userId. `requesterRole` is the role the
      membership middleware attached. */
  function RemoveMember(ws: string, targetId: string, requester: Identity, requesterRole: Role,
                        validId: string -> bool, dbFails: bool, db: Db): (r: (Reply, Db))
    ensures r.0.status != 204 ==> r.1 == db
    ensures !validId(ws) || !validId(targetId) ==> r.0 == Reply(400, "Invalid ids")
    ensures r.0.status == 204 ==>
      && MemberKey(ws, targetId) in db.memberships
      && r.1 == db.(memberships := db.memberships - {MemberKey(ws, targetId)})
      && (requesterRole == Admin ==> db.memberships[MemberKey(ws, targetId)] == Member)
      && (db.memberships[MemberKey(ws, targetId)] == Owner ==> OwnerCount(db.memberships, ws) >= 2)
    ensures r.0 == Reply(403, "Admins can remove members only") <==>
      && validId(ws) && validId(targetId) && !dbFails && WorkspaceById(db, ws).Some?
      && MemberKey(ws, targetId) in db.memberships
      && requesterRole == Admin && db.memberships[MemberKey(ws, targetId)] != Member
    ensures r.0 != Reply(409, "Cannot remove yourself as the last owner")
    ensures validId(ws) && validId(targetId) && dbFails ==> r.0 == Reply(500, "Failed to remove member")
    ensures validId(ws) && validId(targetId) && !dbFails && WorkspaceById(db, ws).None? ==>
      r.0 == Reply(404, "Workspace not found")
    ensures validId(ws) && validId(targetId) && !dbFails && WorkspaceById(db, ws).Some?
            && MemberKey(ws, targetId) !in db.memberships ==>
      r.0 == Reply(404, "Target member not found")
    ensures r.0 == Reply(409, "Cannot remove the last owner") <==>
      && validId(ws) && validId(targetId) && !dbFails && WorkspaceById(db, ws).Some?
      && MemberKey(ws, targetId) in db.memberships
      && !(requesterRole == Admin && db.memberships[MemberKey(ws, targetId)] != Member)
      && db.memberships[MemberKey(ws, targetId)] == Owner && OwnerCount(db.memberships, ws) <= 1
    ensures validId(ws) && validId(targetId) && !dbFails && WorkspaceById(db, ws).Some?
            && MemberKey(ws, targetId) in db.memberships
            && (requesterRole != Admin || db.memberships[MemberKey(ws, targetId)] == Member)
            && (db.memberships[MemberKey(ws, targetId)] != Owner || OwnerCount(db.memberships, ws) >= 2) ==>
      r == (Reply(204, ""), db.(memberships := db.memberships - {MemberKey(ws, targetId)}))
  {
    if !validId(ws) || !validId(targetId) then (Reply(400, "Invalid ids"), db)
    else if dbFails then (Reply(500, "Failed to remove member"), db)
    else if WorkspaceById(db, ws).None? then (Reply(404, "Workspace not found"), db)
    else
      var key := MemberKey(ws, targetId);
      if key !in db.memberships then (Reply(404, "Target member not found"), db)
      else
        var target := db.memberships[key];
        if requesterRole == Admin && target != Member then (Reply(403, "Admins can remove members only"), db)
        else if target == Owner && OwnerCount(db.memberships, ws) <= 1 then (Reply(409, "Cannot remove the last owner"), db)
        else if targetId == requester.id && target == Owner && OwnerCount(db.memberships, ws) <= 1 then
          (Reply(409, "Cannot remove yourself as the last owner"), db)
        else (Reply(204, ""), db.(memberships := db.memberships - {key}))
  }

  /** A removal never takes a workspace from having an owner to having none. */
  lemma RemoveKeepsAnOwner(ws: string, targetId: string, requester: Identity, requesterRole: Role,
                           validId: string -> bool, dbFails: bool, db: Db)
    requires OwnerCount(db.memberships, ws) >= 1
    ensures OwnerCount(RemoveMember(ws, targetId, requester, requesterRole, validId, dbFails, db).1.memberships, ws) >= 1
  {
    var r := RemoveMember(ws, targetId, requester, requesterRole, validId, dbFails, db);
    if r.0.status == 204 {
      OwnersAfterRemove(db.memberships, MemberKey(ws, targetId), ws);
    }
  }

  /** The request as routed: the Authorization header, the `:workspaceId`
      and `:userId` path segments. */
  datatype MemberRequest = MemberRequest(authorization: Option<string>, ws: string, targetId: string)

  function GuardFor(req: MemberRequest): GuardRequest {
    GuardRequest(req.authorization, WorkspaceSources(Some(req.ws), None, None))
  }

  /** The change-role route: the owner gate, then the handler. */
  function ChangeRoleRoute(req: MemberRequest, body: Option<Role>, dbFails: bool,
                           env: Env, ks: Keyspace, db: Db): (r: (Reply, Db))
    ensures r.1 != db ==> Guard(Owner, GuardFor(req), env, ks, db).Next?
    ensures r.0 != Reply(409, "Cannot demote yourself as the last owner")
  {
    match Guard(Owner, GuardFor(req), env, ks, db)
    case Halt(reply) => (reply, db)
    case Next(c) =>
      OwnerGateWitnessesOwner(GuardFor(req), env, ks, db);
      ChangeRole(req.ws, req.targetId, body, c.user, env.validId, dbFails, db)
  }

  /** The gate does not stand in a legitimate owner's way: an authenticated
      owner of the workspace who changes the role of an existing member, in a
      change that leaves an owner behind, is answered 200. */
  lemma OwnerChangesRole(req: MemberRequest, body: Role, env: Env, ks: Keyspace, db: Db)
    requires RequireJWT(req.authorization, env.codec, ks, env.now, env.outage).Next?
    requires Admissible(Owner, GuardFor(req).workspace, RequireJWT(req.authorization, env.codec, ks, env.now, env.outage).value, env, db)
    requires env.validId(req.targetId) && WorkspaceById(db, req.ws).Some?
    requires MemberKey(req.ws, req.targetId) in db.memberships
    requires body == Owner || OwnerCount(db.memberships, req.ws) >= 2
    ensures ChangeRoleRoute(req, Some(body), false, env, ks, db)
         == (Reply(200, "membership"), db.(memberships := db.memberships[MemberKey(req.ws, req.targetId) := body]))
  {
  }

  /** The removal route: the admin gate, then the handler. */
  function RemoveMemberRoute(req: MemberRequest, dbFails: bool,
                             env: Env, ks: Keyspace, db: Db): (r: (Reply, Db))
    ensures r.0.status == 204 ==>
      var c := Guard(Admin, GuardFor(req), env, ks, db);
      && c.Next?
      && (c.value.membership.role == Owner || c.value.membership.role == Admin)
      && MemberKey(req.ws, req.targetId) in db.memberships
      && (c.value.membership.role == Admin ==> db.memberships[MemberKey(req.ws, req.targetId)] == Member)
  {
    match Guard(Admin, GuardFor(req), env, ks, db)
    case Halt(reply) => (reply, db)
    case Next(c) => RemoveMember(req.ws, req.targetId, c.user, c.membership.role, env.validId, dbFails, db)
  }
}

=== FILE: messages.dfy ===
/** Channel messages (src/routes/messages.ts): the middleware that takes the
    workspace from the channel, the top-level listing (newest first, cut at a
    limit) and message creation. */
module Messages {
  import opened Common
  import opened Rbac
  import opened Tokens
  import opened Kv
  import opened Docs
  import opened Collections
  import opened RequireJwt
  import opened WorkspaceMembership
  import opened RouteGuard

  /** `injectWorkspaceFromChannel`: the channel's workspace becomes the
      route's `workspaceId`. `None` means the lookup threw on a malformed id:
      the middleware's promise rejects and no response is sent. */
  function InjectWorkspaceFromChannel(channelId: string, validId: string -> bool, db: Db): (r: Option<Step<string>>)
    ensures !validId(channelId) <==> r.None?
    ensures r == Some(Halt(Reply(404, "Channel not found"))) <==> validId(channelId) && ChannelById(db, channelId).None?
    ensures r.Some? && r.value.Next? ==> ChannelById(db, channelId).Some? && r.value.value == ChannelById(db, channelId).value.workspaceId
  {
    if !validId(channelId) then None
    else match ChannelById(db, channelId)
      case None => Some(Halt(Reply(404, "Channel not found")))
      case Some(ch) => Some(Next(ch.workspaceId))
  }

  // ---------------------------------------------------------------------
  // Listing

  const DefaultMessageLimit := 20
  const MaxMessageLimit := 100

  /** A listing row: a top-level message of the channel, older than `before`
      when that is given. */
  predicate Listable(channelId: string, before: Option<int>, m: Message) {
    m.channelId == channelId && m.parentMessageId.None? && (before.None? || m.createdAt < before.value)
  }

  /** The rows the query matches, in collection order. */
  function Matching(channelId: string, before: Option<int>, db: Db): (r: seq<Message>)
    ensures forall m :: m in r <==> m in db.messages && Listable(channelId, before, m)
  {
    Filter(db.messages, m => Listable(channelId, before, m))
  }

  /** Newest first: `createdAt` never increases along the sequence. */
  predicate NewestFirst(s: seq<Message>) {
    forall i, j :: 0 <= i < j < |s| ==> s[i].createdAt >= s[j].createdAt
  }

  /** Inserts `m` into a newest-first sequence, after every row at least as
      new (ties keep their arrival order). */
  function InsertByTime(m: Message, s: seq<Message>): (r: seq<Message>)
    requires NewestFirst(s)
    ensures NewestFirst(r)
    ensures multiset(r) == multiset(s) + multiset{m}
  {
    if |s| == 0 then [m]
    else if m.createdAt > s[0].createdAt then [m] + s
    else
      var rest := InsertByTime(m, s[1..]);
      assert s == [s[0]] + s[1..];
      forall x | x in rest ensures s[0].createdAt >= x.createdAt {
        assert x in multiset(rest);
        if x != m {
          assert x in multiset(s[1..]);
          var k :| 0 <= k < |s[1..]| && s[1..][k] == x;
          assert s[k + 1] == x;
        }
      }
      [s[0]] + rest
  }

  /** `sort({ createdAt: -1 })`: a newest-first permutation of the rows. */
  function SortNewestFirst(s: seq<Message>): (r: seq<Message>)
    ensures NewestFirst(r)
    ensures multiset(r) == multiset(s)
  {
    if |s| == 0 then []
    else
      assert s == [s[0]] + s[1..];
      InsertByTime(s[0], SortNewestFirst(s[1..]))
  }

  function Abs(n: int): nat { if n < 0 then -n else n }

  /** `cursor.limit(n)`: zero means no limit, and a negative limit returns
      at most |n| rows. */
  function CursorLimit(s: seq<Message>, n: int): (r: seq<Message>)
    ensures n == 0 ==> r == s
    ensures n != 0 ==> |r| == Min(Abs(n), |s|)
    ensures r == s[..|r|]
  {
    if n == 0 || |s| <= Abs(n) then s else s[..Abs(n)]
  }

  /** The limit as the handler computes it: the query value (default 20)
      capped at 100 from above only. */
  function LimitAsWritten(q: Option<int>): (n: int)
    ensures n <= MaxMessageLimit
    ensures q.None? ==> n == DefaultMessageLimit
    ensures q.Some? && q.value <= MaxMessageLimit ==> n == q.value
  {
    Min(q.GetOr(DefaultMessageLimit), MaxMessageLimit)
  }

  /** The limit clamped to [1, 100], as the members listing clamps its own. */
  function Limit(q: Option<int>): (n: int)
    ensures 1 <= n <= MaxMessageLimit
    ensures q.None? ==> n == DefaultMessageLimit
    ensures q.Some? && 1 <= q.value <= MaxMessageLimit ==> n == q.value
    ensures q.Some? && q.value < 1 ==> n == 1
    ensures q.Some? && q.value > MaxMessageLimit ==> n == MaxMessageLimit
  {
    Min(Max(q.GetOr(DefaultMessageLimit), 1), MaxMessageLimit)
  }

  /** The rows every message listing shares: the matching rows, newest first. */
  function Timeline(channelId: string, before: Option<int>, db: Db): (r: seq<Message>)
    ensures NewestFirst(r) && multiset(r) == multiset(Matching(channelId, before, db))
  {
    SortNewestFirst(Matching(channelId, before, db))
  }

  /** GET /:channelId/messages as written. */
  function ListMessagesAsWritten(channelId: string, limitQ: Option<int>, before: Option<int>, db: Db): (r: seq<Message>)
    ensures LimitAsWritten(limitQ) == 0 ==> |r| == |Matching(channelId, before, db)|
    ensures multiset(r) <= multiset(Matching(channelId, before, db))
    ensures limitQ == Some(0) ==> multiset(r) == multiset(Matching(channelId, before, db))
    ensures LimitAsWritten(limitQ) != 0 ==> |r| == Min(Abs(LimitAsWritten(limitQ)), |Matching(channelId, before, db)|)
    ensures NewestFirst(r)
    ensures forall m :: m in r ==> m in db.messages && Listable(channelId, before, m)
  {
    var t := Timeline(channelId, before, db);
    var r := CursorLimit(t, LimitAsWritten(limitQ));
    CutIsNewest(t, LimitAsWritten(limitQ));
    assert |t| == |multiset(t)|;
    MatchingRows(channelId, before, db, r);
    r
  }

  /** GET /:channelId/messages with the limit clamped to [1, 100]: a newest-
      first page of at most 100 matching rows, none of which is older than a
      matching row left out. */
  function ListMessages(channelId: string, limitQ: Option<int>, before: Option<int>, db: Db): (r: seq<Message>)
    ensures |r| <= MaxMessageLimit && |r| <= Limit(limitQ)
    ensures |r| == Min(Limit(limitQ), |Matching(channelId, before, db)|)
    ensures multiset(r) <= multiset(Matching(channelId, before, db))
    ensures NewestFirst(r)
    ensures forall m :: m in r ==> m in db.messages && Listable(channelId, before, m)
    ensures forall m, i :: m in multiset(Matching(channelId, before, db)) - multiset(r) && 0 <= i < |r|
              ==> m.createdAt <= r[i].createdAt
  {
    var t := Timeline(channelId, before, db);
    var r := CursorLimit(t, Limit(limitQ));
    CutIsNewest(t, Limit(limitQ));
    assert |t| == |multiset(t)|;
    MatchingRows(channelId, before, db, r);
    r
  }

  /** A cursor cut of a newest-first sequence is newest first, and every
      row it leaves out is no newer than any row it keeps. */
  lemma CutIsNewest(t: seq<Message>, n: int)
    requires NewestFirst(t)
    ensures var r := CursorLimit(t, n);
            && NewestFirst(r)
            && multiset(r) <= multiset(t)
            && forall m, i :: m in multiset(t) - multiset(r) && 0 <= i < |r| ==> m.createdAt <= r[i].createdAt
  {
    var r := CursorLimit(t, n);
    var k := |r|;
    assert t == t[..k] + t[k..];
    assert r == t[..k];
    forall m, i | m in multiset(t) - multiset(r) && 0 <= i < k
      ensures m.createdAt <= r[i].createdAt
    {
      assert m in multiset(t[k..]);
      var j :| 0 <= j < |t[k..]| && t[k..][j] == m;
      assert t[k + j] == m;
    }
  }

  /** Rows drawn from the timeline are listable rows of the collection. */
  lemma MatchingRows(channelId: string, before: Option<int>, db: Db, r: seq<Message>)
    requires multiset(r) <= multiset(Timeline(channelId, before, db))
    ensures forall m :: m in r ==> m in db.messages && Listable(channelId, before, m)
  {
    forall m | m in r ensures m in db.messages && Listable(channelId, before, m) {
      assert m in multiset(r);
      assert m in multiset(Matching(channelId, before, db));
    }
  }

  /** The as-written limit lets a listing exceed 100 rows: `limit=0` turns the
      cursor limit off and a negative limit is taken by magnitude. */
  lemma {:induction false} UnboundedListingAsWritten(channelId: string, db: Db)
    requires |db.messages| == 101
    requires forall i :: 0 <= i < |db.messages| ==> Listable(channelId, None, db.messages[i])
    ensures |ListMessagesAsWritten(channelId, Some(0), None, db)| == 101
    ensures |ListMessagesAsWritten(channelId, Some(-101), None, db)| == 101
    ensures |ListMessages(channelId, Some(0), None, db)| == 1
  {
    assert Matching(channelId, None, db) == db.messages;
  }

  /** A concrete channel with 101 top-level messages. */
  function Flood(channelId: string): (s: seq<Message>)
    ensures |s| == 101
    ensures forall i :: 0 <= i < |s| ==> Listable(channelId, None, s[i])
  {
    seq(101, i => Message("m", "w", channelId, "u", None, "hi", i))
  }

  /** `?limit=0` on that channel returns all 101 messages. */
  lemma LimitZeroReturnsEverything(db: Db)
    requires db.messages == Flood("c")
    ensures |ListMessagesAsWritten("c", Some(0), None, db)| == 101
  {
    UnboundedListingAsWritten("c", db);
  }

  // ---------------------------------------------------------------------
  // Creation

  /** POST /:channelId/messages. `ws` is the workspace the middleware took
      from the channel; a truthy parent id that is malformed makes the insert
      throw (`None`). */
  function CreateMessage(channelId: string, ws: string, body: Option<string>, parent: Option<string>,
                         caller: Identity, id: string, now: int, validId: string -> bool, db: Db): (r: (Option<Reply>, Db))
    ensures body.None? || body.value == "" ==> r == (Some(Reply(400, "Invalid body")), db)
    ensures r.0 != Some(Reply(201, "message")) ==> r.1 == db
    ensures r.0 == Some(Reply(201, "message")) ==>
      && body.Some? && body.value != ""
      && |r.1.messages| == |db.messages| + 1
      && r.1.messages[..|db.messages|] == db.messages
      && r.1 == db.(messages := r.1.messages)
      && var m := r.1.messages[|db.messages|];
         && m.id == id && m.body == body.value && m.channelId == channelId && m.workspaceId == ws
         && m.userId == caller.id && m.createdAt == now
         && (m.parentMessageId.Some? <==> Truthy(parent))
         && (Truthy(parent) ==> m.parentMessageId == parent)
    ensures body.Some? && body.value != "" ==>
      (r.0 == Some(Reply(201, "message")) <==> !Truthy(parent) || validId(parent.value))
    ensures body.Some? && body.value != "" && Truthy(parent) && !validId(parent.value) ==> r == (None, db)
  {
    if body.None? || body.value == "" then (Some(Reply(400, "Invalid body")), db)
    else
      var parentId := if Truthy(parent) then parent else None;
      if parentId.Some? && !validId(parentId.value) then (None, db)
      else (Some(Reply(201, "message")),
            db.(messages := db.messages + [Message(id, ws, channelId, caller.id, parentId, body.value, now)]))
  }

  /** Every message sits in the workspace of its channel. */
  ghost predicate MessagesInChannelWorkspace(db: Db) {
    forall i :: 0 <= i < |db.messages| ==>
      ChannelById(db, db.messages[i].channelId).Some?
      && ChannelById(db, db.messages[i].channelId).value.workspaceId == db.messages[i].workspaceId
  }

  // ---------------------------------------------------------------------
  // Routes

  /** The middleware chain of both message routes: requireJWT, the channel
      lookup, then the member gate on the channel's workspace. */
  function MessageGuard(authorization: Option<string>, channelId: string, env: Env, ks: Keyspace, db: Db): (r: Option<Step<Caller>>)
    ensures r.Some? && r.value.Next? ==>
      && ChannelById(db, channelId).Some?
      && var ch := ChannelById(db, channelId).value;
         && r.value.value.membership.workspaceId == ch.workspaceId
         && MemberKey(ch.workspaceId, r.value.value.user.id) in db.memberships
    ensures (RequireJWT(authorization, env.codec, ks, env.now, env.outage).Next? && env.validId(channelId)
             && ChannelById(db, channelId).None?) ==> r == Some(Halt(Reply(404, "Channel not found")))
    ensures r.Some? && r.value.Next? ==> RequireJWT(authorization, env.codec, ks, env.now, env.outage) == Next(r.value.value.user)
    ensures r.Some? && r.value.Next? <==>
      && RequireJWT(authorization, env.codec, ks, env.now, env.outage).Next?
      && env.validId(channelId) && ChannelById(db, channelId).Some?
      && Admissible(Member, WorkspaceSources(Some(ChannelById(db, channelId).value.workspaceId), None, None),
                    RequireJWT(authorization, env.codec, ks, env.now, env.outage).value, env, db)
  {
    match RequireJWT(authorization, env.codec, ks, env.now, env.outage)
    case Halt(reply) => Some(Halt(reply))
    case Next(_) =>
      match InjectWorkspaceFromChannel(channelId, env.validId, db)
      case None => None
      case Some(Halt(reply)) => Some(Halt(reply))
      case Some(Next(ws)) =>
        Some(Guard(Member, GuardRequest(authorization, WorkspaceSources(Some(ws), None, None)), env, ks, db))
  }

  /** The list route. Only members of the channel's workspace see its rows. */
  function ListMessagesRoute(authorization: Option<string>, channelId: string, limitQ: Option<int>, before: Option<int>,
                             env: Env, ks: Keyspace, db: Db): (r: Option<Step<seq<Message>>>)
    ensures r.Some? && r.value.Next? ==>
      && ChannelById(db, channelId).Some?
      && MessageGuard(authorization, channelId, env, ks, db).Some?
      && MessageGuard(authorization, channelId, env, ks, db).value.Next?
      && MemberKey(ChannelById(db, channelId).value.workspaceId,
                   MessageGuard(authorization, channelId, env, ks, db).value.value.user.id) in db.memberships
      && r.value.value == ListMessages(channelId, limitQ, before, db)
  {
    match MessageGuard(authorization, channelId, env, ks, db)
    case None => None
    case Some(Halt(reply)) => Some(Halt(reply))
    case Some(Next(_)) => Some(Next(ListMessages(channelId, limitQ, before, db)))
  }

  /** The create route: the stored message carries the channel's workspace
      and the caller, who is a member of that workspace. */
  function CreateMessageRoute(authorization: Option<string>, channelId: string, body: Option<string>, parent: Option<string>,
                              id: string, env: Env, ks: Keyspace, db: Db): (r: (Option<Reply>, Db))
    ensures r.1 != db ==>
      && ChannelById(db, channelId).Some?
      && |r.1.messages| == |db.messages| + 1
      && r.1.messages[..|db.messages|] == db.messages
      && r.1 == db.(messages := r.1.messages)
      && var m := r.1.messages[|db.messages|];
         && m.channelId == channelId
         && m.workspaceId == ChannelById(db, channelId).value.workspaceId
         && MemberKey(m.workspaceId, m.userId) in db.memberships
  {
    match MessageGuard(authorization, channelId, env, ks, db)
    case None => (None, db)
    case Some(Halt(reply)) => (Some(reply), db)
    case Some(Next(c)) =>
      CreateMessage(channelId, c.membership.workspaceId, body, parent, c.user, id, env.now, env.validId, db)
  }

  /** Posting through the route keeps every message in its channel's
      workspace. */
  lemma CreateKeepsChannelWorkspace(authorization: Option<string>, channelId: string, body: Option<string>, parent: Option<string>,
                                    id: string, env: Env, ks: Keyspace, db: Db)
    requires MessagesInChannelWorkspace(db)
    ensures MessagesInChannelWorkspace(CreateMessageRoute(authorization, channelId, body, parent, id, env, ks, db).1)
  {
    var db1 := CreateMessageRoute(authorization, channelId, body, parent, id, env, ks, db).1;
    if db1 != db {
      assert db1.channels == db.channels;
      forall i | 0 <= i < |db1.messages|
        ensures ChannelById(db1, db1.messages[i].channelId).Some?
        ensures ChannelById(db1, db1.messages[i].channelId).value.workspaceId == db1.messages[i].workspaceId
      {
        if i < |db.messages| {
          assert db1.messages[i] == db.messages[i];
        }
      }
    }
  }
}

=== FILE: rate_limit.dfy ===
/** The fixed-window rate limiter (src/middleware/rateLimit.ts): one counter
    per bucket under `rl:<bucket>`, incremented by every request and given an
    expiry of `windowSec` by the first request of a window. */
module RateLimit {
  import opened Common
  import opened Kv
  import opened RedisKeys

  const DefaultWindowSec: int := 60
  const DefaultMax: int := 100
  const TooManyRequests: string := "Too many requests. Please slow down."

  /** The options a route passes; `None` is an option left undefined. */
  datatype RateOptions = RateOptions(windowSec: Option<int>, max: Option<int>, headers: Option<bool>)

  /** The environment variables RATE_LIMIT_WINDOW_SEC and RATE_LIMIT_MAX;
      `None` is unset or empty. */
  datatype RateEnv = RateEnv(windowSec: Option<int>, max: Option<int>)

  datatype RateConfig = RateConfig(windowSec: int, max: int, addHeaders: bool)

  /** The option if given (`??`), else the environment value if set (`||`),
      else the built-in default. */
  function Configure(opts: RateOptions, env: RateEnv): (c: RateConfig)
    ensures opts.windowSec.Some? ==> c.windowSec == opts.windowSec.value
    ensures opts.windowSec.None? && env.windowSec.Some? ==> c.windowSec == env.windowSec.value
    ensures opts.windowSec.None? && env.windowSec.None? ==> c.windowSec == DefaultWindowSec
    ensures opts.max.Some? ==> c.max == opts.max.value
    ensures opts.max.None? && env.max.Some? ==> c.max == env.max.value
    ensures opts.max.None? && env.max.None? ==> c.max == DefaultMax
    ensures c.addHeaders <==> opts.headers != Some(false)
  {
    RateConfig(opts.windowSec.GetOr(env.windowSec.GetOr(DefaultWindowSec)),
               opts.max.GetOr(env.max.GetOr(DefaultMax)),
               opts.headers.GetOr(true))
  }

  /** The bucket id: the configured bucket function's result when one is
      configured (even an empty one), else the client ip, else "ip:unknown". */
  function BucketId(custom: Option<string>, ip: Option<string>): (id: string)
    ensures custom.Some? ==> id == custom.value
    ensures custom.None? && Truthy(ip) ==> id == ip.value
    ensures custom.None? && !Truthy(ip) ==> id == "ip:unknown"
  {
    if custom.Some? then custom.value else Or(ip, Some("ip:unknown")).value
  }

  /** X-RateLimit-Limit, X-RateLimit-Remaining and X-RateLimit-Reset. */
  datatype RateHeaders = RateHeaders(limit: int, remaining: int, reset: int)

  /** What one request leaves behind: the verdict, the headers set (if any)
      and the keyspace. */
  datatype RateResult = RateResult(outcome: Step<()>, headers: Option<RateHeaders>, ks: Keyspace)

  /** The count a request sees after its own increment. */
  function CountAfter(ks: Keyspace, now: int, key: string): int {
    match Get(ks, now, key)
    case Some(Counter(n)) => n + 1
    case _ => 1
  }

  /** One request through the limiter. Store call 0 is the MULTI of INCR and
      TTL; store call 1 is the EXPIRE issued when the counter has no expiry.
      A failure of either lets the request through; a failed EXPIRE leaves
      the increment in place. INCR on a non-counter value is treated like a
      failed transaction. */
  function RateLimitStep(cfg: RateConfig, bucket: string, ks: Keyspace, now: int, outage: Outage): (r: RateResult)
    ensures outage.Fails(0) ==> r == RateResult(Next(()), None, ks)
    ensures !outage.Fails(0) && !IsText(ks, now, RlBucket(bucket)) &&
            (cfg.windowSec > 0 || !NeedsExpiry(ks, now, RlBucket(bucket))) ==>
      Get(r.ks, now, RlBucket(bucket)) == Some(Counter(CountAfter(ks, now, RlBucket(bucket))))
    ensures r.outcome.Halt? <==>
      && !outage.Fails(0)
      && !IsText(ks, now, RlBucket(bucket))
      && !(NeedsExpiry(ks, now, RlBucket(bucket)) && outage.Fails(1))
      && CountAfter(ks, now, RlBucket(bucket)) > cfg.max
    ensures r.outcome.Halt? ==> r.outcome.reply == Reply(429, TooManyRequests)
    ensures !outage.Fails(1) && !IsText(ks, now, RlBucket(bucket)) && cfg.windowSec > 0 ==>
      RlBucket(bucket) in r.ks && r.ks[RlBucket(bucket)].expiresAt.Some?
    ensures r.headers.Some? ==>
      && cfg.addHeaders
      && r.headers.value.limit == cfg.max
      && r.headers.value.remaining == Max(0, cfg.max - CountAfter(ks, now, RlBucket(bucket)))
      && r.headers.value.remaining >= 0
    ensures cfg.addHeaders && !outage.Fails(1) && !IsText(ks, now, RlBucket(bucket)) ==> r.headers.Some?
    ensures forall k, t :: k != RlBucket(bucket) ==> Get(r.ks, t, k) == Get(ks, t, k)
  {
    var key := RlBucket(bucket);
    if outage.Fails(0) then RateResult(Next(()), None, ks)
    else
      match Incr(ks, now, key)
      case None => RateResult(Next(()), None, ks)
      case Some((ks1, count)) =>
        var ttl := Ttl(ks1, now, key);
        if ttl < 0 && outage.Fails(1) then RateResult(Next(()), None, ks1)
        else
          var ks2 := if ttl < 0 then Expire(ks1, now, key, cfg.windowSec) else ks1;
          var reset := if ttl < 0 then cfg.windowSec else ttl;
          var headers := if cfg.addHeaders then Some(RateHeaders(cfg.max, Max(0, cfg.max - count), reset)) else None;
          var outcome := if count > cfg.max then Halt(Reply(429, TooManyRequests)) else Next(());
          RateResult(outcome, headers, ks2)
  }

  predicate IsText(ks: Keyspace, now: int, key: string) {
    Get(ks, now, key).Some? && Get(ks, now, key).value.Text?
  }

  /** The counter has no expiry after the increment (TTL < 0), so the limiter
      issues EXPIRE: the key was missing, expired, or stored without expiry. */
  predicate NeedsExpiry(ks: Keyspace, now: int, key: string) {
    Get(ks, now, key).None? || ks[key].expiresAt.None?
  }

  /** The first request of a window finds no live counter: it sees count 1,
      passes whenever max >= 1, and leaves a counter of 1 that expires
      `windowSec` later; the Reset header reports `windowSec`. */
  lemma FirstRequestOpensWindow(cfg: RateConfig, bucket: string, ks: Keyspace, now: int)
    requires Get(ks, now, RlBucket(bucket)).None?
    requires cfg.windowSec > 0
    ensures var r := RateLimitStep(cfg, bucket, ks, now, NoOutage);
            && r.ks[RlBucket(bucket)] == Entry(Counter(1), Some(now + cfg.windowSec))
            && (r.outcome.Next? <==> cfg.max >= 1)
            && (cfg.addHeaders ==> r.headers == Some(RateHeaders(cfg.max, Max(0, cfg.max - 1), cfg.windowSec)))
  {
  }

  /** A request inside a running window adds one to the counter, keeps the
      window's end, and reports the seconds left as Reset. */
  lemma RequestInsideWindow(cfg: RateConfig, bucket: string, ks: Keyspace, now: int, c: int, end: int)
    requires RlBucket(bucket) in ks && ks[RlBucket(bucket)] == Entry(Counter(c), Some(end))
    requires now < end
    ensures var r := RateLimitStep(cfg, bucket, ks, now, NoOutage);
            && r.ks[RlBucket(bucket)] == Entry(Counter(c + 1), Some(end))
            && (r.outcome.Next? <==> c + 1 <= cfg.max)
            && (cfg.addHeaders ==> r.headers == Some(RateHeaders(cfg.max, Max(0, cfg.max - (c + 1)), end - now)))
  {
  }

  /** The limiter applied to a sequence of requests at the given times, with
      no store failures; the results in request order. */
  function Replay(cfg: RateConfig, bucket: string, ks: Keyspace, times: seq<int>): (rs: seq<RateResult>)
    ensures |rs| == |times|
    ensures forall i :: 0 <= i < |rs| && rs[i].outcome.Halt? ==> rs[i].outcome.reply == Reply(429, TooManyRequests)
    decreases |times|
  {
    if times == [] then []
    else
      var r := RateLimitStep(cfg, bucket, ks, times[0], NoOutage);
      [r] + Replay(cfg, bucket, r.ks, times[1..])
  }

  /** Inside one window the i-th further request (from 0) sees count c + i + 1:
      it passes exactly when that is at most max, and the Remaining header
      counts down to 0. */
  lemma {:induction false} ReplayInsideWindow(cfg: RateConfig, bucket: string, ks: Keyspace, c: int, end: int, times: seq<int>)
    requires RlBucket(bucket) in ks && ks[RlBucket(bucket)] == Entry(Counter(c), Some(end))
    requires forall i :: 0 <= i < |times| ==> times[i] < end
    ensures forall i :: 0 <= i < |times| ==>
      && (Replay(cfg, bucket, ks, times)[i].outcome.Next? <==> c + i + 1 <= cfg.max)
      && (cfg.addHeaders ==> Replay(cfg, bucket, ks, times)[i].headers.Some? && Replay(cfg, bucket, ks, times)[i].headers.value.remaining == Max(0, cfg.max - (c + i + 1)))
    decreases |times|
  {
    if times != [] {
      var r := RateLimitStep(cfg, bucket, ks, times[0], NoOutage);
      RequestInsideWindow(cfg, bucket, ks, times[0], c, end);
      ReplayInsideWindow(cfg, bucket, r.ks, c + 1, end, times[1..]);
      var rs := Replay(cfg, bucket, ks, times);
      assert rs == [r] + Replay(cfg, bucket, r.ks, times[1..]);
      forall i | 0 <= i < |times|
        ensures && (rs[i].outcome.Next? <==> c + i + 1 <= cfg.max)
                && (cfg.addHeaders ==> rs[i].headers.Some? && rs[i].headers.value.remaining == Max(0, cfg.max - (c + i + 1)))
      {
        if i > 0 {
          assert rs[i] == Replay(cfg, bucket, r.ks, times[1..])[i - 1];
          assert times[1..][i - 1] == times[i];
        }
      }
    }
  }

  /** A window opened on an empty bucket: the i-th request (from 0) of the
      window sees count i + 1, so exactly the first max requests pass. */
  lemma {:induction false} WindowAdmitsExactlyMax(cfg: RateConfig, bucket: string, ks: Keyspace, times: seq<int>)
    requires cfg.windowSec > 0
    requires |times| >= 1 && Get(ks, times[0], RlBucket(bucket)).None?
    requires forall i :: 0 <= i < |times| ==> times[i] < times[0] + cfg.windowSec
    ensures forall i :: 0 <= i < |times| ==>
      && (Replay(cfg, bucket, ks, times)[i].outcome.Next? <==> i + 1 <= cfg.max)
      && (cfg.addHeaders ==> Replay(cfg, bucket, ks, times)[i].headers.Some? && Replay(cfg, bucket, ks, times)[i].headers.value.remaining == Max(0, cfg.max - (i + 1)))
  {
    var r := RateLimitStep(cfg, bucket, ks, times[0], NoOutage);
    FirstRequestOpensWindow(cfg, bucket, ks, times[0]);
    ReplayInsideWindow(cfg, bucket, r.ks, 1, times[0] + cfg.windowSec, times[1..]);
    var rs := Replay(cfg, bucket, ks, times);
    assert rs == [r] + Replay(cfg, bucket, r.ks, times[1..]);
    forall i | 0 <= i < |times|
      ensures && (rs[i].outcome.Next? <==> i + 1 <= cfg.max)
              && (cfg.addHeaders ==> rs[i].headers.Some? && rs[i].headers.value.remaining == Max(0, cfg.max - (i + 1)))
    {
      if i > 0 {
        assert rs[i] == Replay(cfg, bucket, r.ks, times[1..])[i - 1];
        assert times[1..][i - 1] == times[i];
      }
    }
  }

  /** With max = 5, six requests in one window: the first five pass and the
      sixth is answered 429. */
  lemma SixthRequestRejected(bucket: string, ks: Keyspace, times: seq<int>)
    requires |times| == 6 && Get(ks, times[0], RlBucket(bucket)).None?
    requires forall i :: 0 <= i < 6 ==> times[i] < times[0] + DefaultWindowSec
    ensures var rs := Replay(RateConfig(DefaultWindowSec, 5, true), bucket, ks, times);
            && (forall i :: 0 <= i < 5 ==> rs[i].outcome.Next?)
            && rs[5].outcome == Halt(Reply(429, TooManyRequests))
  {
    WindowAdmitsExactlyMax(RateConfig(DefaultWindowSec, 5, true), bucket, ks, times);
  }

  /** Once the window has ended the counter is gone, so the next request
      starts a new window at count 1. */
  lemma WindowResets(cfg: RateConfig, bucket: string, ks: Keyspace, c: int, end: int, now: int)
    requires RlBucket(bucket) in ks && ks[RlBucket(bucket)] == Entry(Counter(c), Some(end))
    requires end <= now
    ensures CountAfter(ks, now, RlBucket(bucket)) == 1
    ensures cfg.max >= 1 ==> RateLimitStep(cfg, bucket, ks, now, NoOutage).outcome.Next?
  {
  }
}

=== FILE: rbac.dfy ===
/** Workspace roles and their rank order (src/utils/rbac.ts). */
module Rbac {
  import opened Common

  datatype Role = Member | Admin | Owner

  /** The `RANK` table: member 1, admin 2, owner 3. */
  function Rank(r: Role): (n: nat)
    ensures 1 <= n <= 3
    ensures n == 1 <==> r == Member
    ensures n == 3 <==> r == Owner
  {
    match r
    case Member => 1
    case Admin => 2
    case Owner => 3
  }

  /** `roleAtLeast(actual, required)`: an absent role never qualifies. */
  function RoleAtLeast(actual: Option<Role>, required: Role): (ok: bool)
    ensures actual.None? ==> !ok
    ensures actual == Some(Owner) ==> ok
    ensures actual == Some(required) ==> ok
    ensures required == Member ==> (ok <==> actual.Some?)
  {
    if actual.None? then false else Rank(actual.value) >= Rank(required)
  }

  /** The role names used in request bodies, queries and stored documents. */
  function RoleName(r: Role): string {
    match r
    case Member => "member"
    case Admin => "admin"
    case Owner => "owner"
  }

  /** Parsing a role name (`z.enum(["member", "admin", "owner"])`). */
  function ParseRole(s: string): (r: Option<Role>)
    ensures r.Some? ==> RoleName(r.value) == s
  {
    if s == "member" then Some(Member)
    else if s == "admin" then Some(Admin)
    else if s == "owner" then Some(Owner)
    else None
  }

  lemma ParseRoleName(r: Role)
    ensures ParseRole(RoleName(r)) == Some(r)
  {
  }

  lemma RoleNameInjective(a: Role, b: Role)
    requires RoleName(a) == RoleName(b)
    ensures a == b
  {
  }

  lemma AbsentRoleNeverQualifies(required: Role)
    ensures !RoleAtLeast(None, required)
  {
  }

  lemma RoleAtLeastReflexive(r: Role)
    ensures RoleAtLeast(Some(r), r)
  {
  }

  lemma RoleAtLeastTransitive(a: Role, b: Role, c: Role)
    requires RoleAtLeast(Some(a), b) && RoleAtLeast(Some(b), c)
    ensures RoleAtLeast(Some(a), c)
  {
  }

  /** The order is total, and both directions hold only for equal roles,
      because the three ranks are distinct. */
  lemma RoleAtLeastTotal(a: Role, b: Role)
    ensures RoleAtLeast(Some(a), b) || RoleAtLeast(Some(b), a)
    ensures RoleAtLeast(Some(a), b) && RoleAtLeast(Some(b), a) ==> a == b
  {
  }

  lemma OwnerIsTop(r: Role)
    ensures RoleAtLeast(Some(Owner), r)
  {
  }

  lemma StrictSteps()
    ensures !RoleAtLeast(Some(Member), Admin)
    ensures !RoleAtLeast(Some(Admin), Owner)
    ensures !RoleAtLeast(Some(Member), Owner)
  {
  }
}

=== FILE: realtime.dfy ===
/** The realtime gate (src/realtime/socket.ts): room naming, handshake
    authentication, channel subscription and the message publishers. A
    socket's state is the identity attached at handshake and the set of rooms
    it has joined. */
module Realtime {
  import opened Common
  import opened Strings
  import opened Tokens
  import opened Kv
  import opened Docs
  import opened RequireJwt

  const UserRoomPrefix := "user:"
  const ChannelRoomPrefix := "channel:"
  const WorkspaceRoomPrefix := "workspace:"

  /** `room.user(id)`. */
  function UserRoom(userId: string): (r: string)
    ensures StartsWith(r, UserRoomPrefix) && r[|UserRoomPrefix|..] == userId
  {
    ConcatStartsWith(UserRoomPrefix, userId);
    UserRoomPrefix + userId
  }

  /** `room.channel(id)`. */
  function ChannelRoom(channelId: string): (r: string)
    ensures StartsWith(r, ChannelRoomPrefix) && r[|ChannelRoomPrefix|..] == channelId
  {
    ConcatStartsWith(ChannelRoomPrefix, channelId);
    ChannelRoomPrefix + channelId
  }

  /** `room.workspace(id)`. */
  function WorkspaceRoom(workspaceId: string): (r: string)
    ensures StartsWith(r, WorkspaceRoomPrefix) && r[|WorkspaceRoomPrefix|..] == workspaceId
  {
    ConcatStartsWith(WorkspaceRoomPrefix, workspaceId);
    WorkspaceRoomPrefix + workspaceId
  }

  /** Rooms of different families never share a name: the prefixes already
      differ in their first character. */
  lemma RoomFamiliesDisjoint(a: string, b: string)
    ensures UserRoom(a) != ChannelRoom(b)
    ensures UserRoom(a) != WorkspaceRoom(b)
    ensures ChannelRoom(a) != WorkspaceRoom(b)
  {
    DivergentPrefixes(UserRoomPrefix, ChannelRoomPrefix, 0, a, b);
    DivergentPrefixes(UserRoomPrefix, WorkspaceRoomPrefix, 0, a, b);
    DivergentPrefixes(ChannelRoomPrefix, WorkspaceRoomPrefix, 0, a, b);
  }

  /** Within a family, the room name determines the id. */
  lemma RoomsInjective(a: string, b: string)
    ensures UserRoom(a) == UserRoom(b) ==> a == b
    ensures ChannelRoom(a) == ChannelRoom(b) ==> a == b
    ensures WorkspaceRoom(a) == WorkspaceRoom(b) ==> a == b
  {
  }

  /** The parts of the handshake the auth middleware reads. */
  datatype Handshake = Handshake(authToken: Option<string>, authorization: Option<string>)

  /** `auth.token || (authorization starts with "Bearer " ? its rest : undefined)`. */
  function HandshakeToken(h: Handshake): (t: Option<string>)
    ensures Truthy(h.authToken) ==> t == h.authToken
    ensures !Truthy(h.authToken) && h.authorization.Some? && StartsWith(h.authorization.value, BearerPrefix)
            ==> t.Some? && h.authorization.value == BearerPrefix + t.value
    ensures !Truthy(h.authToken) && (h.authorization.None? || !StartsWith(h.authorization.value, BearerPrefix))
            ==> !Truthy(t)
  {
    Or(h.authToken, if h.authorization.Some? then BearerToken(h.authorization.value) else None)
  }

  /** The handshake middleware's verdict. */
  datatype Admission = Refused(error: string) | Admitted(user: Identity)

  /** The socket auth middleware: a truthy token that verifies as an access
      token. The access-token denylist is not consulted. */
  function AdmitSocket(h: Handshake, codec: Codec, now: int): (a: Admission)
    ensures !Truthy(HandshakeToken(h)) <==> a == Refused("Missing auth token")
    ensures a.Admitted? <==> Truthy(HandshakeToken(h)) && Verify(codec, AccessSecret, HandshakeToken(h).value, now).Some?
    ensures a.Admitted? ==> a.user == IdentityOf(codec(HandshakeToken(h).value).value)
    ensures a.Refused? && Truthy(HandshakeToken(h)) ==> a.error == "Invalid or expired token"
  {
    var token := HandshakeToken(h);
    if !Truthy(token) then Refused("Missing auth token")
    else
      match Verify(codec, AccessSecret, token.value, now)
      case None => Refused("Invalid or expired token")
      case Some(j) => Admitted(IdentityOf(j))
  }

  /** A connected socket: its user and the rooms it has joined. */
  datatype SocketState = SocketState(user: Identity, rooms: set<string>)

  /** The `connection` handler: every admitted socket joins its user room. */
  function Connect(user: Identity): (s: SocketState)
    ensures s.user == user && s.rooms == {UserRoom(user.id)}
  {
    SocketState(user, {UserRoom(user.id)})
  }

  /** What a socket handler emits back to its socket. */
  datatype Emit = EmitError(message: string) | Subscribed(channelId: string) | Unsubscribed(channelId: string) | Silent

  /** The user may follow a channel: it exists and the user is a member of
      its workspace. */
  predicate MayFollow(db: Db, userId: string, channelId: string) {
    ChannelById(db, channelId).Some? && MemberKey(ChannelById(db, channelId).value.workspaceId, userId) in db.memberships
  }

  /** `subscribe:channel`. `validId` says whether the id is a well-formed
      ObjectId; a malformed one makes the lookup throw inside the handler, so
      nothing is emitted. */
  function Subscribe(s: SocketState, channelId: Option<string>, validId: string -> bool, db: Db): (r: (SocketState, Emit))
    ensures !Truthy(channelId) ==> r == (s, EmitError("channelId required"))
    ensures r.0 == s || (Truthy(channelId) && r.0.rooms == s.rooms + {ChannelRoom(channelId.value)})
    ensures r.0.user == s.user
    ensures r.0 != s ==> Truthy(channelId) && MayFollow(db, s.user.id, channelId.value)
    ensures Truthy(channelId) && validId(channelId.value) ==>
      (r.1 == Subscribed(channelId.value) <==> MayFollow(db, s.user.id, channelId.value))
    ensures r.1.Subscribed? ==> Truthy(channelId) && r.1.channelId == channelId.value && ChannelRoom(channelId.value) in r.0.rooms
  {
    if !Truthy(channelId) then (s, EmitError("channelId required"))
    else if !validId(channelId.value) then (s, Silent)
    else
      match ChannelById(db, channelId.value)
      case None => (s, EmitError("Channel not found"))
      case Some(ch) =>
        if MemberKey(ch.workspaceId, s.user.id) !in db.memberships then (s, EmitError("Not a member of this workspace"))
        else (s.(rooms := s.rooms + {ChannelRoom(channelId.value)}), Subscribed(channelId.value))
  }

  /** `unsubscribe:channel`: no membership check; a falsy id does nothing. */
  function Unsubscribe(s: SocketState, channelId: Option<string>): (r: (SocketState, Emit))
    ensures !Truthy(channelId) ==> r == (s, Silent)
    ensures Truthy(channelId) ==>
      r == (s.(rooms := s.rooms - {ChannelRoom(channelId.value)}), Unsubscribed(channelId.value))
  {
    if !Truthy(channelId) then (s, Silent)
    else (s.(rooms := s.rooms - {ChannelRoom(channelId.value)}), Unsubscribed(channelId.value))
  }

  /** The rooms a socket is in are its own user room and channel rooms of
      channels its user may follow. */
  ghost predicate RoomsAuthorized(s: SocketState, db: Db) {
    forall r :: r in s.rooms ==>
      r == UserRoom(s.user.id)
      || (StartsWith(r, ChannelRoomPrefix) && MayFollow(db, s.user.id, r[|ChannelRoomPrefix|..]))
  }

  lemma ConnectAuthorized(user: Identity, db: Db)
    ensures RoomsAuthorized(Connect(user), db)
  {
  }

  /** Subscribing and unsubscribing keep every room of a socket authorized. */
  lemma HandlersKeepRoomsAuthorized(s: SocketState, channelId: Option<string>, validId: string -> bool, db: Db)
    requires RoomsAuthorized(s, db)
    ensures RoomsAuthorized(Subscribe(s, channelId, validId, db).0, db)
    ensures RoomsAuthorized(Unsubscribe(s, channelId).0, db)
  {
  }

  /** The message events the routes publish. */
  datatype MessageEvent = MessageCreated | MessageEdited | MessageDeleted

  /** One emission: the room, the event and the message it carries. */
  datatype Delivery = Delivery(room: string, event: MessageEvent, message: Message)

  /** `publishMessageCreated`, `publishMessageEdited` and
      `publishMessageDeleted`: the event goes to the message's channel room
      only, and nowhere when the realtime server has not been initialised. */
  function Publish(initialised: bool, event: MessageEvent, m: Message): (d: Option<Delivery>)
    ensures d.Some? <==> initialised
    ensures d.Some? ==> d.value.event == event && d.value.message == m
    ensures d.Some? ==> StartsWith(d.value.room, ChannelRoomPrefix) && d.value.room[|ChannelRoomPrefix|..] == m.channelId
  {
    if initialised then Some(Delivery(ChannelRoom(m.channelId), event, m)) else None
  }

  /** A socket that receives a published message, and whose rooms are
      authorized, is a member of the workspace of the message's channel: it
      is never reached through its user room. */
  lemma ReceiversMayFollow(s: SocketState, db: Db, event: MessageEvent, m: Message)
    requires RoomsAuthorized(s, db)
    requires Publish(true, event, m).value.room in s.rooms
    ensures MayFollow(db, s.user.id, m.channelId)
  {
    RoomFamiliesDisjoint(s.user.id, m.channelId);
  }

  /** Unlike requireJWT, the handshake admits a verified token even when its
      jti is on the denylist. */
  lemma HandshakeIgnoresDenylist(token: string, codec: Codec, ks: Keyspace, now: int)
    requires token != "" && codec(token).Some? && codec(token).value.AccessJwt? && Unexpired(codec(token).value, now)
    requires codec(token).value.jti.Some? && codec(token).value.jti.value != ""
    requires Revoked(ks, now, codec(token).value.jti.value)
    ensures AdmitSocket(Handshake(Some(token), None), codec, now) == Admitted(IdentityOf(codec(token).value))
    ensures RequireJWT(Some(BearerPrefix + token), codec, ks, now, NoOutage) == Halt(Reply(401, "Token revoked"))
  {
    BearerRoundTrip(token);
  }
}

=== FILE: refresh_store.dfy ===
/** Refresh sessions in the keyspace (src/auth/refreshStore.ts): one entry
    `rt:<user>:<jti>` per live refresh token. */
module RefreshStore {
  import opened Common
  import opened Strings
  import opened Kv
  import opened RedisKeys

  const SecondsPerDay := 24 * 60 * 60

  /** `REFRESH_TTL_DAYS` when the variable is unset. */
  const DefaultRefreshTtlDays := 30

  /** `days(d)`: a number of days in seconds. The expiry is positive exactly
      when the number of days is, and it is a whole number of days. */
  function Days(d: int): (s: int)
    ensures s == d * 86400
    ensures s > 0 <==> d > 0
    ensures s % 86400 == 0
  {
    d * SecondsPerDay
  }

  /** The optional request metadata stored with a session. */
  datatype SessionMeta = SessionMeta(ua: Option<string>, ip: Option<string>)

  /** `JSON.stringify(meta || {})`: undefined fields are omitted; string
      escaping is not modelled. The text always starts with '{', so it is
      never empty. */
  function MetaJson(meta: Option<SessionMeta>): (s: string)
    ensures |s| >= 2 && s[0] == '{'
  {
    match meta
    case None => "{}"
    case Some(m) =>
      var ua := if m.ua.Some? then ["\"ua\":\"" + m.ua.value + "\""] else [];
      var ip := if m.ip.Some? then ["\"ip\":\"" + m.ip.value + "\""] else [];
      var fields := ua + ip;
      "{" + (if |fields| == 2 then fields[0] + "," + fields[1] else if |fields| == 1 then fields[0] else "") + "}"
  }

  /** `storeRefreshSession`: SET the session key EX `days(ttlDays)`. Fails
      (the SET is rejected) when the configured lifetime is not positive. */
  function StoreRefreshSession(ks: Keyspace, now: int, ttlDays: int, userId: string, jti: string, meta: Option<SessionMeta>): (r: Option<Keyspace>)
    ensures r.Some? <==> ttlDays > 0
    ensures r.Some? ==> forall t :: now <= t < now + Days(ttlDays) ==> HasRefreshSession(r.value, t, userId, jti)
    ensures r.Some? ==> forall t :: t >= now + Days(ttlDays) ==> !HasRefreshSession(r.value, t, userId, jti)
    ensures r.Some? ==> forall k, t :: k != RtSession(userId, jti) ==> Get(r.value, t, k) == Get(ks, t, k)
  {
    SetEx(ks, now, RtSession(userId, jti), Text(MetaJson(meta)), Days(ttlDays))
  }

  /** `hasRefreshSession`: the GET reply is truthy, so a live entry holding
      the empty string does not count as a session. */
  function HasRefreshSession(ks: Keyspace, now: int, userId: string, jti: string): (b: bool)
    ensures b ==> RtSession(userId, jti) in ks && Alive(ks[RtSession(userId, jti)], now)
    ensures RtSession(userId, jti) in ks && Alive(ks[RtSession(userId, jti)], now) ==>
      (b <==> ks[RtSession(userId, jti)].value != Text(""))
  {
    Present(ks, now, RtSession(userId, jti))
  }

  /** `deleteRefreshSession`: DEL of exactly one session key. */
  function DeleteRefreshSession(ks: Keyspace, userId: string, jti: string): (r: Keyspace)
    ensures forall t :: !HasRefreshSession(r, t, userId, jti)
    ensures forall k, t :: k != RtSession(userId, jti) ==> Get(r, t, k) == Get(ks, t, k)
  {
    Del(ks, RtSession(userId, jti))
  }

  /** `deleteAllRefreshSessions`: KEYS `rt:<user>:*` then DEL of what was found. */
  function DeleteAllRefreshSessions(ks: Keyspace, userId: string): (r: Keyspace)
    ensures forall j, t :: !HasRefreshSession(r, t, userId, j)
    ensures forall k, t :: !StartsWith(k, RtUserPrefix(userId)) ==> Get(r, t, k) == Get(ks, t, k)
  {
    DelPrefix(ks, RtUserPrefix(userId))
  }

  /** Sessions of other users survive logout-all, when user ids contain no ':'. */
  lemma DeleteAllKeepsOtherUsers(ks: Keyspace, u: string, v: string, j: string, t: int)
    requires NoColon(u) && NoColon(v) && u != v
    ensures HasRefreshSession(DeleteAllRefreshSessions(ks, u), t, v, j) == HasRefreshSession(ks, t, v, j)
  {
    if StartsWith(RtSession(v, j), RtUserPrefix(u)) {
      RtPrefixOwnedByUser(u, v, j);
    }
  }

  /** Keys outside the `rt:` family are never touched by any session operation. */
  lemma SessionOpsKeepOtherFamilies(ks: Keyspace, u: string, j: string, k: string, t: int)
    requires !IsRtKey(k)
    ensures Get(DeleteRefreshSession(ks, u, j), t, k) == Get(ks, t, k)
    ensures Get(DeleteAllRefreshSessions(ks, u), t, k) == Get(ks, t, k)
  {
    UserPrefixInRtFamily(k, u);
    UserPrefixInRtFamily(j, u);
  }

  /** With `REFRESH_TTL_DAYS` unset, a stored session is alive from now for
      exactly 2,592,000 seconds and gone afterwards. */
  lemma DefaultSessionLifetime(ks: Keyspace, now: int, userId: string, jti: string, meta: Option<SessionMeta>, t: int)
    requires now <= t
    ensures var r := StoreRefreshSession(ks, now, DefaultRefreshTtlDays, userId, jti, meta);
            r.Some? && (HasRefreshSession(r.value, t, userId, jti) <==> t < now + 2592000)
  {
  }

  /** Storing the same session again overwrites it: presence is idempotent. */
  lemma StoreTwice(ks: Keyspace, now: int, ttlDays: int, u: string, j: string, m1: Option<SessionMeta>, m2: Option<SessionMeta>, t: int)
    requires ttlDays > 0
    requires now <= t
    ensures var once := StoreRefreshSession(ks, now, ttlDays, u, j, m1).value;
            var twice := StoreRefreshSession(once, now, ttlDays, u, j, m2).value;
            HasRefreshSession(twice, t, u, j) == HasRefreshSession(once, t, u, j)
  {
  }
}

=== FILE: require_jwt.dfy ===
/** Request authentication (src/middleware/requireJWT.ts): a bearer access
    token that verifies and whose jti is not on the denylist. */
module RequireJwt {
  import opened Common
  import opened Strings
  import opened Tokens
  import opened Kv
  import opened RedisKeys

  const BearerPrefix := "Bearer "

  /** `header.startsWith("Bearer ") ? header.slice(7) : null`. */
  function BearerToken(header: string): (t: Option<string>)
    ensures t.Some? <==> StartsWith(header, BearerPrefix)
    ensures t.Some? ==> header == BearerPrefix + t.value
  {
    if StartsWith(header, BearerPrefix) then Some(header[|BearerPrefix|..]) else None
  }

  /** Extraction undoes the prefixing: the token is recovered exactly. */
  lemma BearerRoundTrip(token: string)
    ensures BearerToken(BearerPrefix + token) == Some(token)
  {
    ConcatStartsWith(BearerPrefix, token);
    assert (BearerPrefix + token)[|BearerPrefix|..] == token;
  }

  /** The token text a request presents: absent unless the Authorization
      header (default "") starts with "Bearer " and has something after it. */
  function PresentedToken(authorization: Option<string>): Option<string> {
    var t := BearerToken(authorization.GetOr(""));
    if Truthy(t) then t else None
  }

  /** True when the denylist entry of this jti is set (a truthy GET reply). */
  predicate Revoked(ks: Keyspace, now: int, jti: string) {
    Present(ks, now, AtBlock(jti))
  }

  /** `requireJWT`. The only store call is the denylist GET (call 0); a failure
      there answers 503, so the check fails closed. */
  function RequireJWT(authorization: Option<string>, codec: Codec, ks: Keyspace, now: int, outage: Outage): (r: Step<Identity>)
    ensures PresentedToken(authorization).None? <==> r == Halt(Reply(401, "Missing token"))
    ensures r.Next? ==>
      var text := PresentedToken(authorization).value;
      && Verify(codec, AccessSecret, text, now).Some?
      && var j := codec(text).value;
      && r.value == IdentityOf(j)
      && (Truthy(j.jti) ==> !outage.Fails(0) && !Revoked(ks, now, j.jti.value))
    ensures PresentedToken(authorization).Some? && Verify(codec, AccessSecret, PresentedToken(authorization).value, now).None?
            ==> r == Halt(Reply(401, "Invalid or expired token"))
    ensures r.Halt? ==> r.reply.status in {401, 503}
    ensures r.Halt? && r.reply.status == 503 ==> outage.Fails(0)
    ensures PresentedToken(authorization).Some? && Verify(codec, AccessSecret, PresentedToken(authorization).value, now).Some? ==>
      var j := Verify(codec, AccessSecret, PresentedToken(authorization).value, now).value;
      && (Truthy(j.jti) && outage.Fails(0) ==> r == Halt(Reply(503, "Auth service unavailable")))
      && (Truthy(j.jti) && !outage.Fails(0) && Revoked(ks, now, j.jti.value) ==> r == Halt(Reply(401, "Token revoked")))
      && (!Truthy(j.jti) || (!outage.Fails(0) && !Revoked(ks, now, j.jti.value)) ==> r == Next(IdentityOf(j)))
  {
    match PresentedToken(authorization)
    case None => Halt(Reply(401, "Missing token"))
    case Some(text) =>
      match Verify(codec, AccessSecret, text, now)
      case None => Halt(Reply(401, "Invalid or expired token"))
      case Some(j) =>
        if Truthy(j.jti) then
          if outage.Fails(0) then Halt(Reply(503, "Auth service unavailable"))
          else if Revoked(ks, now, j.jti.value) then Halt(Reply(401, "Token revoked"))
          else Next(IdentityOf(j))
        else Next(IdentityOf(j))
  }

  /** A header of exactly "Bearer " carries an empty token, which counts as missing. */
  lemma EmptyBearerIsMissing(codec: Codec, ks: Keyspace, now: int, outage: Outage)
    ensures RequireJWT(Some(BearerPrefix), codec, ks, now, outage) == Halt(Reply(401, "Missing token"))
  {
    assert BearerPrefix[|BearerPrefix|..] == "";
  }

  /** A request whose token has a revoked jti is never admitted, and neither is
      one whose denylist lookup fails. */
  lemma RevokedNeverAdmitted(token: string, codec: Codec, ks: Keyspace, now: int, outage: Outage, jti: string)
    requires codec(token).Some? && codec(token).value.jti == Some(jti) && jti != ""
    requires Revoked(ks, now, jti) || outage.Fails(0)
    ensures RequireJWT(Some(BearerPrefix + token), codec, ks, now, outage).Halt?
  {
    BearerRoundTrip(token);
  }

  /** A refresh token never authenticates a request: it fails verification
      under the access secret. */
  lemma RefreshTokenRejected(token: string, codec: Codec, ks: Keyspace, now: int, outage: Outage)
    requires token != "" && codec(token).Some? && codec(token).value.RefreshJwt?
    ensures RequireJWT(Some(BearerPrefix + token), codec, ks, now, outage) == Halt(Reply(401, "Invalid or expired token"))
  {
    BearerRoundTrip(token);
  }

  /** A freshly issued access token authenticates as exactly its identity
      until it expires, as long as its jti is not revoked and the store answers. */
  lemma IssuedTokenAuthenticates(token: string, codec: Codec, ks: Keyspace, now: int, who: Identity, jti: string, issuedAt: int, ttl: nat)
    requires token != "" && jti != ""
    requires codec(token) == Some(SignAccess(who, jti, issuedAt, ttl))
    requires now < issuedAt + ttl && !Revoked(ks, now, jti)
    ensures RequireJWT(Some(BearerPrefix + token), codec, ks, now, NoOutage) == Next(who)
  {
    BearerRoundTrip(token);
  }
}

=== FILE: route_guard.dfy ===
/** The middleware chain `requireJWT, loadWorkspaceMembership,
    authorizeWorkspaceRole(required)` that fronts every workspace route. */
module RouteGuard {
  import opened Common
  import opened Rbac
  import opened Tokens
  import opened Kv
  import opened Docs
  import opened RequireJwt
  import opened WorkspaceMembership
  import opened AuthorizeRole

  /** The parts of an HTTP request the chain reads. */
  datatype GuardRequest = GuardRequest(authorization: Option<string>, workspace: WorkspaceSources)

  /** What the environment contributes to one request: the token codec, the
      clock, which store call fails first, the ObjectId check, and whether
      the membership lookup throws for any other reason. */
  datatype Env = Env(codec: Codec, now: int, outage: Outage, validId: string -> bool, lookupFails: bool)

  /** The authenticated caller and its membership, as the route handler sees them. */
  datatype Caller = Caller(user: Identity, membership: MembershipContext)

  /** What the chain asks of an authenticated user: the request names a
      workspace whose id is well formed, the lookup does not throw, and the
      user holds a membership there whose role meets `required`. */
  predicate Admissible(required: Role, src: WorkspaceSources, u: Identity, env: Env, db: Db) {
    var ws := ResolveWorkspaceId(src);
    && Truthy(ws) && u.id != "" && !env.lookupFails && env.validId(ws.value)
    && MemberKey(ws.value, u.id) in db.memberships
    && RoleAtLeast(Some(db.memberships[MemberKey(ws.value, u.id)]), required)
  }

  /** The chain's outcome for a request: it lets a request through exactly
      when the token authenticates a user who is admissible. */
  function Guard(required: Role, req: GuardRequest, env: Env, ks: Keyspace, db: Db): (r: Step<Caller>)
    ensures r.Next? ==>
      var m := r.value.membership;
      && m.userId == r.value.user.id
      && MemberKey(m.workspaceId, m.userId) in db.memberships
      && db.memberships[MemberKey(m.workspaceId, m.userId)] == m.role
      && RoleAtLeast(Some(m.role), required)
      && RequireJWT(req.authorization, env.codec, ks, env.now, env.outage) == Next(r.value.user)
    ensures r.Next? && Truthy(req.workspace.params) ==> r.value.membership.workspaceId == req.workspace.params.value
    ensures r.Next? <==>
      && RequireJWT(req.authorization, env.codec, ks, env.now, env.outage).Next?
      && Admissible(required, req.workspace, RequireJWT(req.authorization, env.codec, ks, env.now, env.outage).value, env, db)
    ensures RequireJWT(req.authorization, env.codec, ks, env.now, env.outage).Next? ==>
      var u := RequireJWT(req.authorization, env.codec, ks, env.now, env.outage).value;
      var ws := ResolveWorkspaceId(req.workspace);
      Admissible(required, req.workspace, u, env, db) ==>
        r == Next(Caller(u, MembershipContext(db.memberships[MemberKey(ws.value, u.id)], ws.value, u.id)))
  {
    match RequireJWT(req.authorization, env.codec, ks, env.now, env.outage)
    case Halt(reply) => Halt(reply)
    case Next(user) =>
      match LoadWorkspaceMembership(req.workspace, Some(user), db, env.validId, env.lookupFails)
      case Halt(reply) => Halt(reply)
      case Next(ctx) =>
        match AuthorizeWorkspaceRole(required, Some(ctx))
        case Halt(reply) => Halt(reply)
        case Next(ctx') => Next(Caller(user, ctx'))
  }

  /** A caller admitted by the owner gate is an owner of the workspace, so the
      workspace has at least one owner. */
  lemma OwnerGateWitnessesOwner(req: GuardRequest, env: Env, ks: Keyspace, db: Db)
    requires Guard(Owner, req, env, ks, db).Next?
    ensures var c := Guard(Owner, req, env, ks, db).value;
            c.membership.role == Owner
            && c.user.id in OwnersOf(db.memberships, c.membership.workspaceId)
            && OwnerCount(db.memberships, c.membership.workspaceId) >= 1
  {
    var c := Guard(Owner, req, env, ks, db).value;
    var k := MemberKey(c.membership.workspaceId, c.user.id);
    assert k in db.memberships && db.memberships[k] == Owner;
    assert c.user.id in OwnersOf(db.memberships, c.membership.workspaceId);
  }
}

=== FILE: session_protocol.dfy ===
/** Properties of the refresh-session protocol across several requests:
    a rotated token cannot be replayed, logout-all ends every session of the
    user, and a freshly issued refresh token can be rotated while both it and
    its session are alive. */
module SessionProtocol {
  import opened Common
  import opened Tokens
  import opened Kv
  import opened RefreshStore
  import opened Docs
  import opened AuthRoutes

  /** After a successful refresh, presenting the same token again is refused
      with 401 and changes nothing, at any later time and under any store
      condition, provided the new jti differs from the old one. */
  lemma ReplayRejected(cookie: Option<string>, body: Option<string>, validId: string -> bool,
                       gen: Fresh, meta: Option<SessionMeta>, db: Db, ks: Keyspace, env: AuthEnv,
                       gen2: Fresh, meta2: Option<SessionMeta>, env2: AuthEnv)
    requires Refresh(cookie, body, validId, gen, meta, db, ks, env).reply == Some(Reply(200, "accessToken"))
    requires gen.refreshJti != SessionJti(VerifiedRefresh(cookie, body, env.codec, env.now).value)
    requires env2.codec == env.codec
    ensures var ks1 := Refresh(cookie, body, validId, gen, meta, db, ks, env).ks;
            var r2 := Refresh(cookie, body, validId, gen2, meta2, db, ks1, env2);
            r2.reply.Some? && r2.reply.value.status == 401 && r2.ks == ks1
  {
    var ks1 := Refresh(cookie, body, validId, gen, meta, db, ks, env).ks;
    var j := VerifiedRefresh(cookie, body, env.codec, env.now).value;
    var j2 := VerifiedRefresh(cookie, body, env2.codec, env2.now);
    if j2.Some? {
      assert j2.value == j;
      assert !HasRefreshSession(ks1, env2.now, j.id, SessionJti(j));
    }
  }

  /** After logout-all, every refresh token of that user is refused, whatever
      its jti. */
  lemma LogoutAllEndsEverySession(cookie: Option<string>, body: Option<string>, db: Db, ks: Keyspace, env: AuthEnv,
                                  cookie2: Option<string>, body2: Option<string>, validId: string -> bool,
                                  gen: Fresh, meta: Option<SessionMeta>, env2: AuthEnv)
    requires VerifiedRefresh(cookie, body, env.codec, env.now).Some? && !env.outage.Fails(1)
    requires VerifiedRefresh(cookie2, body2, env2.codec, env2.now).Some?
    requires VerifiedRefresh(cookie2, body2, env2.codec, env2.now).value.id == VerifiedRefresh(cookie, body, env.codec, env.now).value.id
    ensures var ks1 := LogoutAll(cookie, body, db, ks, env).ks;
            var r2 := Refresh(cookie2, body2, validId, gen, meta, db, ks1, env2);
            r2.reply.Some? && r2.reply.value.status == 401 && r2.ks == ks1
  {
  }

  /** The refresh token issued at login can be rotated: while the token and
      its session are both alive, the user still exists and the store answers,
      refreshing with it succeeds and rotates to the next jti. */
  lemma LoginThenRefresh(input: LoginInput, isEmail: string -> bool, matches: (string, string) -> bool,
                         gen: Fresh, meta: Option<SessionMeta>, db: Db, ks: Keyspace, env: AuthEnv,
                         text: string, validId: string -> bool, gen2: Fresh, meta2: Option<SessionMeta>, env2: AuthEnv)
    requires Login(input, isEmail, matches, gen, meta, db, ks, env).reply == Some(Reply(200, "accessToken"))
    requires text != ""
    requires env.codec(text).Some?
    requires Login(input, isEmail, matches, gen, meta, db, ks, env).cookie == SetRefreshCookie(env.codec(text).value)
    requires env2.codec == env.codec && env2.outage == NoOutage && env2.sessionDays > 0
    requires env.now <= env2.now < env.now + env.refreshTtl && env2.now < env.now + Days(env.sessionDays)
    requires validId(UserByEmail(db, Strings.ToLower(input.email)).value.id)
    ensures var ks1 := Login(input, isEmail, matches, gen, meta, db, ks, env).ks;
            var r2 := Refresh(Some(text), None, validId, gen2, meta2, db, ks1, env2);
            r2.reply == Some(Reply(200, "accessToken"))
            && HasRefreshSession(r2.ks, env2.now, UserByEmail(db, Strings.ToLower(input.email)).value.id, gen2.refreshJti)
  {
    var u := UserByEmail(db, Strings.ToLower(input.email)).value;
    var ks1 := Login(input, isEmail, matches, gen, meta, db, ks, env).ks;
    var rt := SignRefresh(u.id, gen.refreshJti, env.now, env.refreshTtl);
    assert VerifiedRefresh(Some(text), None, env2.codec, env2.now) == Some(rt);
    assert HasRefreshSession(ks1, env2.now, u.id, SessionJti(rt));
    RefreshSucceeds(Some(text), None, validId, gen2, meta2, db, ks1, env2);
  }
}

=== FILE: strings.dfy ===
/** ASCII string helpers standing in for JavaScript's `startsWith`, `slice`,
    `toLowerCase` and `trim`. Only ASCII letters and ASCII whitespace are
    treated specially. */
module Strings {

  predicate StartsWith(s: string, prefix: string) {
    |prefix| <= |s| && s[..|prefix|] == prefix
  }

  lemma ConcatStartsWith(prefix: string, rest: string)
    ensures StartsWith(prefix + rest, prefix)
  {
    assert (prefix + rest)[..|prefix|] == prefix;
  }

  /** Two words that differ within the length of both never share a prefix. */
  lemma DivergentPrefixes(p: string, q: string, i: nat, a: string, b: string)
    requires i < |p| && i < |q| && p[i] != q[i]
    ensures p + a != q + b
  {
    assert (p + a)[i] == p[i];
    assert (q + b)[i] == q[i];
  }

  predicate IsUpper(c: char) { 'A' <= c <= 'Z' }

  function LowerChar(c: char): (d: char)
    ensures !IsUpper(d)
    ensures !IsUpper(c) ==> d == c
  {
    if IsUpper(c) then (c as int + 32) as char else c
  }

  /** ASCII `toLowerCase`. */
  function ToLower(s: string): (r: string)
    ensures |r| == |s|
    ensures forall i :: 0 <= i < |s| ==> r[i] == LowerChar(s[i])
  {
    seq(|s|, i requires 0 <= i < |s| => LowerChar(s[i]))
  }

  predicate NoUpper(s: string) {
    forall i :: 0 <= i < |s| ==> !IsUpper(s[i])
  }

  lemma ToLowerNoUpper(s: string)
    ensures NoUpper(ToLower(s))
  {
  }

  /** Lowercasing is idempotent: a lowercased string is its own lowercase. */
  lemma ToLowerIdempotent(s: string)
    ensures ToLower(ToLower(s)) == ToLower(s)
  {
    ToLowerNoUpper(s);
    ToLowerFixesLower(ToLower(s));
  }

  lemma ToLowerFixesLower(s: string)
    requires NoUpper(s)
    ensures ToLower(s) == s
  {
  }

  /** The whitespace `String.prototype.trim` removes, restricted to ASCII. */
  predicate IsSpace(c: char) {
    c == ' ' || c == '\t' || c == '\n' || c == '\r' || c == '\U{000B}' || c == '\U{000C}'
  }

  function TrimStart(s: string): (r: string)
    ensures |r| <= |s| && r == s[|s| - |r|..]
    ensures |r| > 0 ==> !IsSpace(r[0])
    ensures forall i :: 0 <= i < |s| - |r| ==> IsSpace(s[i])
    decreases |s|
  {
    if |s| > 0 && IsSpace(s[0]) then TrimStart(s[1..]) else s
  }

  function TrimEnd(s: string): (r: string)
    ensures |r| <= |s| && r == s[..|r|]
    ensures |r| > 0 ==> !IsSpace(r[|r| - 1])
    ensures forall i :: |r| <= i < |s| ==> IsSpace(s[i])
    decreases |s|
  {
    if |s| > 0 && IsSpace(s[|s| - 1]) then TrimEnd(s[..|s| - 1]) else s
  }

  predicate AllSpace(s: string) {
    forall i :: 0 <= i < |s| ==> IsSpace(s[i])
  }

  /** `s[a..b]` is what remains of `s` once only whitespace is cut from both ends. */
  predicate TrimmedAt(s: string, a: int, b: int) {
    0 <= a <= b <= |s| && AllSpace(s[..a]) && AllSpace(s[b..])
  }

  /** `trim()`: the longest infix that neither starts nor ends with whitespace,
      obtained by removing only whitespace. */
  function Trim(s: string): (r: string)
    ensures |r| > 0 ==> !IsSpace(r[0]) && !IsSpace(r[|r| - 1])
    ensures exists a, b :: TrimmedAt(s, a, b) && r == s[a..b]
  {
    var t := TrimStart(s);
    var a := |s| - |t|;
    var r := TrimEnd(t);
    assert TrimmedAt(s, a, a + |r|) && r == s[a..a + |r|];
    r
  }

  lemma {:induction false} TrimStartFixes(s: string)
    requires |s| == 0 || !IsSpace(s[0])
    ensures TrimStart(s) == s
  {
  }

  lemma {:induction false} TrimEndFixes(s: string)
    requires |s| == 0 || !IsSpace(s[|s| - 1])
    ensures TrimEnd(s) == s
  {
  }

  /** Trimming twice removes nothing more. */
  lemma TrimIdempotent(s: string)
    ensures Trim(Trim(s)) == Trim(s)
  {
    var t := Trim(s);
    TrimStartFixes(t);
    TrimEndFixes(t);
  }

  lemma LowerKeepsSpace(s: string)
    ensures forall i :: 0 <= i < |s| ==> (IsSpace(ToLower(s)[i]) <==> IsSpace(s[i]))
  {
  }

  /** The email normalisation `trim().toLowerCase()`. */
  function NormalizeEmail(e: string): (r: string)
    ensures NoUpper(r)
    ensures |r| > 0 ==> !IsSpace(r[0]) && !IsSpace(r[|r| - 1])
    ensures |r| == |Trim(e)| && forall i :: 0 <= i < |r| ==> r[i] == LowerChar(Trim(e)[i])
  {
    var t := Trim(e);
    LowerKeepsSpace(t);
    ToLower(t)
  }

  /** Normalising an already normalised email changes nothing. */
  lemma NormalizeEmailIdempotent(e: string)
    ensures NormalizeEmail(NormalizeEmail(e)) == NormalizeEmail(e)
  {
    var n := NormalizeEmail(e);
    TrimStartFixes(n);
    assert TrimStart(n) == n;
    TrimEndFixes(n);
    assert Trim(n) == n;
    ToLowerFixesLower(n);
    assert ToLower(n) == n;
  }

  predicate NoColon(s: string) {
    forall i :: 0 <= i < |s| ==> s[i] != ':'
  }
}

=== FILE: tokens.dfy ===
/** Signed tokens as an abstract datatype. Signatures and the jsonwebtoken
    wire format are not modelled: a `Codec` maps a token's text to the signed
    content it carries, if its signature checks out under one of the two
    secrets. Expiry is checked here, against an integer clock in seconds. */
module Tokens {
  import opened Common

  /** The two signing secrets, assumed to differ. */
  datatype Secret = AccessSecret | RefreshSecret

  /** A signed token. In this code base only `signAccessToken` uses the access
      secret and only `signRefreshToken` the refresh secret, so the secret
      determines the shape of the payload. Access tokens carry the identity
      and a jti; refresh tokens carry the user id and the jti of their
      session. The jti and the `exp` claim (epoch seconds) are optional
      because a token signed elsewhere with the same secret may lack them. */
  datatype Jwt =
    | AccessJwt(id: string, email: string, name: string, jti: Option<string>, exp: Option<int>)
    | RefreshJwt(id: string, jti: Option<string>, exp: Option<int>)
  {
    function Secret(): Secret {
      if AccessJwt? then AccessSecret else RefreshSecret
    }
  }

  /** Signature check plus decoding of a token's text. */
  type Codec = string -> Option<Jwt>

  /** The authenticated principal attached to a request or socket. */
  datatype Identity = Identity(id: string, email: string, name: string)

  /** `jwt.verify` rejects a token once `floor(now) >= exp`. */
  predicate Unexpired(j: Jwt, now: int) {
    j.exp.None? || now < j.exp.value
  }

  /** `jwt.verify(text, secret)`: the signed content when the text is
      non-empty (jsonwebtoken refuses an empty token outright), the signature
      matches `secret` and the token has not expired; otherwise a failure. */
  function Verify(codec: Codec, secret: Secret, text: string, now: int): (r: Option<Jwt>)
    ensures r.Some? ==> text != "" && codec(text) == r && r.value.Secret() == secret && Unexpired(r.value, now)
    ensures text != "" && codec(text).Some? && codec(text).value.Secret() == secret && Unexpired(codec(text).value, now)
            ==> r.Some?
  {
    if text == "" then None
    else
      match codec(text)
      case None => None
      case Some(j) => if j.Secret() == secret && Unexpired(j, now) then Some(j) else None
  }

  /** Default lifetimes: `JWT_ACCESS_EXPIRES` "15m" and `JWT_REFRESH_EXPIRES` "7d". */
  const DefaultAccessTtlSec: nat := 15 * 60
  const DefaultRefreshTtlSec: nat := 7 * 24 * 60 * 60

  /** `signAccessToken`: the identity plus a fresh jti, expiring `ttl` seconds from now. */
  function SignAccess(who: Identity, jti: string, now: int, ttl: nat): (t: Jwt)
    ensures t.AccessJwt? && IdentityOf(t) == who && t.jti == Some(jti)
  {
    AccessJwt(who.id, who.email, who.name, Some(jti), Some(now + ttl))
  }

  /** `signRefreshToken`: the user id and the caller's jti. */
  function SignRefresh(userId: string, jti: string, now: int, ttl: nat): (t: Jwt)
    ensures t.Secret() == RefreshSecret && t.id == userId && t.jti == Some(jti)
  {
    RefreshJwt(userId, Some(jti), Some(now + ttl))
  }

  /** The `{id, email, name}` a verified access token attaches to a request. */
  function IdentityOf(j: Jwt): Identity
    requires j.AccessJwt?
  {
    Identity(j.id, j.email, j.name)
  }

  /** A freshly signed token verifies under its own secret until it expires,
      and never under the other secret. */
  lemma {:induction false} SignedAccessVerifies(codec: Codec, text: string, who: Identity, jti: string, now: int, ttl: nat, later: int)
    requires text != "" && codec(text) == Some(SignAccess(who, jti, now, ttl))
    ensures Verify(codec, AccessSecret, text, later).Some? <==> later < now + ttl
    ensures Verify(codec, RefreshSecret, text, later).None?
  {
  }

  lemma {:induction false} SignedRefreshVerifies(codec: Codec, text: string, userId: string, jti: string, now: int, ttl: nat, later: int)
    requires text != "" && codec(text) == Some(SignRefresh(userId, jti, now, ttl))
    ensures Verify(codec, RefreshSecret, text, later) == (if later < now + ttl then Some(SignRefresh(userId, jti, now, ttl)) else None)
    ensures Verify(codec, AccessSecret, text, later).None?
  {
  }
}

=== FILE: workspace_membership.dfy ===
/** Membership resolution (src/middleware/workspaceMembership.ts). */
module WorkspaceMembership {
  import opened Common
  import opened Rbac
  import opened Tokens
  import opened Docs

  /** What `loadWorkspaceMembership` attaches as `req.membership`. */
  datatype MembershipContext = MembershipContext(role: Role, workspaceId: string, userId: string)

  /** Where a request may carry the workspace id. */
  datatype WorkspaceSources = WorkspaceSources(params: Option<string>, body: Option<string>, query: Option<string>)

  /** `req.params.workspaceId || req.body.workspaceId || req.query.workspaceId`. */
  function ResolveWorkspaceId(src: WorkspaceSources): (r: Option<string>)
    ensures Truthy(src.params) ==> r == src.params
    ensures !Truthy(src.params) && Truthy(src.body) ==> r == src.body
    ensures !Truthy(src.params) && !Truthy(src.body) && Truthy(src.query) ==> r == src.query
    ensures Truthy(r) <==> Truthy(src.params) || Truthy(src.body) || Truthy(src.query)
  {
    Or(src.params, Or(src.body, src.query))
  }

  /** `loadWorkspaceMembership`. `validId` is the ObjectId check the lookup's
      cast applies to the workspace id (a malformed one makes it throw), and
      `lookupFails` stands for any other exception thrown by the lookup. */
  function LoadWorkspaceMembership(src: WorkspaceSources, user: Option<Identity>, db: Db,
                                   validId: string -> bool, lookupFails: bool): (r: Step<MembershipContext>)
    ensures !Truthy(ResolveWorkspaceId(src)) ==> r == Halt(Reply(400, "workspaceId is required"))
    ensures Truthy(ResolveWorkspaceId(src)) && (user.None? || user.value.id == "") ==> r == Halt(Reply(401, "Unauthorized"))
    ensures r.Next? ==>
      && user.Some?
      && r.value.workspaceId == ResolveWorkspaceId(src).value
      && r.value.userId == user.value.id
      && MemberKey(r.value.workspaceId, r.value.userId) in db.memberships
      && db.memberships[MemberKey(r.value.workspaceId, r.value.userId)] == r.value.role
    ensures lookupFails ==> r.Halt?
    ensures Truthy(ResolveWorkspaceId(src)) && user.Some? && user.value.id != "" ==>
      (r == Halt(Reply(500, "Failed to load membership")) <==> lookupFails || !validId(ResolveWorkspaceId(src).value))
    ensures r.Halt? && r.reply.status == 500 ==> lookupFails || !validId(ResolveWorkspaceId(src).value)
    ensures r.Halt? && r.reply.status == 403 ==>
      MemberKey(ResolveWorkspaceId(src).value, user.value.id) !in db.memberships
    ensures Truthy(ResolveWorkspaceId(src)) && user.Some? && user.value.id != "" && !lookupFails && validId(ResolveWorkspaceId(src).value)
            && MemberKey(ResolveWorkspaceId(src).value, user.value.id) !in db.memberships ==>
      r == Halt(Reply(403, "Not a member of this workspace"))
  {
    var ws := ResolveWorkspaceId(src);
    if !Truthy(ws) then Halt(Reply(400, "workspaceId is required"))
    else if user.None? || user.value.id == "" then Halt(Reply(401, "Unauthorized"))
    else if lookupFails || !validId(ws.value) then Halt(Reply(500, "Failed to load membership"))
    else
      var key := MemberKey(ws.value, user.value.id);
      if key !in db.memberships then Halt(Reply(403, "Not a member of this workspace"))
      else Next(MembershipContext(db.memberships[key], ws.value, user.value.id))
  }

  /** A member is admitted with exactly its stored role, whichever source named
      the workspace. */
  lemma MemberAdmitted(src: WorkspaceSources, user: Identity, db: Db, validId: string -> bool)
    requires Truthy(ResolveWorkspaceId(src)) && user.id != "" && validId(ResolveWorkspaceId(src).value)
    requires MemberKey(ResolveWorkspaceId(src).value, user.id) in db.memberships
    ensures LoadWorkspaceMembership(src, Some(user), db, validId, false)
         == Next(MembershipContext(db.memberships[MemberKey(ResolveWorkspaceId(src).value, user.id)],
                                   ResolveWorkspaceId(src).value, user.id))
  {
  }
}

=== FILE: workspaces.dfy ===
/** Workspaces (src/routes/workspaces.ts): slug construction, creation with
    the creator as owner, and the caller's workspace list. */
module Workspaces {
  import opened Common
  import opened Strings
  import opened Rbac
  import opened Tokens
  import opened Kv
  import opened Docs
  import opened Collections
  import opened RequireJwt

  // ---------------------------------------------------------------------
  // Slugs

  /** The characters `[a-z0-9]` that survive slugging. */
  predicate IsSlugChar(c: char) { 'a' <= c <= 'z' || '0' <= c <= '9' }

  /** The length of the leading run of characters outside `[a-z0-9]`. */
  function RunEnd(s: string): (n: nat)
    ensures n <= |s|
    ensures n < |s| ==> IsSlugChar(s[n])
    ensures forall i :: 0 <= i < n ==> !IsSlugChar(s[i])
  {
    if |s| > 0 && !IsSlugChar(s[0]) then 1 + RunEnd(s[1..]) else 0
  }

  /** Drops the leading run of characters outside `[a-z0-9]`. */
  function DropRun(s: string): (r: string)
    ensures |r| <= |s|
    ensures |r| > 0 ==> IsSlugChar(r[0])
    ensures |s| > 0 && IsSlugChar(s[0]) ==> r == s
  {
    s[RunEnd(s)..]
  }

  /** `replace(/[^a-z0-9]+/g, '-')`: every maximal run of characters outside
      `[a-z0-9]` becomes one '-'. */
  function Collapse(s: string): (r: string)
    ensures |r| <= |s|
    ensures |r| > 0 <==> |s| > 0
    ensures |s| > 0 ==> (r[0] == '-' <==> !IsSlugChar(s[0]))
    ensures |s| > 0 && IsSlugChar(s[0]) ==> r[0] == s[0]
    decreases |s|
  {
    if |s| == 0 then []
    else if IsSlugChar(s[0]) then [s[0]] + Collapse(s[1..])
    else "-" + Collapse(DropRun(s[1..]))
  }

  /** Only `[a-z0-9]` and '-', and never two dashes in a row. */
  predicate DashSeparated(s: string) {
    && (forall i :: 0 <= i < |s| ==> IsSlugChar(s[i]) || s[i] == '-')
    && (forall i :: 0 <= i < |s| - 1 ==> !(s[i] == '-' && s[i + 1] == '-'))
  }

  /** The slug base's shape: dash-separated, with no dash at either end. */
  predicate SlugShaped(s: string) {
    DashSeparated(s) && (|s| > 0 ==> s[0] != '-' && s[|s| - 1] != '-')
  }

  /** Joining two dash-separated strings keeps the shape unless both meet
      in a dash. */
  lemma JoinDashSeparated(a: string, b: string)
    requires DashSeparated(a) && DashSeparated(b)
    requires |a| > 0 && |b| > 0 ==> !(a[|a| - 1] == '-' && b[0] == '-')
    ensures DashSeparated(a + b)
  {
    var c := a + b;
    forall i | 0 <= i < |c| - 1 ensures !(c[i] == '-' && c[i + 1] == '-') {
      if i < |a| - 1 { assert c[i] == a[i] && c[i + 1] == a[i + 1]; }
      else if i == |a| - 1 { assert c[i] == a[i] && c[i + 1] == b[0]; }
      else { assert c[i] == b[i - |a|] && c[i + 1] == b[i - |a| + 1]; }
    }
  }

  lemma {:induction false} CollapseDashSeparated(s: string)
    ensures DashSeparated(Collapse(s))
    decreases |s|
  {
    if |s| > 0 {
      if IsSlugChar(s[0]) {
        CollapseDashSeparated(s[1..]);
        JoinDashSeparated([s[0]], Collapse(s[1..]));
      } else {
        var d := DropRun(s[1..]);
        CollapseDashSeparated(d);
        JoinDashSeparated("-", Collapse(d));
      }
    }
  }

  /** A dash-separated string is left alone by the collapse. */
  lemma {:induction false} CollapseFixes(s: string)
    requires DashSeparated(s)
    ensures Collapse(s) == s
    decreases |s|
  {
    if |s| > 0 {
      assert DashSeparated(s[1..]);
      if IsSlugChar(s[0]) {
        CollapseFixes(s[1..]);
      } else {
        assert |s| > 1 ==> s[1] != '-';
        assert DropRun(s[1..]) == s[1..];
        CollapseFixes(s[1..]);
      }
    }
  }

  /** `replace(/(^-|-$)+/g, '')`: after the collapse there is at most one
      dash at each end, and both go. */
  function StripDashes(s: string): (r: string)
    ensures DashSeparated(s) ==> SlugShaped(r)
    ensures SlugShaped(s) ==> r == s
  {
    var a := if |s| > 0 && s[0] == '-' then s[1..] else s;
    if |a| > 0 && a[|a| - 1] == '-' then a[..|a| - 1] else a
  }

  /** The slug base of a workspace name. */
  function SlugBase(name: string): (r: string)
    ensures SlugShaped(r)
  {
    CollapseDashSeparated(ToLower(name));
    StripDashes(Collapse(ToLower(name)))
  }

  /** Dropping a leading run of separators keeps every `[a-z0-9]` character. */
  lemma {:induction false} DropRunKeepsSlugChars(s: string)
    ensures Filter(DropRun(s), IsSlugChar) == Filter(s, IsSlugChar)
    decreases |s|
  {
    if |s| > 0 && !IsSlugChar(s[0]) {
      DropRunKeepsSlugChars(s[1..]);
      assert DropRun(s) == DropRun(s[1..]);
    }
  }

  /** The collapse keeps the letters and digits, in order: it only rewrites
      the separators between them. */
  lemma {:induction false} CollapseKeepsSlugChars(s: string)
    ensures Filter(Collapse(s), IsSlugChar) == Filter(s, IsSlugChar)
    decreases |s|
  {
    if |s| > 0 {
      var c := Collapse(s);
      if IsSlugChar(s[0]) {
        CollapseKeepsSlugChars(s[1..]);
        assert c[0] == s[0] && c[1..] == Collapse(s[1..]);
      } else {
        var d := DropRun(s[1..]);
        CollapseKeepsSlugChars(d);
        DropRunKeepsSlugChars(s[1..]);
        assert c[0] == '-' && c[1..] == Collapse(d);
      }
    }
  }

  /** Stripping the end dashes removes no letter or digit. */
  lemma StripDashesKeepsSlugChars(s: string)
    ensures Filter(StripDashes(s), IsSlugChar) == Filter(s, IsSlugChar)
  {
    var a := if |s| > 0 && s[0] == '-' then s[1..] else s;
    assert Filter(a, IsSlugChar) == Filter(s, IsSlugChar);
    if |a| > 0 && a[|a| - 1] == '-' {
      assert a == a[..|a| - 1] + [a[|a| - 1]];
      FilterAppend(a[..|a| - 1], [a[|a| - 1]], IsSlugChar);
    }
  }

  /** The slug base holds exactly the lower-cased name's letters and digits,
      in order, separated by single dashes. */
  lemma SlugBaseKeepsSlugChars(name: string)
    ensures Filter(SlugBase(name), IsSlugChar) == Filter(ToLower(name), IsSlugChar)
    ensures SlugShaped(SlugBase(name))
  {
    CollapseKeepsSlugChars(ToLower(name));
    StripDashesKeepsSlugChars(Collapse(ToLower(name)));
  }

  /** A slug-shaped string has no upper-case letters. */
  lemma SlugShapedIsLower(s: string)
    requires DashSeparated(s)
    ensures NoUpper(s)
  {
    forall i | 0 <= i < |s| ensures !IsUpper(s[i]) {
      assert IsSlugChar(s[i]) || s[i] == '-';
    }
  }

  /** Building the base from a base gives it back. */
  lemma SlugBaseIdempotent(name: string)
    ensures SlugBase(SlugBase(name)) == SlugBase(name)
  {
    var b := SlugBase(name);
    SlugShapedIsLower(b);
    ToLowerFixesLower(b);
    CollapseFixes(b);
  }

  /** A name with no ASCII letter or digit has an empty base. */
  lemma NoAlphanumericsEmptyBase(name: string)
    requires forall i :: 0 <= i < |name| ==> !IsSlugChar(LowerChar(name[i]))
    ensures SlugBase(name) == ""
  {
    var l := ToLower(name);
    if |l| > 0 {
      assert DropRun(l[1..]) == [];
    }
  }

  /** The full slug: the base, a dash and the random suffix (six characters
      from the generator). */
  function Slug(name: string, suffix: string): (r: string)
    ensures |r| == |SlugBase(name)| + 1 + |suffix|
    ensures r[..|SlugBase(name)|] == SlugBase(name) && r[|SlugBase(name)|] == '-'
    ensures r[|SlugBase(name)| + 1..] == suffix
  {
    SlugBase(name) + "-" + suffix
  }

  // ---------------------------------------------------------------------
  // Creation and listing

  const MaxWorkspaceName := 80

  /** The values the handler draws: the new workspace's ObjectId and the
      slug suffix. */
  datatype WorkspaceGen = WorkspaceGen(id: string, suffix: string)

  /** Some workspace already has this slug. */
  predicate SlugTaken(db: Db, slug: string) {
    exists i :: 0 <= i < |db.workspaces| && db.workspaces[i].slug == slug
  }

  /** POST /workspaces for an authenticated caller. The workspace insert
      fails on a taken slug; the owner membership insert fails when that
      key already exists, after the workspace has been stored. */
  function CreateWorkspace(name: Option<string>, caller: Identity, gen: WorkspaceGen, db: Db): (r: (Reply, Db))
    ensures name.None? || !(1 <= |name.value| <= MaxWorkspaceName) ==> r == (Reply(400, "Validation error"), db)
    ensures r.1.users == db.users && r.1.channels == db.channels && r.1.messages == db.messages && r.1.invites == db.invites
    ensures name.Some? && 1 <= |name.value| <= MaxWorkspaceName ==>
      && ((exists i :: 0 <= i < |db.workspaces| && db.workspaces[i].slug == Slug(name.value, gen.suffix))
            ==> r == (Reply(409, "Workspace slug conflict. Try a different name."), db))
    ensures r.0.status == 201 ==>
      && r.1.workspaces == db.workspaces + [Workspace(gen.id, name.value, Slug(name.value, gen.suffix), caller.id)]
      && MemberKey(gen.id, caller.id) !in db.memberships
      && r.1.memberships == db.memberships[MemberKey(gen.id, caller.id) := Owner]
    ensures r.0.status != 201 ==> r.1.memberships == db.memberships
    ensures r.1 != db ==>
      r.1.workspaces == db.workspaces + [Workspace(gen.id, name.value, Slug(name.value, gen.suffix), caller.id)]
    ensures name.Some? && 1 <= |name.value| <= MaxWorkspaceName && !SlugTaken(db, Slug(name.value, gen.suffix)) ==>
      var stored := db.(workspaces := db.workspaces + [Workspace(gen.id, name.value, Slug(name.value, gen.suffix), caller.id)]);
      r == if MemberKey(gen.id, caller.id) in db.memberships
           then (Reply(409, "Workspace slug conflict. Try a different name."), stored)
           else (Reply(201, "workspace"), stored.(memberships := db.memberships[MemberKey(gen.id, caller.id) := Owner]))
  {
    if name.None? || !(1 <= |name.value| <= MaxWorkspaceName) then (Reply(400, "Validation error"), db)
    else
      var slug := Slug(name.value, gen.suffix);
      if FindFirst(db.workspaces, (w: Workspace) => w.slug == slug).Some? then
        (Reply(409, "Workspace slug conflict. Try a different name."), db)
      else
        var db1 := db.(workspaces := db.workspaces + [Workspace(gen.id, name.value, slug, caller.id)]);
        var key := MemberKey(gen.id, caller.id);
        if key in db.memberships then (Reply(409, "Workspace slug conflict. Try a different name."), db1)
        else (Reply(201, "workspace"), db1.(memberships := db.memberships[key := Owner]))
  }

  /** A created workspace has its creator as its only owner. */
  lemma CreatorIsSoleOwner(name: Option<string>, caller: Identity, gen: WorkspaceGen, db: Db)
    requires forall k :: k in db.memberships ==> k.workspaceId != gen.id
    requires CreateWorkspace(name, caller, gen, db).0.status == 201
    ensures OwnersOf(CreateWorkspace(name, caller, gen, db).1.memberships, gen.id) == {caller.id}
  {
    var m := CreateWorkspace(name, caller, gen, db).1.memberships;
    assert caller.id in OwnersOf(m, gen.id) by {
      assert MemberKey(gen.id, caller.id) in m;
    }
  }

  /** Creation keeps slugs unique. */
  lemma CreateKeepsSlugsUnique(name: Option<string>, caller: Identity, gen: WorkspaceGen, db: Db)
    requires Unique(db.workspaces, (w: Workspace) => w.slug)
    ensures Unique(CreateWorkspace(name, caller, gen, db).1.workspaces, (w: Workspace) => w.slug)
  {
    var r := CreateWorkspace(name, caller, gen, db);
    if r.1.workspaces != db.workspaces {
      AppendKeepsUnique(db.workspaces, (w: Workspace) => w.slug, r.1.workspaces[|db.workspaces|]);
      assert r.1.workspaces == db.workspaces + [r.1.workspaces[|db.workspaces|]];
    }
  }

  /** The caller's memberships, as workspace id to role. */
  function MembershipsOf(userId: string, db: Db): (r: map<string, Role>)
    ensures forall ws :: ws in r <==> MemberKey(ws, userId) in db.memberships
    ensures forall ws :: ws in r ==> r[ws] == db.memberships[MemberKey(ws, userId)]
  {
    map k | k in db.memberships && k.userId == userId :: k.workspaceId := db.memberships[k]
  }

  /** GET /workspaces: the workspaces whose ids occur among the caller's
      memberships, with those memberships. */
  function ListWorkspaces(userId: string, db: Db): (r: (seq<Workspace>, map<string, Role>))
    ensures forall w :: w in r.0 <==> w in db.workspaces && w.id in r.1
    ensures r.1 == MembershipsOf(userId, db)
  {
    var ms := MembershipsOf(userId, db);
    (Filter(db.workspaces, (w: Workspace) => w.id in ms), ms)
  }

  /** A workspace the caller just created is in the caller's list. */
  lemma CreatedWorkspaceIsListed(name: Option<string>, caller: Identity, gen: WorkspaceGen, db: Db)
    requires CreateWorkspace(name, caller, gen, db).0.status == 201
    ensures var db1 := CreateWorkspace(name, caller, gen, db).1;
            Workspace(gen.id, name.value, Slug(name.value, gen.suffix), caller.id) in ListWorkspaces(caller.id, db1).0
            && ListWorkspaces(caller.id, db1).1[gen.id] == Owner
  {
    var db1 := CreateWorkspace(name, caller, gen, db).1;
    assert db1.workspaces[|db.workspaces|] == Workspace(gen.id, name.value, Slug(name.value, gen.suffix), caller.id);
  }

  /** Both routes sit behind requireJWT only. */
  function CreateWorkspaceRoute(authorization: Option<string>, name: Option<string>, gen: WorkspaceGen,
                                codec: Codec, now: int, outage: Outage, ks: Keyspace, db: Db): (r: (Reply, Db))
    ensures r.1 != db ==>
      && RequireJWT(authorization, codec, ks, now, outage).Next?
      && |r.1.workspaces| == |db.workspaces| + 1
      && r.1.workspaces[|db.workspaces|].ownerId == RequireJWT(authorization, codec, ks, now, outage).value.id
  {
    match RequireJWT(authorization, codec, ks, now, outage)
    case Halt(reply) => (reply, db)
    case Next(user) => CreateWorkspace(name, user, gen, db)
  }

  function ListWorkspacesRoute(authorization: Option<string>, codec: Codec, now: int, outage: Outage,
                               ks: Keyspace, db: Db): (r: Step<(seq<Workspace>, map<string, Role>)>)
    ensures r.Next? <==> RequireJWT(authorization, codec, ks, now, outage).Next?
    ensures r.Next? ==> forall w :: w in r.value.0 ==>
      w in db.workspaces && MemberKey(w.id, RequireJWT(authorization, codec, ks, now, outage).value.id) in db.memberships
  {
    match RequireJWT(authorization, codec, ks, now, outage)
    case Halt(reply) => Halt(reply)
    case Next(user) => Next(ListWorkspaces(user.id, db))
  }
}
